=== FILE: README.md ===
# email-summarizer, modelled in Dafny

This project models the core of *email-summarizer*, a command-line tool that pulls a
user's mail from Gmail and Outlook over IMAP, extracts text from the messages and their
attachments, asks a local Ollama model for a short summary of each message, and assembles
the summaries into a Markdown daily digest. A small JSON state file keeps a "last run"
checkpoint per account, so that the next run fetches only newer mail.

The model covers:

- **Fetching** (`imap_fetcher.dfy`, module `ImapFetcher`):
  - the search bound (the 24-hour window, the checkpoint, or everything);
  - the folder list (INBOX plus the spam folders);
  - the per-folder search that skips folders it cannot select and treats a failed search as empty;
  - the sorted, de-duplicated UID list;
  - the early return when nothing is found;
  - the bulk fetch;
  - the decomposition of each raw message into headers, plain body, HTML body and attachments,
    for multipart and single-part messages.

  The fetcher is a class whose constructor fixes the account key.
- **Where the bulk fetch runs** (`fetch_by_folder.dfy`, module `FetchByFolder`): the code
  sends one fetch after the search loop, in the mailbox selected last. This module shows an
  account where that loses every message, and defines the folder-by-folder fetch that keeps them.
- **Attachment parsing** (`attachment_parser.dfy`, module `AttachmentParser`):
  - the classification by MIME type and file extension;
  - encoding detection with the UTF-8 fallback;
  - the HTML, CSV, plain-text, PDF (page by page) and DOCX paths;
  - the filter that keeps only attachments with non-empty text.
- **The checkpoint store** (`state.dfy`, module `State`):
  - a class over the JSON document and the state file;
  - loading with reset-on-corruption;
  - `get_last_run`, with the exceptions Python raises on a wrongly shaped document;
  - `set_last_run`, which writes the UTC ISO time and saves through a temporary file.
- **The summarizer** (`summarizer.dfy`, module `Summarizer`):
  - the importance heuristic;
  - the attachment and content preparation with its truncations;
  - the single model call per email, with its request parameters;
  - the fallback summary and the "no readable content" message.
- **The daily digest** (`digest.dfy`, module `DailyDigest`):
  - the split into important and other emails;
  - the header;
  - the two sections with their seven-line entries;
  - the final join;
  - the number of model calls a digest makes.
- **Configuration** (`config.dfy`, module `Config`):
  - the `config.env` loader, where `setdefault` means variables already exported win and the
    first occurrence in the file wins;
  - the settings read from the environment.
- **The driver** (`cli.dfy`, module `Cli`):
  - the per-account order: read the checkpoint, fetch, then advance the checkpoint;
  - which accounts a run processes.

Support modules:

- `wrappers.dfy`: `Option` and `Result`.
- `text.dfy`: Python string operations such as `strip`, `lower`, `split`, `join` and substring search.
- `time.dfy`: datetimes as an epoch instant plus a UTC offset.

Every library the code calls is a parameter of the model: a datatype whose fields are functions
standing for what the library returns. These are:

- the MIME parser (`MimeLibrary`);
- the encoding detector, decoders and document extractors (`Decoders`);
- the IMAP server (`Server`);
- the JSON codec (`JsonCodec`);
- the date formatters (`TimeFormats`);
- the HTTP POST to Ollama (`Services.post`).

An exception becomes `None` or a `Failure`. The current time is a parameter too.

## Model

| member | source | states |
|---|---|---|
| Time.UtcLaws | src/email_summarizer/imap_fetcher.py:68-70 | converting to UTC is idempotent and commutes with stepping back one day, and the day before is strictly earlier, also once both are in UTC |
| AttachmentParser.Classify | src/email_summarizer/attachment_parser.py:19-70 | the text rule (`text/*` or .txt/.csv/.html/.htm) selects exactly the HTML, CSV and plain paths. HTML wins inside it, then CSV. PDF is taken only when the text rule fails. DOCX is taken only when neither the text rule nor the PDF rule holds. |
| AttachmentParser.Encoding | src/email_summarizer/attachment_parser.py:22-25 | a detected non-empty encoding is used as it is. A missing or empty one becomes utf-8. |
| AttachmentParser.CsvLines | src/email_summarizer/attachment_parser.py:41 | there is one line per row, and line k is row k's cells joined by ", " |
| AttachmentParser.CsvText | src/email_summarizer/attachment_parser.py:34-46 | rows read give `CSV Data:\n` followed by the row lines joined by newlines. A reader failure or zero rows falls through to the stripped text. |
| AttachmentParser.CsvLinesRecoverable | src/email_summarizer/attachment_parser.py:39-42 | when no cell holds a newline, splitting the text after the heading at newlines gives back exactly one line per row |
| AttachmentParser.CsvExample | src/email_summarizer/attachment_parser.py:41-42 | cells are joined by ", " and rows by newlines under the `CSV Data:` heading |
| AttachmentParser.PageTexts | src/email_summarizer/attachment_parser.py:56-60 | each page gives its stripped text, or "" when its extraction raised |
| AttachmentParser.PageTextEmpty | src/email_summarizer/attachment_parser.py:57-62 | a page contributes nothing exactly when its extraction raises or its text is whitespace only |
| AttachmentParser.PdfStep | src/email_summarizer/attachment_parser.py:56-60 | one more page appends its stripped text exactly when extraction did not raise and the text is not blank |
| AttachmentParser.PdfJoin | src/email_summarizer/attachment_parser.py:55-64 | there is no PDF text iff every page raised or was blank. Otherwise the text is non-empty. |
| AttachmentParser.CollectPdfText | src/email_summarizer/attachment_parser.py:55-64 | the page loop computes exactly `PdfJoin` of the page extraction results |
| AttachmentParser.DocxResult | src/email_summarizer/attachment_parser.py:71-77 | DOCX text is returned stripped and non-empty, and it is absent iff the extractor gave nothing or whitespace |
| AttachmentParser.ParseAttachmentSpec | src/email_summarizer/attachment_parser.py:10-79 | empty content and unsupported types give None, and PDF or DOCX text is never empty |
| AttachmentParser.WhitespaceTextIsEmptyString | src/email_summarizer/attachment_parser.py:19-46 | a whitespace-only plain-text attachment yields the empty string, not None |
| AttachmentParser.ParseAttachment | src/email_summarizer/attachment_parser.py:10-79 | the parser follows `ParseAttachmentSpec` on every input |
| AttachmentParser.Keep | src/email_summarizer/attachment_parser.py:89-91 | only pairs with non-empty text are kept, each one taken from a candidate |
| AttachmentParser.ParseAllSpec | src/email_summarizer/attachment_parser.py:82-92 | there is at most one result per attachment. Each result has non-empty text and is that input attachment's own parse. |
| AttachmentParser.KeepAppend | src/email_summarizer/attachment_parser.py:87-92 | filtering distributes over concatenation |
| AttachmentParser.ParseAllAppend | src/email_summarizer/attachment_parser.py:87-92 | parsing a concatenated list is parsing each part in order |
| AttachmentParser.KeepEmpty | src/email_summarizer/attachment_parser.py:87-92 | the filtered list is empty iff no candidate has usable text |
| AttachmentParser.ParseAllEmpty | src/email_summarizer/attachment_parser.py:87-92 | nothing is returned iff no attachment parses to non-empty text |
| AttachmentParser.ParseAllStep | src/email_summarizer/attachment_parser.py:87-91 | one more attachment adds its file name and text exactly when it parses to non-empty text |
| AttachmentParser.ParseAllAttachments | src/email_summarizer/attachment_parser.py:82-92 | the loop computes exactly `ParseAllSpec` |
| ImapFetcher.Step | src/email_summarizer/imap_fetcher.py:106-131 | one part never clears a filled plain body or a non-empty HTML body. The attachments gain this part exactly when it is an attachment with a filename and a payload. An attachment part changes neither body. |
| ImapFetcher.Walk | src/email_summarizer/imap_fetcher.py:105-131 | filled bodies stay filled, and the attachments found before stay in front, with at most one more per part |
| ImapFetcher.Captures | src/email_summarizer/imap_fetcher.py:109-115 | every captured attachment has a non-empty filename and payload, at most one per part |
| ImapFetcher.WalkAttachments | src/email_summarizer/imap_fetcher.py:105-115 | the walk appends exactly the captured attachments, in part order |
| ImapFetcher.WalkBody | src/email_summarizer/imap_fetcher.py:116-123 | once set, the plain body is kept; otherwise it is the first plain part whose stripped text is non-empty |
| ImapFetcher.StepBody | src/email_summarizer/imap_fetcher.py:116-121 | one part fills an empty plain body with its stripped decoded text and leaves a filled one alone |
| ImapFetcher.FirstPlainCons | src/email_summarizer/imap_fetcher.py:116-121 | the first usable plain part is the head when the head qualifies, else it is found in the tail |
| ImapFetcher.WalkHtml | src/email_summarizer/imap_fetcher.py:124-131 | a non-empty HTML body is final. An HTML part decoding to "" fills the slot with "" but leaves it open for a later part. |
| ImapFetcher.DecomposeWalk | src/email_summarizer/imap_fetcher.py:104-131 | walking a multipart message gives the first plain body, the HTML choice and the captured attachments |
| ImapFetcher.DecomposeParts | src/email_summarizer/imap_fetcher.py:104-131 | the part loop computes the first plain body, the HTML choice and the captures |
| ImapFetcher.SinglePartSlots | src/email_summarizer/imap_fetcher.py:132-148 | a non-empty single-part text/html payload becomes the HTML body, unstripped. A non-empty payload of any other type becomes exactly the stripped decoded plain body. An empty payload leaves both unset, and there are no attachments. |
| ImapFetcher.Recipients | src/email_summarizer/imap_fetcher.py:89 | every recipient is non-empty, stripped and free of commas, and every comma-separated piece that is not blank is among them, stripped |
| ImapFetcher.RecipientsAppend | src/email_summarizer/imap_fetcher.py:89 | the recipients of two comma-joined headers are those of each, in order and with repeats kept |
| ImapFetcher.RecipientsPiece | src/email_summarizer/imap_fetcher.py:89 | a piece without a comma gives its stripped text, or nothing when it is blank; with `RecipientsAppend` this fixes the list for every header |
| ImapFetcher.DecomposeSpec | src/email_summarizer/imap_fetcher.py:82-164 | an email results exactly when the message parses. It keeps the account, UID and raw bytes. Its subject and sender are the headers or "", its recipients are `Recipients` of the To header, and its plain body, HTML and attachments are the message's `BodySlots`. Its date is the parsed Date header, or "now" when that does not parse. |
| ImapFetcher.Decompose | src/email_summarizer/imap_fetcher.py:82-164 | the per-message decomposition follows `DecomposeSpec` |
| ImapFetcher.DecomposeBody | src/email_summarizer/imap_fetcher.py:99-148 | body extraction chooses the multipart walk or the single-part rule |
| ImapFetcher.Mailboxes | src/email_summarizer/imap_fetcher.py:39-43 | INBOX comes first, and the three spam folders follow iff spam is included |
| ImapFetcher.SinceBound | src/email_summarizer/imap_fetcher.py:66-70 | the 24-hour window means now minus one day. Otherwise the bound exists iff a checkpoint does, as the same instant in UTC. |
| ImapFetcher.CriteriaFor | src/email_summarizer/imap_fetcher.py:49-52 | `ALL` is used iff there is no bound, else `SINCE` with the IMAP date of the bound |
| ImapFetcher.FoundMembers | src/email_summarizer/imap_fetcher.py:44-58 | a UID is collected iff some selectable folder's successful search returned it |
| ImapFetcher.Insert | src/email_summarizer/imap_fetcher.py:60 | inserting into a strictly increasing list keeps it strictly increasing and adds exactly the one element |
| ImapFetcher.SortedDistinct | src/email_summarizer/imap_fetcher.py:60 | the UID list is strictly increasing with the same members as the input |
| ImapFetcher.IncreasingUnique | src/email_summarizer/imap_fetcher.py:60 | two strictly increasing lists with the same members are equal |
| ImapFetcher.SortedDistinctUnique | src/email_summarizer/imap_fetcher.py:60 | the sorted de-duplication is the only strictly increasing list with those members |
| ImapFetcher.SearchedUids | src/email_summarizer/imap_fetcher.py:38-60 | the searched UIDs are strictly increasing, and a UID is there iff some folder in the list returned it |
| ImapFetcher.ItemEmails | src/email_summarizer/imap_fetcher.py:81-164 | one fetched item gives at most one email. It gives one exactly when it has `RFC822` data that decomposes, and that email is the decomposition. |
| ImapFetcher.DecomposeAllSpec | src/email_summarizer/imap_fetcher.py:80-165 | there is at most one email per fetched item, all under the fetcher's account key, and each one is the decomposition of some fetched item's `RFC822` data |
| ImapFetcher.DecomposeAllAppend | src/email_summarizer/imap_fetcher.py:81-164 | the messages of a response in two parts are the messages of each part, in order |
| ImapFetcher.DecomposeAllSingleton | src/email_summarizer/imap_fetcher.py:82-164 | one item gives its decomposed email, or nothing when it has no `RFC822` data or fails to decompose |
| ImapFetcher.DecomposeAllPrefix | src/email_summarizer/imap_fetcher.py:81-164 | each loop step appends what its item gives |
| ImapFetcher.DecomposeAllAround | src/email_summarizer/imap_fetcher.py:81-164 | the result is what comes before an item, then what that item gives, then what comes after |
| ImapFetcher.DecomposeAllComplete | src/email_summarizer/imap_fetcher.py:81-164 | no message is lost: every item whose message decomposes contributes its email |
| ImapFetcher.FetchOutcome | src/email_summarizer/imap_fetcher.py:62-165 | a failed login raises and no UIDs give an empty list. Otherwise the bulk fetch of the sorted distinct UIDs is sent in the mailbox the last select left selected (`Selected`). A raising fetch is a failure, and a fetched response gives exactly `DecomposeAllSpec` of its items. Every returned email carries the account key. |
| ImapFetcher.ImapEmailFetcher.constructor | src/email_summarizer/imap_fetcher.py:26-31 | the connection settings are stored, and the account key is the given one or else the user name |
| ImapFetcher.ImapEmailFetcher.SearchOneFolder | src/email_summarizer/imap_fetcher.py:45-58 | a folder that cannot be selected is skipped, and a failed search counts as empty. The mailbox left selected is that folder, or none after a failed select. |
| ImapFetcher.ImapEmailFetcher.SearchSince | src/email_summarizer/imap_fetcher.py:38-60 | the result is the sorted distinct UIDs found over the folder list, with exactly the select and search commands of those folders. The mailbox left selected is `Selected` of the folder list. |
| ImapFetcher.ImapEmailFetcher.DecomposeAll | src/email_summarizer/imap_fetcher.py:80-165 | the message loop computes `DecomposeAllSpec`, skipping messages that fail |
| ImapFetcher.ImapEmailFetcher.Fetch | src/email_summarizer/imap_fetcher.py:62-165 | the result is `FetchOutcome`. No command is sent after a failed login. The bulk fetch is sent iff the search found a UID, and it is sent in the mailbox the last select left selected. |
| ImapFetcher.BulkFetchMailbox | src/email_summarizer/imap_fetcher.py:40-47 | without spam folders the bulk fetch runs in INBOX if it could be selected. With them it runs in "Spam" if that could be selected, and in no mailbox otherwise; never in INBOX. |
| ImapFetcher.BulkFetchIssuedIffFound | src/email_summarizer/imap_fetcher.py:73-76 | the early return happens exactly when no folder returned any UID |
| FetchByFolder.SpamFolderMissingLosesInbox | src/email_summarizer/imap_fetcher.py:44-78 | as written, with spam folders searched, an account where INBOX holds UID 7, "[Gmail]/Spam" exists and "Junk" and "Spam" do not, and a fetch needs a selected mailbox, gets a failed bulk fetch and no email |
| FetchByFolder.GmailLikeFound | src/email_summarizer/imap_fetcher.py:44-60 | the search over that account finds UID 7 alone |
| FetchByFolder.FolderFetch | src/email_summarizer/imap_fetcher.py:44-78 | corrected: a folder whose search found nothing gives no email, and every email carries the account key |
| FetchByFolder.FetchFolders | src/email_summarizer/imap_fetcher.py:44-78 | corrected: folders fetched in turn; every email carries the account key |
| FetchByFolder.FetchOutcomeByFolder | src/email_summarizer/imap_fetcher.py:62-78 | corrected `fetch`: a failed login raises, no UIDs give an empty list, and every email carries the account key |
| FetchByFolder.NothingFoundNothingFetched | src/email_summarizer/imap_fetcher.py:73-74 | corrected: when no folder returned a UID the result is empty, as in the code's early return |
| FetchByFolder.SpamFolderMissingByFolder | src/email_summarizer/imap_fetcher.py:44-78 | corrected, that account gives exactly the emails of its INBOX |
| FetchByFolder.ByFolderAgreesWithoutSpam | src/email_summarizer/imap_fetcher.py:38-78 | without the spam folders the corrected fetch and the code as written give the same result |
| State.Loaded | src/email_summarizer/state.py:20-35 | a missing file or one `json.load` cannot read gives `{"accounts": {}}`. A readable file gives exactly the document read. |
| State.LastRunOf | src/email_summarizer/state.py:43-53 | a missing or falsy account node, or a missing or falsy `last_run_iso`, gives None. A stored non-empty ISO string gives its parse, and any checkpoint returned is such a parse. A truthy `last_run_iso` that is not a string gives None. A non-object document, a non-object `accounts` or a truthy non-object account node raises AttributeError. |
| State.WithLastRun | src/email_summarizer/state.py:55-60 | when the shapes allow it, the account's `last_run_iso` is written and every other key is kept. Otherwise it raises and nothing changes. |
| State.SetThenGet | src/email_summarizer/state.py:43-60 | after a set, a get of that account returns the stored instant in UTC |
| State.SetLeavesOthers | src/email_summarizer/state.py:55-60 | setting one account's checkpoint does not change any other account's |
| State.FreshStoreHasNoCheckpoint | src/email_summarizer/state.py:24-46 | a missing or corrupt state file yields no checkpoint for any account |
| State.ReloadAfterSave | src/email_summarizer/state.py:27-41 | reloading a saved document gives the same document back |
| State.StateStore.constructor | src/email_summarizer/state.py:20-35 | the store starts from the loaded document |
| State.StateStore.Save | src/email_summarizer/state.py:37-41 | the file holds the dumped document, the temporary file is gone, and the document is unchanged |
| State.StateStore.GetLastRun | src/email_summarizer/state.py:43-53 | reading the store's document: a non-object document or `accounts` raises AttributeError, and so does a truthy non-object account node. A falsy account node, a falsy `last_run_iso` or a non-string one gives None. A stored non-empty ISO string gives its parse. |
| State.StateStore.SetLastRun | src/email_summarizer/state.py:55-61 | the new document is `WithLastRun` of the old one at the UTC ISO time, or at now when no time is given, and it is saved. On a raise nothing changes. |
| State.CheckpointRoundTrip | src/email_summarizer/state.py:43-61 | through the store, get after a successful set returns the instant set, in UTC |
| Summarizer.IsImportant | src/email_summarizer/summarizer.py:36-65 | an email is important iff its subject has a keyword, its sender has a known domain, it has attachments, or it is a reply or forward (lowercased) |
| Summarizer.UpperCaseReplyIsImportant | src/email_summarizer/summarizer.py:38-62 | a subject starting with "RE:" counts as a reply |
| Summarizer.AttachmentLine | src/email_summarizer/summarizer.py:74-78 | each line names the file. Text over 1000 characters is cut to 1000 plus "...", shorter text is kept whole. |
| Summarizer.AttachmentSummaries | src/email_summarizer/summarizer.py:73-78 | there is one line per parsed attachment, in order |
| Summarizer.ContentParts | src/email_summarizer/summarizer.py:82-86 | there is one part per non-empty text: `Email body: ` with the body first, then `Attachments: ` with the attachment text |
| Summarizer.NoContent | src/email_summarizer/summarizer.py:89 | the message names the sender and the subject and ends with "(no readable content)" |
| Summarizer.Fallback | src/email_summarizer/summarizer.py:109-111 | the fallback lists sender and subject, then exactly the first 200 characters of the body (all of a shorter one), then "..." |
| Summarizer.Content | src/email_summarizer/summarizer.py:91-95 | the content is at most 3003 characters. It is the joined parts unchanged when they fit in 3000. |
| Summarizer.Prompt | src/email_summarizer/summarizer.py:97-106 | the prompt is the instruction, then a blank line and the `From:`, `Subject:` and `Date:` lines, then a blank line, then `Content:` with the content, and last a blank line and `Summary:` |
| Summarizer.AttachmentTextNonEmpty | src/email_summarizer/summarizer.py:70-79 | the attachment text is empty iff no attachment parsed |
| Summarizer.NothingToSummarize | src/email_summarizer/summarizer.py:70-88 | there is no content iff the body is empty and no attachment parsed |
| Summarizer.BuildAttachmentText | src/email_summarizer/summarizer.py:71-79 | the attachment loop builds exactly the joined attachment lines |
| Summarizer.BuildContentParts | src/email_summarizer/summarizer.py:82-86 | the content parts are built as `ContentParts` says |
| Summarizer.CutContent | src/email_summarizer/summarizer.py:91-95 | the content is joined and cut as `Content` says |
| Summarizer.PrepareContent | src/email_summarizer/summarizer.py:70-86 | the content parts come from the email's own body and attachments |
| Summarizer.EmailSummarizer.CallOllama | src/email_summarizer/summarizer.py:13-34 | a successful POST gives its reply stripped, and any failure gives "". The result never has surrounding whitespace. |
| Summarizer.EmailSummarizer.SummarySpec | src/email_summarizer/summarizer.py:67-113 | a summary is never empty |
| Summarizer.EmailSummarizer.ModelSummary | src/email_summarizer/summarizer.py:97-113 | the summary once there is content is never empty. Which text it is, is stated by `EmptyReplyFallsBack` and `ModelReplyIsSummary`. |
| Summarizer.EmailSummarizer.ModelRequest | src/email_summarizer/summarizer.py:16-108 | the POST goes to `<url>/api/generate` with the configured model, no streaming, 200 tokens, temperature 0.3 and a 60 s timeout. The prompt opens with the instruction and ends with the cut content and `Summary:`. |
| Summarizer.EmailSummarizer.NoContentSkipsModel | src/email_summarizer/summarizer.py:88-89 | with no content the "no readable content" message is returned whatever the model would answer |
| Summarizer.EmailSummarizer.EmptyReplyFallsBack | src/email_summarizer/summarizer.py:108-111 | with content to summarize, a failed or empty model reply gives the fallback summary |
| Summarizer.EmailSummarizer.ModelReplyIsSummary | src/email_summarizer/summarizer.py:108-113 | with content to summarize, a reply that is not empty once stripped is the summary |
| Summarizer.EmailSummarizer.SummarizeContent | src/email_summarizer/summarizer.py:91-113 | the call gives `ModelSummary` and sends exactly `ModelRequest` |
| Summarizer.EmailSummarizer.SummarizeEmail | src/email_summarizer/summarizer.py:67-113 | the summary is `SummarySpec`, and the model requests sent are exactly `ModelCalls` |
| Summarizer.ModelCalls | src/email_summarizer/summarizer.py:88-108 | at most one request is made per email, and none iff there is no content |
| DailyDigest.Select | src/email_summarizer/summarizer.py:121-122 | a filter is never longer than its input |
| DailyDigest.SelectAppend | src/email_summarizer/summarizer.py:121-122 | filtering a concatenation filters each part and keeps them in order |
| DailyDigest.SelectSingleton | src/email_summarizer/summarizer.py:121-122 | one element is kept exactly when its flag is the wanted one |
| DailyDigest.SelectMembers | src/email_summarizer/summarizer.py:121-122 | every selected email is an input whose flag has the wanted value |
| DailyDigest.SelectPartition | src/email_summarizer/summarizer.py:121-122 | the two filters together are a permutation of the input |
| DailyDigest.SelectLengths | src/email_summarizer/summarizer.py:121-122 | the two filters' lengths add up to the input's |
| DailyDigest.ImportantEmails | src/email_summarizer/summarizer.py:121 | the important emails are drawn from the input and are no more than it |
| DailyDigest.RegularEmails | src/email_summarizer/summarizer.py:122 | the other emails are drawn from the input and are no more than it |
| DailyDigest.ImportanceSplit | src/email_summarizer/summarizer.py:121-122 | important emails are important and others are not, and together they are a permutation of all emails |
| DailyDigest.SectionsKeepOrder | src/email_summarizer/summarizer.py:121-122 | both lists keep the input order: the lists of a concatenation are the parts' lists concatenated, and one email goes to exactly the list its importance names |
| DailyDigest.EntriesLines | src/email_summarizer/summarizer.py:136-144 | each entry takes seven lines |
| DailyDigest.EntriesLinesBlocks | src/email_summarizer/summarizer.py:136-144 | lines 7k to 7k+6 are entry k's sender, subject, time, blank, summary, `---`, blank |
| DailyDigest.EntriesAt | src/email_summarizer/summarizer.py:136-137 | entry k pairs email k with its own summary |
| DailyDigest.Section | src/email_summarizer/summarizer.py:133-144 | an empty group has no section. Otherwise the section is a title, a blank and seven lines per email. |
| DailyDigest.Header | src/email_summarizer/summarizer.py:127-130 | there are four header lines: the title with the first email's date, the total count, the important count, and a blank |
| DailyDigest.LayoutShape | src/email_summarizer/summarizer.py:124-158 | the digest is the header followed by the two sections, with the section titles at their positions |
| DailyDigest.LayoutImportant | src/email_summarizer/summarizer.py:133-144 | important entry k occupies lines 6+7k to 12+7k |
| DailyDigest.LayoutOther | src/email_summarizer/summarizer.py:147-158 | other entry k occupies the lines after the important section, at offset 2+7k |
| DailyDigest.LayoutImportantEmails | src/email_summarizer/summarizer.py:133-144 | important entry k shows important email k with its summary |
| DailyDigest.LayoutOtherEmails | src/email_summarizer/summarizer.py:147-158 | other entry k shows other email k with its summary |
| DailyDigest.DigestLines | src/email_summarizer/summarizer.py:124-158 | the first line of a non-empty digest is its title |
| DailyDigest.DigestOf | src/email_summarizer/summarizer.py:115-160 | no emails give the "No emails found" message. Otherwise the text is the digest's lines joined by newlines, and so starts with the digest title. |
| DailyDigest.DigestShape | src/email_summarizer/summarizer.py:124-158 | the header carries the first email's date, the number of emails and the number of important ones. The line count follows from the number of important and other emails, and each section title is followed by a blank line. |
| DailyDigest.DigestImportantEntries | src/email_summarizer/summarizer.py:133-144 | entry k is important email k with its summary; `SectionsKeepOrder` makes that the input order |
| DailyDigest.DigestOtherEntries | src/email_summarizer/summarizer.py:147-158 | entry k is other email k with its summary; `SectionsKeepOrder` makes that the input order |
| DailyDigest.Digest | src/email_summarizer/summarizer.py:115-160 | the digest built from the summarizer's own summaries has the same two cases, with the lines of `DigestLines` joined by newlines |
| DailyDigest.CallLists | src/email_summarizer/summarizer.py:137-151 | there is at most one model request per email |
| DailyDigest.DigestCallsBound | src/email_summarizer/summarizer.py:133-158 | a digest makes at most one model request per email |
| DailyDigest.AppendEntry | src/email_summarizer/summarizer.py:137-144 | one step appends the email's seven lines and makes that email's requests |
| DailyDigest.AppendSection | src/email_summarizer/summarizer.py:133-144 | the loop appends the section and makes the requests of its emails, in order |
| DailyDigest.GenerateDailyDigest | src/email_summarizer/summarizer.py:115-160 | the text is `Digest`, and the requests are the important emails' calls followed by the others' |
| Config.ParseLine | src/email_summarizer/config.py:39-42 | blank, comment and `=`-free lines are skipped. Otherwise the line splits at its first `=` and both halves are stripped. |
| Config.SetDefault | src/email_summarizer/config.py:43 | an existing variable is never overwritten. A new one is added when the environment accepts it, otherwise it raises. |
| Config.FileNeverOverrides | src/email_summarizer/config.py:38-43 | loading the file keeps every exported variable and adds only keys the file sets |
| Config.FirstOccurrenceWins | src/email_summarizer/config.py:38-43 | a key set twice in the file keeps its first value |
| Config.NotYetSet | src/email_summarizer/config.py:38-43 | a key neither exported nor in the file stays unset |
| Config.ApplyPairsStopsAtFailure | src/email_summarizer/config.py:38-43 | a raise stops the loading: later lines have no effect |
| Config.NormalizeNewlines | src/email_summarizer/config.py:37-38 | reading in text mode leaves no carriage return and never lengthens the text |
| Config.NormalizeWithoutReturns | src/email_summarizer/config.py:37-38 | a text without carriage returns is read unchanged |
| Config.NormalizeKeepsPrefix | src/email_summarizer/config.py:37-38 | text before the first carriage return is read unchanged |
| Config.LinesOfText | src/email_summarizer/config.py:37-38 | no line holds `\n` or `\r`, and the lines joined by `\n` give the text as read |
| Config.LoneReturnEndsLine | src/email_summarizer/config.py:37-38 | a lone carriage return ends a line |
| Config.LoneReturnExample | src/email_summarizer/config.py:37-38 | the file `A=1\rB=2` has the two lines `A=1` and `B=2` |
| Config.ApplyPairsStep | src/email_summarizer/config.py:38-43 | after lines that all applied, one more line applies to the environment so far |
| Config.LoadLines | src/email_summarizer/config.py:38-43 | the line loop computes the parsed lines applied in order |
| Config.LoadEnvFile | src/email_summarizer/config.py:36-43 | the file is read in text mode and the line loop computes the loaded environment |
| Config.LoadLine | src/email_summarizer/config.py:39-43 | one line is parsed and then applied with `setdefault` |
| Config.Account | src/email_summarizer/config.py:54-70 | an account exists iff both the user name and the password are non-empty, on port 993 over SSL |
| Config.DefaultModelStripped | src/email_summarizer/config.py:51 | the default model name is non-empty and stripped |
| Config.ModelName | src/email_summarizer/config.py:51 | the model is `OLLAMA_MODEL` stripped, or the default when that is unset or blank; never empty |
| Config.ModelNameStripped | src/email_summarizer/config.py:51 | the model name has no surrounding whitespace |
| Config.AppConfigFrom | src/email_summarizer/config.py:45-77 | each account is `Account` of its provider, its host and its own USERNAME and PASSWORD variables. It also gives the model, the stripped state directory, and spam included. |
| Config.EnvAfterFile | src/email_summarizer/config.py:35-43 | with no file the environment is unchanged. Loading a file keeps every exported value. |
| Config.LoadConfigFromEnv | src/email_summarizer/config.py:25-77 | the settings are read from the environment after the file has been loaded |
| Config.ExportedCredentialsWin | src/email_summarizer/config.py:43-61 | exported Gmail credentials are used whatever the file says |
| Cli.FetchEmailsFromAccount | src/email_summarizer/cli.py:19-35 | the checkpoint is advanced to the completion time only after a successful fetch, and a raise leaves the store untouched. After success the store's checkpoint is that time in UTC. |
| Cli.ProcessedAsWritten | src/email_summarizer/cli.py:64-72 | as written, both accounts are gated only on `--outlook-only` being absent |
| Cli.OutlookOnlyProcessesNothing | src/email_summarizer/cli.py:72 | as written, `--outlook-only` with Outlook configured processes no account |
| Cli.GmailOnlyIgnored | src/email_summarizer/cli.py:64-72 | as written, `--gmail-only` changes nothing |
| Cli.Processed | src/email_summarizer/cli.py:64-72 | intended: Gmail unless `--outlook-only`, Outlook unless `--gmail-only`, Gmail first |
| Cli.OnlyFlagsRestrict | src/email_summarizer/cli.py:40-41 | each `--*-only` flag restricts the run to the configured account it names |
| Cli.DefaultRunUnaffected | src/email_summarizer/cli.py:64-72 | without the flags the written and the intended selection agree |

## Left out

- Network: the IMAP connection, login and commands, and the HTTP call to Ollama, are
  parameters. The model records which commands and requests are sent, not their transport.
  Connection and TLS errors other than a failed login are not modelled.
- File system:
  - the state directory creation (`os.makedirs`) is not modelled;
  - path joining and `os.path.expanduser` are not modelled;
  - the files are values held by the store, and `os.replace` is an assignment;
  - the state file is a single `Option<string>`;
  - a read error on `config.env` is not modelled; the file is given as text.
- The JSON codec, `chardet`, BeautifulSoup, the CSV reader, pypdf, docx2txt and the `email`
  package are parameters. Their output is whatever those functions return. Key order,
  indentation and number precision of the saved JSON are not modelled.
- Printing and logging (`print`, `click.echo`, the error message when no account is configured,
  the "no emails found" message of the command and writing the output file) are not modelled.
  Neither is the `click` option parsing: the driver receives the flags as values. The
  `--24h` and `--no-spam` flags are passed straight through to the fetcher.
- The exception path `str(payload)` in imap_fetcher.py lines 120-123, 128-131 and 143-148 is not
  modelled: the decoder with `errors='ignore'` is a total function here.
- Text:
  - `lower()` maps only ASCII letters, so non-ASCII case folding in the importance test is not modelled;
  - there is no Unicode normalisation;
  - `strip()` removes the fixed set of characters `str.isspace` accepts.
- Dates:
  - datetimes are an epoch instant plus a UTC offset, so naive datetimes are not modelled;
  - `strftime`, `isoformat`, `fromisoformat` and `parsedate_to_datetime` are parameters;
  - the current time is a parameter (two different "now" instants are read in the driver:
    before the fetch and after it).
- The Ollama URL default and model default in `EmailSummarizer.__init__` (summarizer.py:9) are
  left to the caller: `EmailSummarizer` is a plain value.
- The `main` command of cli.py beyond account selection and the per-account sequence (collecting
  the emails, the digest call at line 86, the output file) is not modelled. The digest itself is
  modelled in `DailyDigest`.
- The order of messages returned by the bulk fetch is taken to be the order of the fetched
  items, which is a parameter.
- Summarizer.EmailSummarizer.SummarySpec: the contract states only that the summary is
  non-empty. What the summary is in each case is stated by `NoContentSkipsModel`,
  `EmptyReplyFallsBack` and `ModelReplyIsSummary`.
- ImapFetcher.FetchOutcome: one `now` serves both the 24-hour window (imap_fetcher.py:68) and the
  date of a message whose Date header does not parse (imap_fetcher.py:97). The code reads the
  clock separately each time, so the model does not capture how far apart those instants are.

Three behaviours of the code worth knowing, which the model follows:

- A text attachment that decodes to whitespace gives the empty string (`text.strip()`), not
  None, as `WhitespaceTextIsEmptyString` states. `parse_all_attachments` then drops it, because
  "" is falsy.
- The state file is reset only when `json.load` raises. A file that parses to a wrongly shaped
  document (a list, or `accounts` that is not an object) makes `get_last_run` and
  `set_last_run` raise, and `LastRunOf` and `WithLastRun` return that error.
- The bulk fetch runs in whatever mailbox the last select left selected (see Findings). The
  fetcher class follows the code as written; `FetchByFolder` defines the folder-by-folder
  fetch and proves what it changes.
- imap_fetcher.py lines 80-165 are indented at class-body level, not inside `fetch` (see
  Findings). The model treats them as the rest of `fetch`, run after the `with` block.

## Findings

| source | as written | input that shows it | evidently intended | confidence | as-written member | corrected member |
|---|---|---|---|---|---|---|
| src/email_summarizer/imap_fetcher.py:165 | `return emails` and the message loop of lines 80-165 sit at class-body indentation, so `return` is outside any function | importing the module raises SyntaxError ("'return' outside function"), so the command cannot start | lines 80-165 are the rest of `fetch`, after the `with` block | not executed | none: the file as written does not compile | ImapFetcher.ImapEmailFetcher.Fetch |
| src/email_summarizer/cli.py:72 | the Outlook account is gated on `not outlook_only`, and `gmail_only` is never read | `--outlook-only` with Outlook configured processes no account at all; `--gmail-only` still processes Outlook | gate Outlook on `not gmail_only` | not executed | Cli.ProcessedAsWritten | Cli.Processed |
| src/email_summarizer/imap_fetcher.py:76 | the UIDs of every folder are fetched in one `client.fetch`, sent after the search loop, so in the mailbox selected last: "Spam" with spam folders included, or none when that select failed (a failed SELECT leaves no mailbox selected, section 6.3.1 of RFC 3501) | spam folders included (the default), INBOX holds UID 7, "[Gmail]/Spam" exists, "Junk" and "Spam" do not, and the server refuses FETCH with no mailbox selected: the fetch raises and no email is returned | fetch each folder's UIDs while that folder is selected | not executed | FetchByFolder.SpamFolderMissingLosesInbox | FetchByFolder.FetchOutcomeByFolder |

=== FILE: attachment_parser.dfy ===
/**
 * Attachment text extraction: an ordered rule table on the declared MIME type and the
 * file-name suffix, with the decoders (chardet, BeautifulSoup, csv, pypdf, docx2txt)
 * supplied as functions.
 */
module AttachmentParser {
  import opened Wrappers
  import opened Text

  const DocxMime: string := "application/vnd.openxmlformats-officedocument.wordprocessingml.document"

  /** An attachment as the fetcher captures it: (filename, content, mime type). */
  type Attachment = (string, Bytes, string)

  /** A successfully extracted attachment: (filename, text). */
  type ParsedAttachment = (string, string)

  /**
   * The third-party decoders. A `None` result stands for the call raising.
   * - detectEncoding: the `encoding` entry of `chardet.detect(content)` (None when chardet has no guess)
   * - decode: `content.decode(encoding, errors='ignore')`; None when the encoding name is unknown
   * - htmlToText: `BeautifulSoup(text, 'html.parser').get_text(separator=' ', strip=True)`; None when it raises
   * - csvRows: `list(csv.reader(io.StringIO(text)))`
   * - pdfPages: the pages of `pypdf.PdfReader`, each the result of `page.extract_text()`
   * - docxText: `docx2txt.process(...)`
   */
  datatype Decoders = Decoders(
    detectEncoding: Bytes -> Option<string>,
    decode: (Bytes, string) -> Option<string>,
    htmlToText: string -> Option<string>,
    csvRows: string -> Option<seq<seq<string>>>,
    pdfPages: Bytes -> Option<seq<Option<string>>>,
    docxText: Bytes -> Option<string>)

  /** Which extraction rule an attachment falls under. */
  datatype Kind = Html | Csv | PlainText | Pdf | Docx | Unsupported

  predicate TextRule(filename: string, mime: string) {
    StartsWith(mime, "text/") || EndsWithAny(Lower(filename), [".txt", ".csv", ".html", ".htm"])
  }

  predicate HtmlRule(filename: string, mime: string) {
    StartsWith(mime, "text/html") || EndsWithAny(Lower(filename), [".html", ".htm"])
  }

  predicate CsvRule(filename: string, mime: string) {
    mime == "text/csv" || EndsWith(Lower(filename), ".csv")
  }

  predicate PdfRule(filename: string, mime: string) {
    mime == "application/pdf" || EndsWith(Lower(filename), ".pdf")
  }

  predicate DocxRule(filename: string, mime: string) {
    mime == DocxMime || EndsWith(Lower(filename), ".docx")
  }

  /**
   * The dispatch order: the text branch first (inside it HTML before CSV), then PDF, then DOCX.
   * A file that matches several rules gets the earliest one.
   */
  function Classify(filename: string, mime: string): (k: Kind)
    ensures TextRule(filename, mime) <==> k in {Html, Csv, PlainText}
    ensures k == Html <==> HtmlRule(filename, mime)
    ensures k == Csv <==> CsvRule(filename, mime) && !HtmlRule(filename, mime)
    ensures k == Pdf <==> PdfRule(filename, mime) && !TextRule(filename, mime)
    ensures k == Docx <==> DocxRule(filename, mime) && !PdfRule(filename, mime) && !TextRule(filename, mime)
  {
    var lower := Lower(filename);
    assert EndsWithAny(lower, [".html", ".htm"]) ==> EndsWithAny(lower, [".txt", ".csv", ".html", ".htm"]) by {
      if EndsWith(lower, [".html", ".htm"][1]) {
        assert [".txt", ".csv", ".html", ".htm"][3] == ".htm";
      }
      if EndsWith(lower, [".html", ".htm"][0]) {
        assert [".txt", ".csv", ".html", ".htm"][2] == ".html";
      }
    }
    assert EndsWith(lower, ".csv") ==> EndsWithAny(lower, [".txt", ".csv", ".html", ".htm"]) by {
      assert [".txt", ".csv", ".html", ".htm"][1] == ".csv";
    }
    assert StartsWith(mime, "text/html") ==> StartsWith(mime, "text/") by {
      if StartsWith(mime, "text/html") {
        assert mime[..5] == mime[..9][..5];
      }
    }
    if TextRule(filename, mime) then
      if HtmlRule(filename, mime) then Html
      else if CsvRule(filename, mime) then Csv
      else PlainText
    else if PdfRule(filename, mime) then Pdf
    else if DocxRule(filename, mime) then Docx
    else Unsupported
  }

  /** The encoding chardet reports, with `utf-8` when it reports none or an empty name. */
  function Encoding(d: Decoders, content: Bytes): (e: string)
    ensures e != ""
    ensures d.detectEncoding(content).Some? && d.detectEncoding(content).value != "" ==> e == d.detectEncoding(content).value
    ensures d.detectEncoding(content).None? || d.detectEncoding(content) == Some("") ==> e == "utf-8"
  {
    match d.detectEncoding(content)
    case None => "utf-8"
    case Some(name) => if name == "" then "utf-8" else name
  }

  const CsvHeading: string := "CSV Data:\n"

  /** One line per CSV row, its cells separated by ", ". */
  function CsvLines(rows: seq<seq<string>>): (ls: seq<string>)
    ensures |ls| == |rows|
    ensures forall k :: 0 <= k < |rows| ==> ls[k] == Join(", ", rows[k])
  {
    seq(|rows|, k requires 0 <= k < |rows| => Join(", ", rows[k]))
  }

  /** The CSV re-rendering: a heading line, then the row lines separated by newlines. */
  function CsvRender(rows: seq<seq<string>>): string {
    CsvHeading + Join("\n", CsvLines(rows))
  }

  /** The CSV branch: the rendering when the reader yields at least one row, else the stripped text. */
  function CsvText(text: string, d: Decoders): (r: string)
    ensures d.csvRows(text).Some? && |d.csvRows(text).value| > 0 ==>
      StartsWith(r, CsvHeading) && r[|CsvHeading|..] == Join("\n", CsvLines(d.csvRows(text).value))
    ensures d.csvRows(text).None? || d.csvRows(text) == Some([]) ==> r == Strip(text)
  {
    match d.csvRows(text)
    case Some(rows) => if |rows| > 0 then CsvRender(rows) else Strip(text)
    case None => Strip(text)
  }

  /** The stripped text of each page, with the empty string for a page whose extraction raised. */
  function PageTexts(pages: seq<Option<string>>): (ts: seq<string>)
    ensures |ts| == |pages|
    ensures forall k :: 0 <= k < |pages| && pages[k].None? ==> ts[k] == ""
    ensures forall k :: 0 <= k < |pages| && pages[k].Some? ==> ts[k] == Strip(pages[k].value)
  {
    seq(|pages|, k requires 0 <= k < |pages| => match pages[k] case None => "" case Some(t) => Strip(t))
  }

  /** A page survives when extraction did not raise and left more than whitespace. */
  lemma PageTextEmpty(pages: seq<Option<string>>, k: int)
    requires 0 <= k < |pages|
    ensures PageTexts(pages)[k] == "" <==> pages[k].None? || AllSpace(pages[k].value)
  {
  }

  /** The PDF result: the surviving pages joined by a blank line, or absent when none survives. */
  function PdfJoin(pages: seq<Option<string>>): (r: Option<string>)
    ensures r.None? <==> forall k :: 0 <= k < |pages| ==> pages[k].None? || AllSpace(pages[k].value)
    ensures r.Some? ==> r.value != ""
  {
    var ts := PageTexts(pages);
    NonEmptyPartsEmpty(ts);
    forall k | 0 <= k < |pages| ensures ts[k] == "" <==> pages[k].None? || AllSpace(pages[k].value) {
      PageTextEmpty(pages, k);
    }
    var parts := NonEmptyParts(ts);
    if parts == [] then None
    else
      JoinNonEmpty("\n\n", parts, 0);
      Some(Join("\n\n", parts))
  }

  /** The DOCX result: the stripped text, absent when extraction raised or left only whitespace. */
  function DocxResult(text: Option<string>): (r: Option<string>)
    ensures r.Some? ==> r.value != "" && Strip(r.value) == r.value
    ensures r.None? <==> text.None? || AllSpace(text.value)
  {
    match text
    case None => None
    case Some(t) =>
      StripIdempotent(t);
      if Strip(t) != "" then Some(Strip(t)) else None
  }

  /** `parse_attachment`: the text extracted from one attachment, or None. */
  function ParseAttachmentSpec(filename: string, content: Bytes, mime: string, d: Decoders): (r: Option<string>)
    ensures content == [] ==> r == None
    ensures Classify(filename, mime) == Unsupported ==> r == None
    ensures r.Some? && Classify(filename, mime) in {Pdf, Docx} ==> r.value != ""
  {
    if content == [] then None
    else
      match Classify(filename, mime)
      case Html =>
        (match d.decode(content, Encoding(d, content))
         case None => None
         case Some(text) => d.htmlToText(text))
      case Csv =>
        (match d.decode(content, Encoding(d, content))
         case None => None
         case Some(text) => Some(CsvText(text, d)))
      case PlainText =>
        (match d.decode(content, Encoding(d, content))
         case None => None
         case Some(text) => Some(Strip(text)))
      case Pdf =>
        (match d.pdfPages(content)
         case None => None
         case Some(pages) => PdfJoin(pages))
      case Docx => DocxResult(d.docxText(content))
      case Unsupported => None
  }

  /** A plain-text attachment (a `text/` type or a `.txt` name) whose text is only whitespace parses to the empty string, not to None. */
  lemma WhitespaceTextIsEmptyString(filename: string, content: Bytes, mime: string, d: Decoders)
    requires content != [] && Classify(filename, mime) == PlainText
    requires d.decode(content, Encoding(d, content)).Some?
    requires AllSpace(d.decode(content, Encoding(d, content)).value)
    ensures ParseAttachmentSpec(filename, content, mime, d) == Some("")
  {
  }

  /** The two-row table `a,b` / `1,2` renders as a heading and two comma-separated lines. */
  lemma CsvExample()
    ensures CsvRender([["a", "b"], ["1", "2"]]) == "CSV Data:\na, b\n1, 2"
  {
    var rows := [["a", "b"], ["1", "2"]];
    assert ["a", "b"][1..] == ["b"] && ["1", "2"][1..] == ["2"];
    assert Join(", ", rows[0]) == "a, b";
    assert Join(", ", rows[1]) == "1, 2";
    var lines := seq(|rows|, k requires 0 <= k < |rows| => Join(", ", rows[k]));
    assert lines == ["a, b", "1, 2"];
    assert lines[1..] == ["1, 2"];
    assert Join("\n", lines) == "a, b\n1, 2";
  }

  /**
   * The rendering can be read back: when no cell holds a newline, splitting what follows the
   * heading at newlines gives the row lines again, one per row.
   */
  lemma CsvLinesRecoverable(rows: seq<seq<string>>)
    requires rows != []
    requires forall k, j :: 0 <= k < |rows| && 0 <= j < |rows[k]| ==> '\n' !in rows[k][j]
    ensures Split(CsvRender(rows)[|CsvHeading|..], '\n') == CsvLines(rows)
  {
    var ls := CsvLines(rows);
    forall k | 0 <= k < |ls| ensures '\n' !in ls[k] {
      JoinAvoids(", ", rows[k], '\n');
    }
    assert CsvRender(rows)[|CsvHeading|..] == Join("\n", ls);
    JoinSplit(ls, '\n');
  }

  /** One more page adds its stripped text when extraction did not raise and left more than whitespace. */
  lemma PdfStep(pages: seq<Option<string>>, i: int)
    requires 0 <= i < |pages|
    ensures NonEmptyParts(PageTexts(pages)[..i + 1]) == NonEmptyParts(PageTexts(pages)[..i]) +
      (if pages[i].Some? && Strip(pages[i].value) != "" then [Strip(pages[i].value)] else [])
  {
    NonEmptyPartsPrefix(PageTexts(pages), i);
  }

  /** The PDF loop: collects the surviving page texts and joins them. */
  method CollectPdfText(pages: seq<Option<string>>) returns (r: Option<string>)
    ensures r == PdfJoin(pages)
  {
    ghost var ts := PageTexts(pages);
    var textParts: seq<string> := [];
    for i := 0 to |pages|
      invariant textParts == NonEmptyParts(ts[..i])
    {
      PdfStep(pages, i);
      match pages[i]
      case None =>
      case Some(pageText) =>
        if Strip(pageText) != "" {
          textParts := textParts + [Strip(pageText)];
        }
    }
    assert ts[..|pages|] == ts;
    if textParts != [] {
      r := Some(Join("\n\n", textParts));
    } else {
      r := None;
    }
  }

  /** `parse_attachment`: the dispatch, with the PDF pages gathered by a loop. */
  method ParseAttachment(filename: string, content: Bytes, mime: string, d: Decoders) returns (r: Option<string>)
    ensures r == ParseAttachmentSpec(filename, content, mime, d)
  {
    if content == [] {
      return None;
    }
    var kind := Classify(filename, mime);
    if kind == Html || kind == Csv || kind == PlainText {
      var text := d.decode(content, Encoding(d, content));
      if text.None? {
        return None;
      }
      if kind == Html {
        return d.htmlToText(text.value);
      }
      if kind == Csv {
        var rows := d.csvRows(text.value);
        if rows.Some? && |rows.value| > 0 {
          return Some(CsvRender(rows.value));
        }
      }
      return Some(Strip(text.value));
    } else if kind == Pdf {
      var pages := d.pdfPages(content);
      if pages.None? {
        return None;
      }
      r := CollectPdfText(pages.value);
    } else if kind == Docx {
      var text := d.docxText(content);
      if text.Some? && Strip(text.value) != "" {
        return Some(Strip(text.value));
      }
      r := None;
    } else {
      r := None;
    }
  }

  /** Whether `parse_all_attachments` keeps a parse result: it must be present and non-empty. */
  predicate Usable(parsed: Option<string>) {
    parsed.Some? && parsed.value != ""
  }

  /** The parse result of one attachment. */
  function Parsed(a: Attachment, d: Decoders): Option<string> {
    ParseAttachmentSpec(a.0, a.1, a.2, d)
  }

  /** Each attachment's file name paired with its parse result, in input order. */
  function Candidates(atts: seq<Attachment>, d: Decoders): (cs: seq<(string, Option<string>)>)
    ensures |cs| == |atts|
  {
    seq(|atts|, k requires 0 <= k < |atts| => (atts[k].0, Parsed(atts[k], d)))
  }

  /** The usable candidates, as (file name, text) pairs in order. */
  function Keep(cs: seq<(string, Option<string>)>): (r: seq<ParsedAttachment>)
    ensures |r| <= |cs|
    ensures forall k :: 0 <= k < |r| ==> r[k].1 != "" && (r[k].0, Some(r[k].1)) in cs
  {
    if cs == [] then []
    else
      var init, last := cs[..|cs| - 1], cs[|cs| - 1];
      var rest := Keep(init);
      assert forall c :: c in init ==> c in cs;
      if Usable(last.1) then rest + [(last.0, last.1.value)] else rest
  }

  /** `parse_all_attachments`: the usable extractions, with their file names, in input order. */
  function ParseAllSpec(atts: seq<Attachment>, d: Decoders): (r: seq<ParsedAttachment>)
    ensures |r| <= |atts|
    ensures forall k :: 0 <= k < |r| ==> r[k].1 != "" && FromInput(atts, r[k], d)
  {
    var cs := Candidates(atts, d);
    var r := Keep(cs);
    forall k | 0 <= k < |r| ensures FromInput(atts, r[k], d) {
      var j :| 0 <= j < |cs| && cs[j] == (r[k].0, Some(r[k].1));
      assert atts[j].0 == r[k].0 && Parsed(atts[j], d) == Some(r[k].1);
    }
    r
  }

  /** `p` comes from some attachment of `atts`: same file name, and that attachment's parse result. */
  predicate FromInput(atts: seq<Attachment>, p: ParsedAttachment, d: Decoders) {
    exists j :: 0 <= j < |atts| && atts[j].0 == p.0 && Parsed(atts[j], d) == Some(p.1)
  }

  /** Keeping distributes over concatenation. */
  lemma {:induction false} KeepAppend(a: seq<(string, Option<string>)>, b: seq<(string, Option<string>)>)
    ensures Keep(a + b) == Keep(a) + Keep(b)
    decreases |b|
  {
    if b == [] {
      assert a + b == a;
    } else {
      var b' := b[..|b| - 1];
      KeepAppend(a, b');
      assert (a + b)[..|a + b| - 1] == a + b';
    }
  }

  /** Extraction distributes over concatenation: the results of a batch keep the batch's order. */
  lemma ParseAllAppend(a: seq<Attachment>, b: seq<Attachment>, d: Decoders)
    ensures ParseAllSpec(a + b, d) == ParseAllSpec(a, d) + ParseAllSpec(b, d)
  {
    assert Candidates(a + b, d) == Candidates(a, d) + Candidates(b, d);
    KeepAppend(Candidates(a, d), Candidates(b, d));
  }

  /** Nothing is kept exactly when no candidate is usable. */
  lemma {:induction false} KeepEmpty(cs: seq<(string, Option<string>)>)
    ensures Keep(cs) == [] <==> forall k :: 0 <= k < |cs| ==> !Usable(cs[k].1)
  {
    if cs != [] {
      var init := cs[..|cs| - 1];
      KeepEmpty(init);
      if forall k :: 0 <= k < |cs| ==> !Usable(cs[k].1) {
        forall k | 0 <= k < |init| ensures !Usable(init[k].1) {
          assert init[k] == cs[k];
        }
      } else {
        var k :| 0 <= k < |cs| && Usable(cs[k].1);
        if k < |init| {
          assert init[k] == cs[k];
        }
      }
    }
  }

  /** Nothing is kept exactly when no attachment yields usable text. */
  lemma ParseAllEmpty(atts: seq<Attachment>, d: Decoders)
    ensures ParseAllSpec(atts, d) == [] <==> forall k :: 0 <= k < |atts| ==> !Usable(Parsed(atts[k], d))
  {
    var cs := Candidates(atts, d);
    KeepEmpty(cs);
    assert forall k :: 0 <= k < |atts| ==> cs[k].1 == Parsed(atts[k], d);
  }

  /** One more attachment adds its file name and text when it yields usable text. */
  lemma ParseAllStep(atts: seq<Attachment>, d: Decoders, i: int)
    requires 0 <= i < |atts|
    ensures Keep(Candidates(atts, d)[..i + 1]) == Keep(Candidates(atts, d)[..i]) +
      (if Usable(Parsed(atts[i], d)) then [(atts[i].0, Parsed(atts[i], d).value)] else [])
  {
    var cs := Candidates(atts, d);
    assert cs[..i + 1][..i] == cs[..i];
    assert cs[..i + 1][i] == (atts[i].0, Parsed(atts[i], d));
  }

  /** The `parse_all_attachments` loop. */
  method ParseAllAttachments(atts: seq<Attachment>, d: Decoders) returns (r: seq<ParsedAttachment>)
    ensures r == ParseAllSpec(atts, d)
  {
    ghost var cs := Candidates(atts, d);
    r := [];
    for i := 0 to |atts|
      invariant r == Keep(cs[..i])
    {
      ParseAllStep(atts, d, i);
      var filename, content, mime := atts[i].0, atts[i].1, atts[i].2;
      var parsedText := ParseAttachment(filename, content, mime, d);
      if parsedText.Some? && parsedText.value != "" {
        r := r + [(filename, parsedText.value)];
      }
    }
    assert cs[..|atts|] == cs;
  }
}

=== FILE: cli.dfy ===
/**
 * The command-line driver: which accounts a run processes, and the per-account sequence of
 * reading the checkpoint, fetching since it, and advancing it. Option parsing, console output
 * and the output file are not modelled.
 */
module Cli {
  import opened Wrappers
  import opened Time
  import opened Config
  import opened State
  import opened ImapFetcher

  /** Why processing one account stops: reading the checkpoint, fetching, or saving the new checkpoint raised. */
  datatype AccountError =
    | CheckpointUnreadable(stateError: StateError)
    | FetchFailed(fetchError: FetchError)
    | CheckpointNotSaved(saveError: StateError)

  /**
   * `fetch_emails_from_account`: reads the account's checkpoint, fetches since it, and only then
   * stores `doneAt` (the current time once the fetch has returned) as the new checkpoint. When
   * anything raises the store is left as it was, so a failed fetch never advances the checkpoint;
   * after a success the next run resumes from `doneAt`.
   */
  method FetchEmailsFromAccount(account: EmailAccountConfig, store: StateStore, server: Server, window24h: bool,
                                includeSpam: bool, lib: MimeLibrary, now: DateTime, doneAt: DateTime)
      returns (r: Result<seq<FetchedEmail>, AccountError>)
    modifies store
    ensures var key := if account.provider != "" then account.provider else account.username;
      match LastRunOf(old(store.state), account.provider, store.fmt)
      case Failure(e) => r == Failure(CheckpointUnreadable(e)) && store.state == old(store.state) && store.file == old(store.file) && store.tmpFile == old(store.tmpFile)
      case Success(lastRun) =>
        match FetchOutcome(key, server, lastRun, window24h, includeSpam, lib, store.fmt, now)
        case Failure(e) => r == Failure(FetchFailed(e)) && store.state == old(store.state) && store.file == old(store.file) && store.tmpFile == old(store.tmpFile)
        case Success(emails) =>
          var upd := WithLastRun(old(store.state), account.provider, store.fmt.isoformat(AsUtc(doneAt)));
          if upd.Failure? then r == Failure(CheckpointNotSaved(upd.error)) && store.state == old(store.state) && store.file == old(store.file) && store.tmpFile == old(store.tmpFile)
          else
            && r == Success(emails)
            && store.state == upd.value
            && store.file == Some(store.codec.dump(store.state))
    ensures r.Success? && IsoRoundTrip(store.fmt) ==>
      LastRunOf(store.state, account.provider, store.fmt) == Success(Some(AsUtc(doneAt)))
  {
    var fetcher := new ImapEmailFetcher(account.imapHost, account.username, account.password, account.useSsl, account.provider);
    var lastRun := store.GetLastRun(account.provider);
    if lastRun.Failure? {
      return Failure(CheckpointUnreadable(lastRun.error));
    }
    var emails, _ := fetcher.Fetch(server, lastRun.value, window24h, includeSpam, lib, store.fmt, now);
    if emails.Failure? {
      return Failure(FetchFailed(emails.error));
    }
    var saved := store.SetLastRun(account.provider, None, doneAt);
    if saved.Failure? {
      return Failure(CheckpointNotSaved(saved.error));
    }
    r := Success(emails.value);
    if IsoRoundTrip(store.fmt) {
      SetThenGet(old(store.state), account.provider, doneAt, store.fmt);
    }
  }

  // ---------------------------------------------------------------------------
  // Account selection
  // ---------------------------------------------------------------------------

  /** The two account kinds a run can process. */
  datatype Provider = Gmail | Outlook

  /** The command-line flags that decide which accounts are processed. */
  datatype Options = Options(gmailOnly: bool, outlookOnly: bool)

  /**
   * The accounts processed, as written: Gmail when configured and `--outlook-only` is absent,
   * then Outlook when configured and, again, `--outlook-only` is absent.
   */
  function ProcessedAsWritten(config: AppConfig, opts: Options): (r: seq<Provider>)
    ensures Gmail in r <==> config.gmail.Some? && !opts.outlookOnly
    ensures Outlook in r <==> config.outlook.Some? && !opts.outlookOnly
    ensures |r| == 2 ==> r == [Gmail, Outlook]
  {
    (if config.gmail.Some? && !opts.outlookOnly then [Gmail] else []) +
    (if config.outlook.Some? && !opts.outlookOnly then [Outlook] else [])
  }

  /** As written, `--outlook-only` processes no account at all, even with Outlook configured. */
  lemma OutlookOnlyProcessesNothing()
    ensures var outlook := EmailAccountConfig("outlook", "outlook.office365.com", 993, "me@outlook.com", "pw", true);
      var config := AppConfig(None, Some(outlook), "llama3.1:8b", "~/.email-summarizer", true);
      ProcessedAsWritten(config, Options(false, true)) == []
  {
  }

  /** As written, `--gmail-only` changes nothing: Outlook is still processed. */
  lemma GmailOnlyIgnored(config: AppConfig)
    requires config.outlook.Some?
    ensures Outlook in ProcessedAsWritten(config, Options(true, false))
    ensures ProcessedAsWritten(config, Options(true, false)) == ProcessedAsWritten(config, Options(false, false))
  {
  }

  /**
   * The accounts processed, as intended: Gmail when configured and `--outlook-only` is absent,
   * then Outlook when configured and `--gmail-only` is absent.
   */
  function Processed(config: AppConfig, opts: Options): (r: seq<Provider>)
    ensures Gmail in r <==> config.gmail.Some? && !opts.outlookOnly
    ensures Outlook in r <==> config.outlook.Some? && !opts.gmailOnly
    ensures |r| == 2 ==> r == [Gmail, Outlook]
  {
    (if config.gmail.Some? && !opts.outlookOnly then [Gmail] else []) +
    (if config.outlook.Some? && !opts.gmailOnly then [Outlook] else [])
  }

  /**
   * Each `--*-only` flag restricts the run to the configured account it names, and without
   * either flag every configured account is processed, Gmail first.
   */
  lemma OnlyFlagsRestrict(config: AppConfig)
    ensures config.outlook.Some? ==> Processed(config, Options(false, true)) == [Outlook]
    ensures config.gmail.Some? ==> Processed(config, Options(true, false)) == [Gmail]
    ensures config.outlook.None? ==> Processed(config, Options(false, true)) == []
    ensures config.gmail.None? ==> Processed(config, Options(true, false)) == []
    ensures config.gmail.Some? && config.outlook.Some? ==> Processed(config, Options(false, false)) == [Gmail, Outlook]
  {
  }

  /** Without `--*-only` flags the written selection and the intended one agree. */
  lemma DefaultRunUnaffected(config: AppConfig)
    ensures ProcessedAsWritten(config, Options(false, false)) == Processed(config, Options(false, false))
  {
  }
}

=== FILE: config.dfy ===
/**
 * Configuration: the `config.env` loader, which adds `key=value` lines to the process environment
 * without overriding what is already set, and the construction of the account and application
 * settings from the environment. The environment is a map from names to values.
 */
module Config {
  import opened Wrappers
  import opened Text

  type Env = map<string, string>

  /** One IMAP account. */
  datatype EmailAccountConfig = EmailAccountConfig(
    provider: string,
    imapHost: string,
    imapPort: int,
    username: string,
    password: string,
    useSsl: bool)

  /** The application settings. */
  datatype AppConfig = AppConfig(
    gmail: Option<EmailAccountConfig>,
    outlook: Option<EmailAccountConfig>,
    ollamaModel: string,
    stateDir: string,
    includeSpam: bool)

  const DefaultImapPort: int := 993
  const DefaultOllamaModel: string := "llama3.1:8b"

  /** Why loading fails: the environment refused a variable (an empty name, or a NUL character). */
  datatype ConfigError = ValueError(key: string)

  // ---------------------------------------------------------------------------
  // The config.env loader
  // ---------------------------------------------------------------------------

  /** A line is skipped when, once stripped, it is blank, starts with `#`, or has no `=`. */
  predicate Skipped(line: string) {
    var t := Strip(line);
    t == "" || StartsWith(t, "#") || '=' !in t
  }

  /** `i` is the first `=` of `t`, and `kv` is the stripped text before it and the stripped text after it. */
  predicate SplitsAt(t: string, i: int, kv: (string, string)) {
    0 <= i < |t| && t[i] == '=' && '=' !in t[..i] && kv == (Strip(t[..i]), Strip(t[i + 1..]))
  }

  /**
   * The `key=value` pair of a line: the stripped line is split at its first `=` only, so the
   * value may itself contain `=`, and both halves are stripped.
   */
  function ParseLine(line: string): (r: Option<(string, string)>)
    ensures r.None? <==> Skipped(line)
    ensures r.Some? ==> exists i :: SplitsAt(Strip(line), i, r.value)
    ensures r.Some? ==> '=' !in r.value.0
  {
    if Skipped(line) then None
    else
      var t := Strip(line);
      var i := FindChar(t, '=');
      var key := Strip(t[..i]);
      assert '=' !in key by {
        StripKeepsCharacters(t[..i]);
      }
      assert SplitsAt(t, i, (key, Strip(t[i + 1..])));
      Some((key, Strip(t[i + 1..])))
  }

  /** What the environment accepts: a non-empty name, and no NUL in name or value. */
  predicate Acceptable(key: string, value: string) {
    key != "" && '\0' !in key && '\0' !in value
  }

  /** `os.environ.setdefault(key, value)`: an existing variable wins; a new one must be acceptable. */
  function SetDefault(env: Env, key: string, value: string): (r: Result<Env, ConfigError>)
    ensures key in env ==> r == Success(env)
    ensures key !in env ==> (r.Success? <==> Acceptable(key, value))
    ensures r.Success? ==> r.value.Keys == env.Keys + {key} && r.value[key] == if key in env then env[key] else value
    ensures r.Success? ==> forall k :: k in env ==> r.value[k] == env[k]
  {
    if key in env then Success(env)
    else if !Acceptable(key, value) then Failure(ValueError(key))
    else Success(env[key := value])
  }

  /** What a line contributes: nothing, or a `key=value` pair. */
  type Assignment = Option<(string, string)>

  /** The parse of every line, in file order. */
  function ParsedLines(lines: seq<string>): (ps: seq<Assignment>)
    ensures |ps| == |lines|
  {
    seq(|lines|, k requires 0 <= k < |lines| => ParseLine(lines[k]))
  }

  /** One iteration of the loop: a skipped line changes nothing, a pair is set by default. */
  function ApplyPair(env: Env, p: Assignment): Result<Env, ConfigError> {
    match p
    case None => Success(env)
    case Some((key, value)) => SetDefault(env, key, value)
  }

  /** The environment after the loop over the parsed lines, or the error of the first pair the environment refused. */
  function ApplyPairs(env: Env, ps: seq<Assignment>): Result<Env, ConfigError> {
    if ps == [] then Success(env)
    else match ApplyPairs(env, ps[..|ps| - 1])
      case Failure(err) => Failure(err)
      case Success(env') => ApplyPair(env', ps[|ps| - 1])
  }

  /** Whether line `i` sets `key`. */
  predicate SetsKey(ps: seq<Assignment>, i: int, key: string) {
    0 <= i < |ps| && ps[i].Some? && ps[i].value.0 == key
  }

  /** The file never overrides a variable already in the environment, and adds only keys its lines set. */
  lemma {:induction false} FileNeverOverrides(env: Env, ps: seq<Assignment>)
    requires ApplyPairs(env, ps).Success?
    ensures forall k :: k in env ==> k in ApplyPairs(env, ps).value && ApplyPairs(env, ps).value[k] == env[k]
    ensures forall k :: k in ApplyPairs(env, ps).value ==> k in env || exists i :: SetsKey(ps, i, k)
  {
    if ps != [] {
      var init := ps[..|ps| - 1];
      FileNeverOverrides(env, init);
      forall k | k in ApplyPairs(env, ps).value
        ensures k in env || exists i :: SetsKey(ps, i, k)
      {
        if k !in env && k !in ApplyPairs(env, init).value {
          assert SetsKey(ps, |ps| - 1, k);
        } else if k !in env {
          var i :| SetsKey(init, i, k);
          assert ps[i] == init[i];
          assert SetsKey(ps, i, k);
        }
      }
    }
  }

  /** Of several lines setting a variable the environment lacks, the first one wins. */
  lemma {:induction false} FirstOccurrenceWins(env: Env, ps: seq<Assignment>, i: int, key: string)
    requires key !in env
    requires SetsKey(ps, i, key)
    requires forall j :: 0 <= j < i ==> !SetsKey(ps, j, key)
    requires ApplyPairs(env, ps).Success?
    ensures key in ApplyPairs(env, ps).value
    ensures ApplyPairs(env, ps).value[key] == ps[i].value.1
  {
    var init, last := ps[..|ps| - 1], ps[|ps| - 1];
    assert ApplyPairs(env, init).Success?;
    var e := ApplyPairs(env, init).value;
    assert ApplyPairs(env, ps) == ApplyPair(e, last);
    if i == |ps| - 1 {
      forall j | 0 <= j < |init| ensures !SetsKey(init, j, key) {
        assert init[j] == ps[j] && !SetsKey(ps, j, key);
      }
      NotYetSet(env, init, key);
      assert last == Some((key, last.value.1));
    } else {
      forall j | 0 <= j < i ensures !SetsKey(init, j, key) {
        assert init[j] == ps[j] && !SetsKey(ps, j, key);
      }
      assert init[i] == ps[i];
      FirstOccurrenceWins(env, init, i, key);
    }
  }

  /** A key no line sets stays absent. */
  lemma {:induction false} NotYetSet(env: Env, ps: seq<Assignment>, key: string)
    requires key !in env
    requires forall j :: 0 <= j < |ps| ==> !SetsKey(ps, j, key)
    requires ApplyPairs(env, ps).Success?
    ensures key !in ApplyPairs(env, ps).value
  {
    if ps != [] {
      var init := ps[..|ps| - 1];
      forall j | 0 <= j < |init| ensures !SetsKey(init, j, key) {
        assert init[j] == ps[j] && !SetsKey(ps, j, key);
      }
      NotYetSet(env, init, key);
      assert !SetsKey(ps, |ps| - 1, key);
    }
  }

  /** One more line, after lines that all applied, applies that line to the environment so far. */
  lemma ApplyPairsStep(env: Env, ps: seq<Assignment>, n: int, cur: Env)
    requires 0 <= n < |ps| && ApplyPairs(env, ps[..n]) == Success(cur)
    ensures ApplyPairs(env, ps[..n + 1]) == ApplyPair(cur, ps[n])
  {
    assert ps[..n + 1][..n] == ps[..n];
  }

  /** Once a line is refused, the loop's result is that failure. */
  lemma {:induction false} ApplyPairsStopsAtFailure(env: Env, ps: seq<Assignment>, n: int)
    requires 0 <= n <= |ps|
    requires ApplyPairs(env, ps[..n]).Failure?
    ensures ApplyPairs(env, ps) == ApplyPairs(env, ps[..n])
    decreases |ps| - n
  {
    if n < |ps| {
      assert ps[..n + 1][..n] == ps[..n];
      ApplyPairsStopsAtFailure(env, ps, n + 1);
    } else {
      assert ps[..n] == ps;
    }
  }

  /**
   * Text-mode reading with universal newlines: `\r\n` and a lone `\r` both end a line,
   * and are read as `\n`.
   */
  function NormalizeNewlines(s: string): (r: string)
    ensures '\r' !in r
    ensures |r| <= |s|
    decreases |s|
  {
    if s == [] then []
    else if s[0] == '\r' && |s| >= 2 && s[1] == '\n' then ['\n'] + NormalizeNewlines(s[2..])
    else if s[0] == '\r' then ['\n'] + NormalizeNewlines(s[1..])
    else [s[0]] + NormalizeNewlines(s[1..])
  }

  /** A text without carriage returns is read exactly as it is. */
  lemma {:induction false} NormalizeWithoutReturns(s: string)
    requires '\r' !in s
    ensures NormalizeNewlines(s) == s
    decreases |s|
  {
    if s != [] {
      assert s[0] != '\r';
      NormalizeWithoutReturns(s[1..]);
    }
  }

  /** Text before the first carriage return is read unchanged. */
  lemma {:induction false} NormalizeKeepsPrefix(a: string, b: string)
    requires '\r' !in a
    ensures NormalizeNewlines(a + b) == a + NormalizeNewlines(b)
    decreases |a|
  {
    if a != [] {
      assert (a + b)[0] == a[0] && a[0] != '\r';
      assert (a + b)[1..] == a[1..] + b;
      assert NormalizeNewlines(a + b) == [a[0]] + NormalizeNewlines(a[1..] + b);
      NormalizeKeepsPrefix(a[1..], b);
      assert a == [a[0]] + a[1..];
    } else {
      assert a + b == b;
    }
  }

  /**
   * The lines of the file as iterating over it in text mode yields them, without their line
   * ends: joined again with `\n` they give the text as read.
   */
  function Lines(text: string): seq<string> {
    Split(NormalizeNewlines(text), '\n')
  }

  /** No line holds a line end of either kind, and the lines joined with `\n` give the text as read. */
  lemma LinesOfText(text: string)
    ensures forall k :: 0 <= k < |Lines(text)| ==> '\n' !in Lines(text)[k] && '\r' !in Lines(text)[k]
    ensures Join("\n", Lines(text)) == NormalizeNewlines(text)
  {
    SplitAvoids(NormalizeNewlines(text), '\n', '\r');
    SplitJoin(NormalizeNewlines(text), '\n');
  }

  /** A lone carriage return ends a line, as it does for Python's text files. */
  lemma LoneReturnEndsLine(head: string, tail: string)
    requires '\r' !in head && '\n' !in head
    requires '\r' !in tail && '\n' !in tail
    ensures Lines(head + "\r" + tail) == [head, tail]
  {
    NormalizeKeepsPrefix(head, "\r" + tail);
    assert head + "\r" + tail == head + ("\r" + tail);
    assert ("\r" + tail)[1..] == tail;
    NormalizeWithoutReturns(tail);
    assert NormalizeNewlines(head + "\r" + tail) == head + "\n" + tail;
    SplitAtFirst(head, '\n', tail);
    assert FindChar(tail, '\n') == -1;
  }

  /** The file `A=1\rB=2` holds two settings. */
  lemma LoneReturnExample()
    ensures Lines("A=1\rB=2") == ["A=1", "B=2"]
  {
    LoneReturnEndsLine("A=1", "B=2");
    assert "A=1" + "\r" + "B=2" == "A=1\rB=2";
  }

  /** The environment after loading the file `text`, or the error of the first line refused. */
  function LoadedEnv(env: Env, text: string): Result<Env, ConfigError> {
    ApplyPairs(env, ParsedLines(Lines(text)))
  }

  /** The loop over `config.env`: each line is stripped, filtered, split at `=` and set by default. */
  method LoadEnvFile(env: Env, text: string) returns (r: Result<Env, ConfigError>)
    ensures r == LoadedEnv(env, text)
  {
    r := LoadLines(env, Lines(text));
  }

  /** That loop over the lines of the file. */
  method LoadLines(env: Env, lines: seq<string>) returns (r: Result<Env, ConfigError>)
    ensures r == ApplyPairs(env, ParsedLines(lines))
  {
    ghost var ps := ParsedLines(lines);
    var cur := env;
    for n := 0 to |lines|
      invariant ApplyPairs(env, ps[..n]) == Success(cur)
    {
      ApplyPairsStep(env, ps, n, cur);
      var step := LoadLine(cur, lines[n]);
      if step.Failure? {
        ApplyPairsStopsAtFailure(env, ps, n + 1);
        return step;
      }
      cur := step.value;
    }
    assert ps[..|lines|] == ps;
    r := Success(cur);
  }

  /** The body of that loop for one line: the parsed pair, if any, is set by default. */
  method LoadLine(env: Env, raw: string) returns (r: Result<Env, ConfigError>)
    ensures r == ApplyPair(env, ParseLine(raw))
  {
    var parsed := ParseLine(raw);
    if parsed.None? {
      return Success(env);
    }
    var (key, value) := parsed.value;
    if key in env {
      return Success(env);
    }
    if !Acceptable(key, value) {
      return Failure(ValueError(key));
    }
    r := Success(env[key := value]);
  }

  // ---------------------------------------------------------------------------
  // Settings from the environment
  // ---------------------------------------------------------------------------

  /** `os.getenv(name, default).strip()` */
  function Getenv(env: Env, name: string, default: string): string {
    Strip(if name in env then env[name] else default)
  }

  /** An account exists when both its stripped user name and password are non-empty. */
  function Account(provider: string, host: string, user: string, pass: string): (r: Option<EmailAccountConfig>)
    ensures r.Some? <==> user != "" && pass != ""
    ensures r.Some? ==> r.value.provider == provider && r.value.imapHost == host
    ensures r.Some? ==> r.value.username == user && r.value.password == pass
    ensures r.Some? ==> r.value.imapPort == 993 && r.value.useSsl
  {
    if user != "" && pass != "" then Some(EmailAccountConfig(provider, host, DefaultImapPort, user, pass, true))
    else None
  }

  /** The default model name has no surrounding whitespace. */
  lemma DefaultModelStripped()
    ensures DefaultOllamaModel != "" && Strip(DefaultOllamaModel) == DefaultOllamaModel
  {
    var m := DefaultOllamaModel;
    assert m[0] == 'l' && m[|m| - 1] == 'b';
    StripUntouched(m);
  }

  /**
   * The model name: `OLLAMA_MODEL` stripped, or the default when it is unset or blank (the
   * default itself has no surrounding whitespace, so stripping it changes nothing).
   */
  function ModelName(env: Env): (m: string)
    ensures m != ""
    ensures "OLLAMA_MODEL" !in env || Strip(env["OLLAMA_MODEL"]) == "" ==> m == DefaultOllamaModel
    ensures "OLLAMA_MODEL" in env && Strip(env["OLLAMA_MODEL"]) != "" ==> m == Strip(env["OLLAMA_MODEL"])
  {
    if "OLLAMA_MODEL" in env && Strip(env["OLLAMA_MODEL"]) != "" then Strip(env["OLLAMA_MODEL"])
    else DefaultOllamaModel
  }

  /** The model name never carries surrounding whitespace. */
  lemma ModelNameStripped(env: Env)
    ensures Strip(ModelName(env)) == ModelName(env)
  {
    if "OLLAMA_MODEL" in env && Strip(env["OLLAMA_MODEL"]) != "" {
      StripIdempotent(env["OLLAMA_MODEL"]);
    } else {
      DefaultModelStripped();
    }
  }

  /**
   * The settings built from the environment: the Gmail and Outlook accounts, the model name
   * and the state directory (`defaultStateDir` when unset); spam folders are always included.
   */
  function AppConfigFrom(env: Env, defaultStateDir: string): (c: AppConfig)
    ensures c.gmail.Some? <==> Getenv(env, "GMAIL_USERNAME", "") != "" && Getenv(env, "GMAIL_PASSWORD", "") != ""
    ensures c.gmail.Some? ==> c.gmail.value.provider == "gmail" && c.gmail.value.imapHost == "imap.gmail.com"
    ensures c.outlook.Some? <==> Getenv(env, "OUTLOOK_USERNAME", "") != "" && Getenv(env, "OUTLOOK_PASSWORD", "") != ""
    ensures c.outlook.Some? ==> c.outlook.value.provider == "outlook" && c.outlook.value.imapHost == "outlook.office365.com"
    ensures c.ollamaModel == ModelName(env)
    ensures c.stateDir == Getenv(env, "EMAIL_SUMMARIZER_STATE_DIR", defaultStateDir)
    ensures c.includeSpam
    ensures c.gmail == Account("gmail", "imap.gmail.com", Getenv(env, "GMAIL_USERNAME", ""), Getenv(env, "GMAIL_PASSWORD", ""))
    ensures c.outlook ==
      Account("outlook", "outlook.office365.com", Getenv(env, "OUTLOOK_USERNAME", ""), Getenv(env, "OUTLOOK_PASSWORD", ""))
  {
    AppConfig(
      Account("gmail", "imap.gmail.com", Getenv(env, "GMAIL_USERNAME", ""), Getenv(env, "GMAIL_PASSWORD", "")),
      Account("outlook", "outlook.office365.com", Getenv(env, "OUTLOOK_USERNAME", ""), Getenv(env, "OUTLOOK_PASSWORD", "")),
      ModelName(env),
      Getenv(env, "EMAIL_SUMMARIZER_STATE_DIR", defaultStateDir),
      true)
  }

  /** The environment once the file, when it exists, has been loaded into it. */
  function EnvAfterFile(env: Env, configFile: Option<string>): (r: Result<Env, ConfigError>)
    ensures configFile.None? ==> r == Success(env)
    ensures configFile.Some? ==> r == LoadedEnv(env, configFile.value)
    ensures r.Success? ==> forall k :: k in env ==> k in r.value && r.value[k] == env[k]
  {
    match configFile
    case None => Success(env)
    case Some(text) =>
      var loaded := LoadedEnv(env, text);
      if loaded.Success? then
        FileNeverOverrides(env, ParsedLines(Lines(text)));
        loaded
      else loaded
  }

  /**
   * `load_config_from_env`: the file (when it exists) is loaded into the environment first,
   * and the settings are then read from the resulting environment.
   */
  function LoadConfigFromEnv(env: Env, configFile: Option<string>, defaultStateDir: string): (r: Result<(AppConfig, Env), ConfigError>)
    ensures r.Success? <==> EnvAfterFile(env, configFile).Success?
    ensures r.Success? ==> r.value.1 == EnvAfterFile(env, configFile).value
    ensures r.Success? ==> r.value.0 == AppConfigFrom(r.value.1, defaultStateDir)
  {
    match EnvAfterFile(env, configFile)
    case Failure(err) => Failure(err)
    case Success(env') => Success((AppConfigFrom(env', defaultStateDir), env'))
  }

  /** A variable already exported wins over the file: the file cannot change the Gmail credentials then. */
  lemma ExportedCredentialsWin(env: Env, text: string, defaultStateDir: string)
    requires "GMAIL_USERNAME" in env && "GMAIL_PASSWORD" in env
    requires LoadConfigFromEnv(env, Some(text), defaultStateDir).Success?
    ensures LoadConfigFromEnv(env, Some(text), defaultStateDir).value.0.gmail ==
      AppConfigFrom(env, defaultStateDir).gmail
  {
  }
}

=== FILE: digest.dfy ===
/**
 * `generate_daily_digest`: the emails split into important and other ones, each summarized and
 * laid out as Markdown under a header with the totals. The layout is defined for any way of
 * summarizing one email (`summarize`), and then instantiated with the summarizer's own.
 */
module DailyDigest {
  import opened Text
  import opened Time
  import opened ImapFetcher
  import opened Summarizer

  const NoEmailsMessage: string := "No emails found for the specified time period."
  /** How the first line of every digest of at least one email begins. */
  const DigestTitle: string := "# Daily Email Digest - "
  const ImportantTitle: string := "## \U{1F525} Important Emails"
  const OtherTitle: string := "## \U{1F4E7} Other Emails"

  // ---------------------------------------------------------------------------
  // The split into important and other emails
  // ---------------------------------------------------------------------------

  /** Whether each email is important, in order. */
  function Flags(emails: seq<FetchedEmail>): (fs: seq<bool>)
    ensures |fs| == |emails|
  {
    seq(|emails|, k requires 0 <= k < |emails| => IsImportant(emails[k]))
  }

  /** The elements whose flag equals `want`, in their original order. */
  function Select<T>(es: seq<T>, fs: seq<bool>, want: bool): (r: seq<T>)
    requires |fs| == |es|
    ensures |r| <= |es|
  {
    if es == [] then []
    else Select(es[..|es| - 1], fs[..|fs| - 1], want) + (if fs[|fs| - 1] == want then [es[|es| - 1]] else [])
  }

  /** Everything selected is an input whose flag is `want`. */
  lemma {:induction false} SelectMembers<T>(es: seq<T>, fs: seq<bool>, want: bool)
    requires |fs| == |es|
    ensures forall x :: x in Select(es, fs, want) ==> exists k :: 0 <= k < |es| && es[k] == x && fs[k] == want
  {
    if es != [] {
      var init, finit := es[..|es| - 1], fs[..|fs| - 1];
      SelectMembers(init, finit, want);
      forall x | x in Select(es, fs, want) ensures exists k :: 0 <= k < |es| && es[k] == x && fs[k] == want {
        if x in Select(init, finit, want) {
          var k :| 0 <= k < |init| && init[k] == x && finit[k] == want;
          assert es[k] == x && fs[k] == want;
        } else {
          assert es[|es| - 1] == x && fs[|es| - 1] == want;
        }
      }
    }
  }

  lemma MultisetSnoc<T>(s: seq<T>, x: T)
    ensures multiset(s + [x]) == multiset(s) + multiset{x}
  {
  }

  /** The two selections split the input: together they hold every element exactly once. */
  lemma {:induction false} SelectPartition<T>(es: seq<T>, fs: seq<bool>)
    requires |fs| == |es|
    ensures multiset(Select(es, fs, true)) + multiset(Select(es, fs, false)) == multiset(es)
  {
    if es != [] {
      var init, finit, last := es[..|es| - 1], fs[..|fs| - 1], es[|es| - 1];
      SelectPartition(init, finit);
      var t, f := Select(init, finit, true), Select(init, finit, false);
      assert es == init + [last];
      MultisetSnoc(init, last);
      MultisetSnoc(t, last);
      MultisetSnoc(f, last);
      MultisetRegroup(multiset(t), multiset(f), multiset(init), last);
    }
  }

  /** Adding one element to either side of a split adds it to the whole. */
  lemma MultisetRegroup<T>(mt: multiset<T>, mf: multiset<T>, mi: multiset<T>, x: T)
    requires mt + mf == mi
    ensures (mt + multiset{x}) + mf == mi + multiset{x}
    ensures mt + (mf + multiset{x}) == mi + multiset{x}
  {
  }

  /** The two selections have as many elements as the input. */
  lemma {:induction false} SelectLengths<T>(es: seq<T>, fs: seq<bool>)
    requires |fs| == |es|
    ensures |Select(es, fs, true)| + |Select(es, fs, false)| == |es|
  {
    if es != [] {
      SelectLengths(es[..|es| - 1], fs[..|fs| - 1]);
    }
  }

  /** Selecting from a concatenation selects from each part, in order. */
  lemma {:induction false} SelectAppend<T>(a: seq<T>, fa: seq<bool>, b: seq<T>, fb: seq<bool>, want: bool)
    requires |fa| == |a| && |fb| == |b|
    ensures Select(a + b, fa + fb, want) == Select(a, fa, want) + Select(b, fb, want)
    decreases |b|
  {
    if b == [] {
      assert a + b == a && fa + fb == fa;
    } else {
      var binit, fbinit := b[..|b| - 1], fb[..|fb| - 1];
      var last := if fb[|fb| - 1] == want then [b[|b| - 1]] else [];
      assert (a + b)[..|a + b| - 1] == a + binit;
      assert (fa + fb)[..|fa + fb| - 1] == fa + fbinit;
      assert Select(a + b, fa + fb, want) == Select(a + binit, fa + fbinit, want) + last;
      assert Select(b, fb, want) == Select(binit, fbinit, want) + last;
      SelectAppend(a, fa, binit, fbinit, want);
      ConcatAssoc(Select(a, fa, want), Select(binit, fbinit, want), last);
    }
  }

  /** One element is kept exactly when its flag is the wanted one. */
  lemma SelectSingleton<T>(x: T, f: bool, want: bool)
    ensures Select([x], [f], want) == if f == want then [x] else []
  {
    assert [x][..0] == [];
  }

  /** Whether each email of a concatenation is important: the two parts' flags, in order. */
  lemma FlagsAppend(a: seq<FetchedEmail>, b: seq<FetchedEmail>)
    ensures Flags(a + b) == Flags(a) + Flags(b)
  {
  }

  /**
   * Both sections keep the input order, as list comprehensions do: the sections of a
   * concatenation are the parts' sections concatenated, and one email lands in exactly the
   * section its importance names.
   */
  lemma SectionsKeepOrder(a: seq<FetchedEmail>, b: seq<FetchedEmail>, e: FetchedEmail)
    ensures ImportantEmails(a + b) == ImportantEmails(a) + ImportantEmails(b)
    ensures RegularEmails(a + b) == RegularEmails(a) + RegularEmails(b)
    ensures ImportantEmails([e]) == (if IsImportant(e) then [e] else [])
    ensures RegularEmails([e]) == (if IsImportant(e) then [] else [e])
  {
    FlagsAppend(a, b);
    SelectAppend(a, Flags(a), b, Flags(b), true);
    SelectAppend(a, Flags(a), b, Flags(b), false);
    assert Flags([e]) == [IsImportant(e)];
    SelectSingleton(e, IsImportant(e), true);
    SelectSingleton(e, IsImportant(e), false);
  }

  /** `important_emails`: the important emails in their original order. */
  function ImportantEmails(emails: seq<FetchedEmail>): (r: seq<FetchedEmail>)
    ensures |r| <= |emails|
    ensures forall x :: x in r ==> x in emails
  {
    SelectMembers(emails, Flags(emails), true);
    Select(emails, Flags(emails), true)
  }

  /** `regular_emails`: the other emails in their original order. */
  function RegularEmails(emails: seq<FetchedEmail>): (r: seq<FetchedEmail>)
    ensures |r| <= |emails|
    ensures forall x :: x in r ==> x in emails
  {
    SelectMembers(emails, Flags(emails), false);
    Select(emails, Flags(emails), false)
  }

  /**
   * The two sections partition the emails: every important email goes to the first, every
   * other one to the second, and together they hold each input email exactly once.
   */
  lemma ImportanceSplit(emails: seq<FetchedEmail>)
    ensures forall x :: x in ImportantEmails(emails) ==> x in emails && IsImportant(x)
    ensures forall x :: x in RegularEmails(emails) ==> x in emails && !IsImportant(x)
    ensures multiset(ImportantEmails(emails)) + multiset(RegularEmails(emails)) == multiset(emails)
    ensures |ImportantEmails(emails)| + |RegularEmails(emails)| == |emails|
  {
    var fs := Flags(emails);
    SelectMembers(emails, fs, true);
    SelectMembers(emails, fs, false);
    SelectPartition(emails, fs);
    SelectLengths(emails, fs);
    forall x | x in Select(emails, fs, true) ensures x in emails && IsImportant(x) {
      var k :| 0 <= k < |emails| && emails[k] == x && fs[k] == true;
    }
    forall x | x in Select(emails, fs, false) ensures x in emails && !IsImportant(x) {
      var k :| 0 <= k < |emails| && emails[k] == x && fs[k] == false;
    }
  }

  // ---------------------------------------------------------------------------
  // The layout
  // ---------------------------------------------------------------------------

  /** The seven lines of one email's entry: sender, subject, time, blank, summary, rule, blank. */
  function EntryLines(e: FetchedEmail, summary: string, fmt: TimeFormats): seq<string> {
    ["**From:** " + e.fromAddr, "**Subject:** " + e.subject, "**Time:** " + fmt.hourMinute(e.date),
     "", summary, "---", ""]
  }

  /** The entries of a section, seven lines per (email, summary) pair, in order. */
  function EntriesLines(entries: seq<(FetchedEmail, string)>, fmt: TimeFormats): (r: seq<string>)
    ensures |r| == 7 * |entries|
  {
    if entries == [] then []
    else
      var last := entries[|entries| - 1];
      EntriesLines(entries[..|entries| - 1], fmt) + EntryLines(last.0, last.1, fmt)
  }

  /** Block `k` of seven lines is the entry of the `k`-th pair. */
  lemma {:induction false} EntriesLinesBlocks(entries: seq<(FetchedEmail, string)>, fmt: TimeFormats)
    ensures forall k :: 0 <= k < |entries| ==>
      EntriesLines(entries, fmt)[7 * k..7 * k + 7] == EntryLines(entries[k].0, entries[k].1, fmt)
  {
    if entries != [] {
      var init, last := entries[..|entries| - 1], entries[|entries| - 1];
      var a, b := EntriesLines(init, fmt), EntryLines(last.0, last.1, fmt);
      EntriesLinesBlocks(init, fmt);
      forall k | 0 <= k < |entries|
        ensures EntriesLines(entries, fmt)[7 * k..7 * k + 7] == EntryLines(entries[k].0, entries[k].1, fmt)
      {
        if k < |init| {
          SliceLeft(a, b, 7 * k, 7 * k + 7);
          assert entries[k] == init[k];
        } else {
          SliceRight(a, b, 7 * k, 7 * k + 7);
          assert b[0..7] == b;
        }
      }
    }
  }

  /** Each email paired with its summary, in order. */
  function Entries(es: seq<FetchedEmail>, summarize: FetchedEmail -> string): (r: seq<(FetchedEmail, string)>)
    ensures |r| == |es|
  {
    seq(|es|, k requires 0 <= k < |es| => (es[k], summarize(es[k])))
  }

  /** A section: its title and a blank line, then its entries; nothing at all when it has no email. */
  function Section(title: string, entries: seq<(FetchedEmail, string)>, fmt: TimeFormats): (r: seq<string>)
    ensures |r| == if entries == [] then 0 else 2 + 7 * |entries|
  {
    if entries == [] then [] else [title, ""] + EntriesLines(entries, fmt)
  }

  /** The four header lines: the date of the first email, the total, the important count, a blank. */
  function Header(emails: seq<FetchedEmail>, important: nat, fmt: TimeFormats): (r: seq<string>)
    requires emails != []
    ensures |r| == 4 && StartsWith(r[0], DigestTitle)
    ensures r[0] == DigestTitle + fmt.ymd(emails[0].date)
    ensures r[1] == "Total emails: " + NatToString(|emails|)
    ensures r[2] == "Important emails: " + NatToString(important)
    ensures r[3] == ""
  {
    [DigestTitle + fmt.ymd(emails[0].date),
     "Total emails: " + NatToString(|emails|),
     "Important emails: " + NatToString(important),
     ""]
  }

  /** Four header lines, then the important section, then the other section. */
  function Layout(header: seq<string>, important: seq<(FetchedEmail, string)>, regular: seq<(FetchedEmail, string)>,
                  fmt: TimeFormats): seq<string>
  {
    header + Section(ImportantTitle, important, fmt) + Section(OtherTitle, regular, fmt)
  }

  /**
   * The shape of a layout with a four-line header: the header, then the important title and a
   * blank line when there are important entries, seven lines per entry, and the same for the
   * other entries from the offset `o` just past the important section.
   */
  lemma LayoutShape(header: seq<string>, a: seq<(FetchedEmail, string)>, b: seq<(FetchedEmail, string)>, fmt: TimeFormats)
    requires |header| == 4
    ensures var lines, o := Layout(header, a, b, fmt), 4 + (if a == [] then 0 else 2 + 7 * |a|);
      && |lines| == o + (if b == [] then 0 else 2 + 7 * |b|)
      && lines[..4] == header
      && (a != [] ==> lines[4] == ImportantTitle && lines[5] == "")
      && (b != [] ==> lines[o] == OtherTitle && lines[o + 1] == "")
  {
    var s1, s2 := Section(ImportantTitle, a, fmt), Section(OtherTitle, b, fmt);
    SliceLeft(header + s1, s2, 0, 4);
    SliceLeft(header, s1, 0, 4);
  }

  /** In a layout with a four-line header, important entry `k` fills lines `6 + 7k` to `12 + 7k`. */
  lemma LayoutImportant(header: seq<string>, a: seq<(FetchedEmail, string)>, b: seq<(FetchedEmail, string)>, fmt: TimeFormats)
    requires |header| == 4
    ensures forall k :: 0 <= k < |a| ==>
      Layout(header, a, b, fmt)[6 + 7 * k..13 + 7 * k] == EntryLines(a[k].0, a[k].1, fmt)
  {
    var s1, s2 := Section(ImportantTitle, a, fmt), Section(OtherTitle, b, fmt);
    EntriesLinesBlocks(a, fmt);
    forall k | 0 <= k < |a|
      ensures (header + s1 + s2)[6 + 7 * k..13 + 7 * k] == EntryLines(a[k].0, a[k].1, fmt)
    {
      SliceLeft(header + s1, s2, 6 + 7 * k, 13 + 7 * k);
      SliceRight(header, s1, 6 + 7 * k, 13 + 7 * k);
      SliceRight([ImportantTitle, ""], EntriesLines(a, fmt), 2 + 7 * k, 9 + 7 * k);
    }
  }

  /** Other entry `k` fills the seven lines from `o + 2 + 7k`, `o` being the offset past the important section. */
  lemma LayoutOther(header: seq<string>, a: seq<(FetchedEmail, string)>, b: seq<(FetchedEmail, string)>, fmt: TimeFormats)
    requires |header| == 4
    ensures var o := 4 + (if a == [] then 0 else 2 + 7 * |a|);
      forall k :: 0 <= k < |b| ==>
        Layout(header, a, b, fmt)[o + 2 + 7 * k..o + 9 + 7 * k] == EntryLines(b[k].0, b[k].1, fmt)
  {
    var s1, s2 := Section(ImportantTitle, a, fmt), Section(OtherTitle, b, fmt);
    var o := |header + s1|;
    EntriesLinesBlocks(b, fmt);
    forall k | 0 <= k < |b|
      ensures (header + s1 + s2)[o + 2 + 7 * k..o + 9 + 7 * k] == EntryLines(b[k].0, b[k].1, fmt)
    {
      SliceRight(header + s1, s2, o + 2 + 7 * k, o + 9 + 7 * k);
      SliceRight([OtherTitle, ""], EntriesLines(b, fmt), 2 + 7 * k, 9 + 7 * k);
    }
  }

  /** Entry `k` pairs email `k` with its summary. */
  lemma EntriesAt(es: seq<FetchedEmail>, summarize: FetchedEmail -> string)
    ensures forall k :: 0 <= k < |es| ==> Entries(es, summarize)[k] == (es[k], summarize(es[k]))
  {
  }

  /** `LayoutImportant` for the entries of emails `imp`. */
  lemma LayoutImportantEmails(header: seq<string>, imp: seq<FetchedEmail>, reg: seq<FetchedEmail>,
                              summarize: FetchedEmail -> string, fmt: TimeFormats)
    requires |header| == 4
    ensures var lines := Layout(header, Entries(imp, summarize), Entries(reg, summarize), fmt);
      forall k :: 0 <= k < |imp| ==> lines[6 + 7 * k..13 + 7 * k] == EntryLines(imp[k], summarize(imp[k]), fmt)
  {
    LayoutImportant(header, Entries(imp, summarize), Entries(reg, summarize), fmt);
    EntriesAt(imp, summarize);
  }

  /** `LayoutOther` for the entries of emails `reg`. */
  lemma LayoutOtherEmails(header: seq<string>, imp: seq<FetchedEmail>, reg: seq<FetchedEmail>,
                          summarize: FetchedEmail -> string, fmt: TimeFormats)
    requires |header| == 4
    ensures var lines, o := Layout(header, Entries(imp, summarize), Entries(reg, summarize), fmt),
                            4 + (if imp == [] then 0 else 2 + 7 * |imp|);
      forall k :: 0 <= k < |reg| ==> lines[o + 2 + 7 * k..o + 9 + 7 * k] == EntryLines(reg[k], summarize(reg[k]), fmt)
  {
    LayoutOther(header, Entries(imp, summarize), Entries(reg, summarize), fmt);
    EntriesAt(reg, summarize);
  }

  /** The lines of the digest of a non-empty list: the header, the important section, the other section. */
  function DigestLines(emails: seq<FetchedEmail>, summarize: FetchedEmail -> string, fmt: TimeFormats): (r: seq<string>)
    requires emails != []
    ensures r != [] && StartsWith(r[0], DigestTitle)
  {
    var important := ImportantEmails(emails);
    Layout(Header(emails, |important|, fmt), Entries(important, summarize), Entries(RegularEmails(emails), summarize), fmt)
  }

  /** The digest text: the fixed message when there is no email, otherwise the lines joined by newlines. */
  function DigestOf(emails: seq<FetchedEmail>, summarize: FetchedEmail -> string, fmt: TimeFormats): (r: string)
    ensures emails == [] ==> r == NoEmailsMessage
    ensures emails != [] ==> StartsWith(r, DigestTitle)
    ensures emails != [] ==> r == Join("\n", DigestLines(emails, summarize, fmt))
  {
    if emails == [] then NoEmailsMessage
    else
      var lines := DigestLines(emails, summarize, fmt);
      var r := Join("\n", lines);
      JoinStartsWith("\n", lines);
      assert r[..|DigestTitle|] == r[..|lines[0]|][..|DigestTitle|];
      r
  }

  /**
   * The shape of the digest: four header lines with the date, the total and the important
   * count; the important title when there are important emails, seven lines per email; then the
   * other title when there are other emails, seven lines per email.
   */
  lemma DigestShape(emails: seq<FetchedEmail>, summarize: FetchedEmail -> string, fmt: TimeFormats)
    requires emails != []
    ensures var lines, imp, reg := DigestLines(emails, summarize, fmt), ImportantEmails(emails), RegularEmails(emails);
      var o := 4 + (if imp == [] then 0 else 2 + 7 * |imp|);
      && |lines| == o + (if reg == [] then 0 else 2 + 7 * |reg|)
      && lines[..4] == Header(emails, |imp|, fmt)
      && lines[0] == DigestTitle + fmt.ymd(emails[0].date)
      && lines[1] == "Total emails: " + NatToString(|emails|)
      && lines[2] == "Important emails: " + NatToString(|imp|)
      && (imp != [] ==> lines[4] == ImportantTitle && lines[5] == "")
      && (reg != [] ==> lines[o] == OtherTitle && lines[o + 1] == "")
  {
    var imp, reg := ImportantEmails(emails), RegularEmails(emails);
    var header, a, b := Header(emails, |imp|, fmt), Entries(imp, summarize), Entries(reg, summarize);
    var lines := DigestLines(emails, summarize, fmt);
    assert lines == Layout(header, a, b, fmt);
    LayoutShape(header, a, b, fmt);
    assert lines[0] == lines[..4][0] && lines[1] == lines[..4][1] && lines[2] == lines[..4][2];
  }

  /** The important emails' entries, each with its summary, in their original order. */
  lemma DigestImportantEntries(emails: seq<FetchedEmail>, summarize: FetchedEmail -> string, fmt: TimeFormats)
    requires emails != []
    ensures var lines, imp := DigestLines(emails, summarize, fmt), ImportantEmails(emails);
      forall k :: 0 <= k < |imp| ==> lines[6 + 7 * k..13 + 7 * k] == EntryLines(imp[k], summarize(imp[k]), fmt)
  {
    var imp, reg := ImportantEmails(emails), RegularEmails(emails);
    var header := Header(emails, |imp|, fmt);
    assert DigestLines(emails, summarize, fmt) == Layout(header, Entries(imp, summarize), Entries(reg, summarize), fmt);
    LayoutImportantEmails(header, imp, reg, summarize, fmt);
  }

  /** The other emails' entries, each with its summary, in their original order, after the important section. */
  lemma DigestOtherEntries(emails: seq<FetchedEmail>, summarize: FetchedEmail -> string, fmt: TimeFormats)
    requires emails != []
    ensures var lines, imp, reg := DigestLines(emails, summarize, fmt), ImportantEmails(emails), RegularEmails(emails);
      var o := 4 + (if imp == [] then 0 else 2 + 7 * |imp|);
      forall k :: 0 <= k < |reg| ==> lines[o + 2 + 7 * k..o + 9 + 7 * k] == EntryLines(reg[k], summarize(reg[k]), fmt)
  {
    var imp, reg := ImportantEmails(emails), RegularEmails(emails);
    var header := Header(emails, |imp|, fmt);
    assert DigestLines(emails, summarize, fmt) == Layout(header, Entries(imp, summarize), Entries(reg, summarize), fmt);
    LayoutOtherEmails(header, imp, reg, summarize, fmt);
  }

  // ---------------------------------------------------------------------------
  // The digest of the summarizer
  // ---------------------------------------------------------------------------

  /** The summarizer's summary of one email, as a function. */
  function Summaries(s: EmailSummarizer, svc: Services): FetchedEmail -> string {
    e => s.SummarySpec(e, svc)
  }

  /** `generate_daily_digest` of summarizer `s`. */
  function Digest(s: EmailSummarizer, emails: seq<FetchedEmail>, svc: Services): (r: string)
    ensures emails == [] ==> r == NoEmailsMessage
    ensures emails != [] ==> StartsWith(r, DigestTitle)
    ensures emails != [] ==> r == Join("\n", DigestLines(emails, Summaries(s, svc), svc.fmt))
  {
    DigestOf(emails, Summaries(s, svc), svc.fmt)
  }

  /** The requests of each email's summary, in order: at most one each. */
  function CallLists(s: EmailSummarizer, es: seq<FetchedEmail>, svc: Services): (r: seq<seq<OllamaRequest>>)
    ensures |r| == |es|
    ensures forall k :: 0 <= k < |r| ==> |r[k]| <= 1
  {
    seq(|es|, k requires 0 <= k < |es| => ModelCalls(s, es[k], svc))
  }

  /** The lists concatenated in order. */
  function Flatten<T>(xss: seq<seq<T>>): seq<T> {
    if xss == [] then [] else Flatten(xss[..|xss| - 1]) + xss[|xss| - 1]
  }

  /** Concatenating lists of at most one element each gives at most one element per list. */
  lemma {:induction false} FlattenShort<T>(xss: seq<seq<T>>)
    requires forall k :: 0 <= k < |xss| ==> |xss[k]| <= 1
    ensures |Flatten(xss)| <= |xss|
  {
    if xss != [] {
      FlattenShort(xss[..|xss| - 1]);
    }
  }

  /** The model requests of summarizing each email of `es` in turn. */
  function Calls(s: EmailSummarizer, es: seq<FetchedEmail>, svc: Services): seq<OllamaRequest> {
    Flatten(CallLists(s, es, svc))
  }

  /** The requests the digest sends: the important emails' summaries first, then the others'. */
  function DigestCalls(s: EmailSummarizer, emails: seq<FetchedEmail>, svc: Services): seq<OllamaRequest> {
    Calls(s, ImportantEmails(emails), svc) + Calls(s, RegularEmails(emails), svc)
  }

  /** The digest asks the model at most once per email. */
  lemma DigestCallsBound(s: EmailSummarizer, emails: seq<FetchedEmail>, svc: Services)
    ensures |DigestCalls(s, emails, svc)| <= |emails|
  {
    ImportanceSplit(emails);
    FlattenShort(CallLists(s, ImportantEmails(emails), svc));
    FlattenShort(CallLists(s, RegularEmails(emails), svc));
  }

  /** One step of a section: email `i` summarized and its seven lines appended. */
  method AppendEntry(s: EmailSummarizer, out: seq<string>, es: seq<FetchedEmail>, i: nat, svc: Services,
                     ghost ents: seq<(FetchedEmail, string)>, ghost cl: seq<seq<OllamaRequest>>)
      returns (out': seq<string>, ghost calls: seq<OllamaRequest>)
    requires i < |es|
    requires ents == Entries(es, Summaries(s, svc)) && cl == CallLists(s, es, svc)
    ensures out' == out + EntryLines(ents[i].0, ents[i].1, svc.fmt)
    ensures calls == cl[i]
  {
    var summary;
    summary, calls := s.SummarizeEmail(es[i], svc);
    out' := out + EntryLines(es[i], summary, svc.fmt);
  }

  /** Appending the lines of one more entry. */
  lemma EntriesLinesSnoc(ents: seq<(FetchedEmail, string)>, i: nat, fmt: TimeFormats)
    requires i < |ents|
    ensures EntriesLines(ents[..i + 1], fmt) == EntriesLines(ents[..i], fmt) + EntryLines(ents[i].0, ents[i].1, fmt)
  {
    assert ents[..i + 1][..i] == ents[..i];
  }

  lemma AppendAssoc<T>(a: seq<T>, b: seq<T>, c: seq<T>)
    ensures (a + b) + c == a + (b + c)
  {
  }

  /** Appending the requests of one more email. */
  lemma FlattenSnoc<T>(xss: seq<seq<T>>, i: nat)
    requires i < |xss|
    ensures Flatten(xss[..i + 1]) == Flatten(xss[..i]) + xss[i]
  {
    assert xss[..i + 1][..i] == xss[..i];
  }

  /** The loop over one section's emails: each is summarized and its seven lines appended. */
  method AppendSection(s: EmailSummarizer, parts: seq<string>, title: string, es: seq<FetchedEmail>, svc: Services)
      returns (out: seq<string>, ghost requests: seq<OllamaRequest>)
    ensures out == parts + Section(title, Entries(es, Summaries(s, svc)), svc.fmt)
    ensures requests == Calls(s, es, svc)
  {
    out := parts;
    requests := [];
    if es == [] {
      return;
    }
    ghost var ents := Entries(es, Summaries(s, svc));
    ghost var cl := CallLists(s, es, svc);
    out := out + [title, ""];
    ghost var head := out;
    for i := 0 to |es|
      invariant out == head + EntriesLines(ents[..i], svc.fmt)
      invariant requests == Flatten(cl[..i])
    {
      ghost var calls;
      out, calls := AppendEntry(s, out, es, i, svc, ents, cl);
      EntriesLinesSnoc(ents, i, svc.fmt);
      AppendAssoc(head, EntriesLines(ents[..i], svc.fmt), EntryLines(ents[i].0, ents[i].1, svc.fmt));
      FlattenSnoc(cl, i);
      requests := requests + calls;
    }
    assert ents[..|es|] == ents;
    assert cl[..|es|] == cl;
    AppendAssoc(parts, [title, ""], EntriesLines(ents, svc.fmt));
  }

  /**
   * `generate_daily_digest`: a fixed message for no email; otherwise the header, then each
   * section's emails summarized one by one, all joined by newlines.
   */
  method GenerateDailyDigest(s: EmailSummarizer, emails: seq<FetchedEmail>, svc: Services)
      returns (digest: string, ghost requests: seq<OllamaRequest>)
    ensures digest == Digest(s, emails, svc)
    ensures requests == DigestCalls(s, emails, svc)
  {
    if emails == [] {
      return NoEmailsMessage, [];
    }
    var important := ImportantEmails(emails);
    var regular := RegularEmails(emails);
    var parts := Header(emails, |important|, svc.fmt);
    ghost var first, second;
    parts, first := AppendSection(s, parts, ImportantTitle, important, svc);
    parts, second := AppendSection(s, parts, OtherTitle, regular, svc);
    requests := first + second;
    digest := Join("\n", parts);
  }
}

=== FILE: fetch_by_folder.dfy ===
/**
 * Where the bulk fetch of `fetch` runs. The search loop selects INBOX and then each spam
 * folder, and the single bulk fetch is sent afterwards, so it runs in whatever mailbox the
 * last select left selected, while the UIDs it asks for came from every folder. This module
 * exhibits the effect on a Gmail-like account and defines the evidently intended fetch,
 * folder by folder.
 */
module FetchByFolder {
  import opened Wrappers
  import opened Time
  import opened ImapFetcher

  /**
   * A Gmail-like account: INBOX holds message 7, "[Gmail]/Spam" exists and is empty, there is no
   * "Junk" and no "Spam" folder, and a fetch is refused while no mailbox is selected; a fetch in
   * INBOX answers `inbox`.
   */
  function GmailLike(inbox: seq<FetchItem>): Server {
    Server(true,
      f => f == "INBOX" || f == "[Gmail]/Spam",
      (f, c) => if f == "INBOX" then Some([7]) else Some([]),
      (m, uids) => if m == Some("INBOX") then Some(inbox) else if m.None? then None else Some([]))
  }

  /**
   * As written, with the spam folders searched, the Gmail-like account gives no email at all: the
   * select of "Spam" fails last, leaving no mailbox selected, so the bulk fetch of UID 7 raises.
   */
  lemma SpamFolderMissingLosesInbox(accountKey: string, inbox: seq<FetchItem>, lastRun: Option<DateTime>, window24h: bool,
                                    lib: MimeLibrary, fmt: TimeFormats, now: DateTime)
    ensures FetchOutcome(accountKey, GmailLike(inbox), lastRun, window24h, true, lib, fmt, now) == Failure(BulkFetchFailed)
  {
    var server, folders := GmailLike(inbox), Mailboxes(true);
    var criteria := CriteriaFor(SinceBound(lastRun, window24h, now), fmt);
    GmailLikeFound(inbox, criteria);
    SortedDistinctUnique([7], [7]);
    assert Selected(server, folders) == None;
  }

  /** The search over the Gmail-like account finds UID 7 alone. */
  lemma GmailLikeFound(inbox: seq<FetchItem>, criteria: Criteria)
    ensures Found(GmailLike(inbox), Mailboxes(true), criteria) == [7]
  {
    var server := GmailLike(inbox);
    assert FolderHits(server, "INBOX", criteria) == [7];
    assert FolderHits(server, "[Gmail]/Spam", criteria) == [];
    assert FolderHits(server, "Junk", criteria) == [] && FolderHits(server, "Spam", criteria) == [];
    var f1 := ["INBOX"];
    var f2 := f1 + ["[Gmail]/Spam"];
    var f3 := f2 + ["Junk"];
    var f4 := f3 + ["Spam"];
    assert f1[..0] == [] && f2[..1] == f1 && f3[..2] == f2 && f4[..3] == f3;
    assert Found(server, f1, criteria) == [7];
    assert Found(server, f2, criteria) == [7];
    assert Found(server, f3, criteria) == [7];
    assert Found(server, f4, criteria) == [7];
    assert Mailboxes(true) == f4;
  }

  /** One folder of the corrected fetch: the UIDs its search returned, fetched while it is selected. */
  function FolderFetch(accountKey: string, server: Server, folder: string, criteria: Criteria, lib: MimeLibrary,
                       now: DateTime): (r: Result<seq<FetchedEmail>, FetchError>)
    ensures FolderHits(server, folder, criteria) == [] ==> r == Success([])
    ensures r.Success? ==> forall k :: 0 <= k < |r.value| ==> r.value[k].account == accountKey
  {
    var uids := SortedDistinct(FolderHits(server, folder, criteria));
    if uids == [] then Success([])
    else match server.fetch(Some(folder), uids)
      case None => Failure(BulkFetchFailed)
      case Some(items) => Success(DecomposeAllSpec(accountKey, items, lib, now))
  }

  /** The folders fetched in turn, each one's emails after the previous ones', stopping at the first raise. */
  function FetchFolders(accountKey: string, server: Server, folders: seq<string>, criteria: Criteria, lib: MimeLibrary,
                        now: DateTime): (r: Result<seq<FetchedEmail>, FetchError>)
    ensures r.Success? ==> forall k :: 0 <= k < |r.value| ==> r.value[k].account == accountKey
  {
    if folders == [] then Success([])
    else match FetchFolders(accountKey, server, folders[..|folders| - 1], criteria, lib, now)
      case Failure(err) => Failure(err)
      case Success(earlier) =>
        match FolderFetch(accountKey, server, folders[|folders| - 1], criteria, lib, now)
        case Failure(err) => Failure(err)
        case Success(later) => Success(earlier + later)
  }

  /**
   * `fetch` as evidently intended: each folder's UIDs fetched while that folder is selected, so
   * a UID is only ever looked up in the mailbox whose search returned it.
   */
  function FetchOutcomeByFolder(accountKey: string, server: Server, lastRun: Option<DateTime>, window24h: bool,
                                includeSpam: bool, lib: MimeLibrary, fmt: TimeFormats, now: DateTime)
    : (r: Result<seq<FetchedEmail>, FetchError>)
    ensures !server.loginOk ==> r == Failure(LoginFailed)
    ensures server.loginOk && Found(server, Mailboxes(includeSpam), CriteriaFor(SinceBound(lastRun, window24h, now), fmt)) == []
      ==> r == Success([])
    ensures r.Success? ==> forall k :: 0 <= k < |r.value| ==> r.value[k].account == accountKey
  {
    if !server.loginOk then Failure(LoginFailed)
    else
      var criteria := CriteriaFor(SinceBound(lastRun, window24h, now), fmt);
      NothingFoundNothingFetched(accountKey, server, Mailboxes(includeSpam), criteria, lib, now);
      FetchFolders(accountKey, server, Mailboxes(includeSpam), criteria, lib, now)
  }

  /** Folders whose searches return nothing give no email and send no fetch. */
  lemma {:induction false} NothingFoundNothingFetched(accountKey: string, server: Server, folders: seq<string>,
                                                      criteria: Criteria, lib: MimeLibrary, now: DateTime)
    ensures Found(server, folders, criteria) == [] ==> FetchFolders(accountKey, server, folders, criteria, lib, now) == Success([])
  {
    if folders != [] && Found(server, folders, criteria) == [] {
      NothingFoundNothingFetched(accountKey, server, folders[..|folders| - 1], criteria, lib, now);
    }
  }

  /** Corrected, the Gmail-like account gives the emails of INBOX. */
  lemma SpamFolderMissingByFolder(accountKey: string, inbox: seq<FetchItem>, lastRun: Option<DateTime>, window24h: bool,
                                  lib: MimeLibrary, fmt: TimeFormats, now: DateTime)
    ensures FetchOutcomeByFolder(accountKey, GmailLike(inbox), lastRun, window24h, true, lib, fmt, now) ==
      Success(DecomposeAllSpec(accountKey, inbox, lib, now))
  {
    var server := GmailLike(inbox);
    var criteria := CriteriaFor(SinceBound(lastRun, window24h, now), fmt);
    var emails := DecomposeAllSpec(accountKey, inbox, lib, now);
    SortedDistinctUnique([7], [7]);
    assert FolderHits(server, "INBOX", criteria) == [7];
    assert FolderFetch(accountKey, server, "INBOX", criteria, lib, now) == Success(emails);
    assert FolderHits(server, "[Gmail]/Spam", criteria) == [];
    assert FolderHits(server, "Junk", criteria) == [] && FolderHits(server, "Spam", criteria) == [];
    var f1 := ["INBOX"];
    var f2 := f1 + ["[Gmail]/Spam"];
    var f3 := f2 + ["Junk"];
    var f4 := f3 + ["Spam"];
    assert f1[..0] == [] && f2[..1] == f1 && f3[..2] == f2 && f4[..3] == f3;
    assert FetchFolders(accountKey, server, f1, criteria, lib, now) == Success(emails) by {
      assert [] + emails == emails;
    }
    assert emails + [] == emails;
    assert FetchFolders(accountKey, server, f2, criteria, lib, now) == Success(emails);
    assert FetchFolders(accountKey, server, f3, criteria, lib, now) == Success(emails);
    assert FetchFolders(accountKey, server, f4, criteria, lib, now) == Success(emails);
    assert Mailboxes(true) == f4;
  }

  /** Without the spam folders only INBOX is searched, and the correction changes nothing. */
  lemma ByFolderAgreesWithoutSpam(accountKey: string, server: Server, lastRun: Option<DateTime>, window24h: bool,
                                  lib: MimeLibrary, fmt: TimeFormats, now: DateTime)
    ensures FetchOutcomeByFolder(accountKey, server, lastRun, window24h, false, lib, fmt, now) ==
      FetchOutcome(accountKey, server, lastRun, window24h, false, lib, fmt, now)
  {
    var criteria := CriteriaFor(SinceBound(lastRun, window24h, now), fmt);
    var folders := Mailboxes(false);
    assert folders == ["INBOX"] && folders[..0] == [];
    var hits := FolderHits(server, "INBOX", criteria);
    assert Found(server, folders, criteria) == [] + hits;
    assert [] + hits == hits;
    var r := FolderFetch(accountKey, server, "INBOX", criteria, lib, now);
    assert FetchFolders(accountKey, server, folders, criteria, lib, now) == r by {
      if r.Success? {
        assert [] + r.value == r.value;
      }
    }
    if server.loginOk && SortedDistinct(hits) != [] {
      assert hits != [];
      assert server.selectOk("INBOX");
      assert Selected(server, folders) == Some("INBOX");
    } else if server.loginOk {
      BulkFetchIssuedIffFound(server, folders, criteria);
    }
  }
}

=== FILE: imap_fetcher.dfy ===
/**
 * The IMAP fetcher: folder search with de-duplication, the lower bound of the search,
 * and the decomposition of each fetched message into body, HTML and attachments.
 * The IMAP server and Python's `email` package are supplied as functions; a `None`
 * result from them stands for the call raising.
 */
module ImapFetcher {
  import opened Wrappers
  import opened Text
  import opened Time
  import AttachmentParser

  type Attachment = AttachmentParser.Attachment

  /** One decomposed message. */
  datatype FetchedEmail = FetchedEmail(
    account: string,
    uid: int,
    subject: string,
    fromAddr: string,
    toAddrs: seq<string>,
    date: DateTime,
    bodyText: string,
    htmlText: Option<string>,
    attachments: seq<Attachment>,
    rawMessage: Bytes)

  // ---------------------------------------------------------------------------
  // Messages as the `email` package presents them
  // ---------------------------------------------------------------------------

  /**
   * One element of `msg.walk()`: its content type, its `Content-Disposition` header as a
   * string ("" when absent), `get_filename()` and `get_payload(decode=True)`.
   */
  datatype Part = Part(contentType: string, disposition: string, filename: Option<string>, payload: Option<Bytes>)

  /** A multipart message is the sequence `msg.walk()` yields; a single-part one has one payload. */
  datatype MessageBody =
    | Multipart(walk: seq<Part>)
    | SinglePart(contentType: string, payload: Option<Bytes>)

  /** A parsed message: the Subject, From, To and Date headers (None when absent) and the body. */
  datatype Message = Message(
    subject: Option<string>,
    from: Option<string>,
    to: Option<string>,
    date: Option<string>,
    body: MessageBody)

  /**
   * The parts of Python's `email` package the fetcher calls:
   * - parse: `email.message_from_bytes` followed by the header reads; None when any of it raises
   * - decodeUtf8: `payload.decode('utf-8', errors='ignore')`
   * - parseDate: `email.utils.parsedate_to_datetime`; None when it raises
   */
  datatype MimeLibrary = MimeLibrary(
    parse: Bytes -> Option<Message>,
    decodeUtf8: Bytes -> string,
    parseDate: string -> Option<DateTime>)

  // ---------------------------------------------------------------------------
  // Decomposition of a multipart message: which part fills which slot
  // ---------------------------------------------------------------------------

  /** A payload counts only when it is present and non-empty (`if payload:`). */
  predicate HasPayload(p: Part) {
    p.payload.Some? && p.payload.value != []
  }

  /** A part is routed to attachment handling when its disposition mentions `attachment` anywhere. */
  predicate IsAttachmentPart(p: Part) {
    Contains(p.disposition, "attachment")
  }

  /** An attachment part that is kept: it has a non-empty file name and a non-empty payload. */
  predicate Captured(p: Part) {
    IsAttachmentPart(p) && p.filename.Some? && p.filename.value != "" && HasPayload(p)
  }

  /** A part that can supply the plain body: a non-attachment `text/plain` part whose stripped text is non-empty. */
  predicate PlainCandidate(p: Part, dec: Bytes -> string) {
    !IsAttachmentPart(p) && p.contentType == "text/plain" && HasPayload(p) && Strip(dec(p.payload.value)) != ""
  }

  /** A part that writes the HTML slot when the slot is still falsy: a non-attachment `text/html` part with a payload. */
  predicate HtmlCandidate(p: Part) {
    !IsAttachmentPart(p) && p.contentType == "text/html" && HasPayload(p)
  }

  /** An HTML candidate whose decoded text is non-empty, so that it closes the HTML slot. */
  predicate HtmlFilled(p: Part, dec: Bytes -> string) {
    HtmlCandidate(p) && dec(p.payload.value) != ""
  }

  function IsPlainCandidate(dec: Bytes -> string): Part -> bool {
    p => PlainCandidate(p, dec)
  }

  function IsHtmlCandidate(): Part -> bool {
    p => HtmlCandidate(p)
  }

  function IsHtmlFilled(dec: Bytes -> string): Part -> bool {
    p => HtmlFilled(p, dec)
  }

  /** The three slots the walk fills: `body_text`, `html_text` and `attachments`. */
  datatype Slots = Slots(body: string, html: Option<string>, attachments: seq<Attachment>)

  const Empty: Slots := Slots("", None, [])

  /**
   * One iteration of the loop over `msg.walk()`: a body already set stays, an HTML text already
   * non-empty stays, and the attachments gain this part only when it is a kept attachment.
   */
  function Step(s: Slots, p: Part, dec: Bytes -> string): (r: Slots)
    ensures s.body != "" ==> r.body == s.body
    ensures s.html.Some? && s.html.value != "" ==> r.html == s.html
    ensures IsAttachmentPart(p) && Captured(p) ==> r.attachments == s.attachments + [(p.filename.value, p.payload.value, p.contentType)]
    ensures !(IsAttachmentPart(p) && Captured(p)) ==> r.attachments == s.attachments
    ensures IsAttachmentPart(p) ==> r.body == s.body && r.html == s.html
  {
    if IsAttachmentPart(p) then
      if Captured(p) then s.(attachments := s.attachments + [(p.filename.value, p.payload.value, p.contentType)])
      else s
    else if p.contentType == "text/plain" && s.body == "" then
      if HasPayload(p) then s.(body := Strip(dec(p.payload.value))) else s
    else if p.contentType == "text/html" && (s.html.None? || s.html.value == "") then
      if HasPayload(p) then s.(html := Some(dec(p.payload.value))) else s
    else s
  }

  /**
   * The loop over the remaining parts, from slots `s`: what was filled stays filled, and the
   * attachments found before are kept, in front, with at most one more per part.
   */
  function Walk(s: Slots, ps: seq<Part>, dec: Bytes -> string): (r: Slots)
    ensures s.body != "" ==> r.body == s.body
    ensures s.html.Some? && s.html.value != "" ==> r.html == s.html
    ensures |s.attachments| <= |r.attachments| <= |s.attachments| + |ps|
    ensures r.attachments[..|s.attachments|] == s.attachments
    decreases |ps|
  {
    if ps == [] then s else Walk(Step(s, ps[0], dec), ps[1..], dec)
  }

  /** The attachments kept, as (filename, payload, content type), in walk order. */
  function Captures(ps: seq<Part>): (r: seq<Attachment>)
    ensures |r| <= |ps|
    ensures forall k :: 0 <= k < |r| ==> r[k].0 != "" && r[k].1 != []
  {
    if ps == [] then []
    else
      var p := ps[0];
      (if Captured(p) then [(p.filename.value, p.payload.value, p.contentType)] else []) + Captures(ps[1..])
  }

  /** The body: the stripped text of the first plain candidate, or "" when there is none. */
  function FirstPlain(ps: seq<Part>, dec: Bytes -> string): string {
    var i := FirstIndex(ps, IsPlainCandidate(dec));
    if i == -1 then "" else Strip(dec(ps[i].payload.value))
  }

  /**
   * The HTML slot: the text of the first HTML candidate whose text is non-empty; failing that
   * "" when some HTML candidate was seen (its empty text still fills the slot); otherwise None.
   */
  function HtmlChoice(ps: seq<Part>, dec: Bytes -> string): Option<string> {
    var i := FirstIndex(ps, IsHtmlFilled(dec));
    if i != -1 then Some(dec(ps[i].payload.value))
    else if FirstIndex(ps, IsHtmlCandidate()) != -1 then Some("")
    else None
  }

  /** Attachment capture appends the kept attachment parts, in order, to what was there. */
  lemma {:induction false} WalkAttachments(s: Slots, ps: seq<Part>, dec: Bytes -> string)
    ensures Walk(s, ps, dec).attachments == s.attachments + Captures(ps)
    decreases |ps|
  {
    if ps != [] {
      WalkAttachments(Step(s, ps[0], dec), ps[1..], dec);
    }
  }

  /** First wins for the body: once a non-empty body is set it stays; else the first plain candidate sets it. */
  lemma {:induction false} WalkBody(s: Slots, ps: seq<Part>, dec: Bytes -> string)
    ensures Walk(s, ps, dec).body == if s.body != "" then s.body else FirstPlain(ps, dec)
    decreases |ps|
  {
    if ps != [] {
      var p, s' := ps[0], Step(s, ps[0], dec);
      WalkBody(s', ps[1..], dec);
      FirstPlainCons(ps, dec);
      StepBody(s, p, dec);
    }
  }

  /** One step sets the body only when it is still empty and the part is a plain candidate. */
  lemma StepBody(s: Slots, p: Part, dec: Bytes -> string)
    ensures Step(s, p, dec).body == if s.body == "" && PlainCandidate(p, dec) then Strip(dec(p.payload.value)) else s.body
  {
  }

  /** The first plain candidate is the head when the head qualifies, else the first of the rest. */
  lemma FirstPlainCons(ps: seq<Part>, dec: Bytes -> string)
    requires ps != []
    ensures FirstPlain(ps, dec) == if PlainCandidate(ps[0], dec) then Strip(dec(ps[0].payload.value)) else FirstPlain(ps[1..], dec)
  {
    var P := IsPlainCandidate(dec);
    var i, j := FirstIndex(ps, P), FirstIndex(ps[1..], P);
    if !P(ps[0]) {
      if j == -1 {
        assert i == -1 by {
          forall k | 0 <= k < |ps| ensures !P(ps[k]) {
            if k > 0 {
              assert ps[k] == ps[1..][k - 1];
            }
          }
        }
      } else {
        assert ps[1..][j] == ps[j + 1];
        assert i == j + 1 by {
          forall k | 0 <= k < j + 1 ensures !P(ps[k]) {
            if k > 0 {
              assert ps[k] == ps[1..][k - 1];
            }
          }
        }
      }
    }
  }

  /** First wins for HTML, where an empty decoded text fills the slot with "" but leaves it open. */
  lemma {:induction false} WalkHtml(s: Slots, ps: seq<Part>, dec: Bytes -> string)
    ensures Walk(s, ps, dec).html ==
      if s.html.Some? && s.html.value != "" then s.html
      else if FirstIndex(ps, IsHtmlFilled(dec)) != -1 then HtmlChoice(ps, dec)
      else if s.html.Some? || FirstIndex(ps, IsHtmlCandidate()) != -1 then Some("")
      else None
    decreases |ps|
  {
    if ps != [] {
      var p, rest := ps[0], ps[1..];
      WalkHtml(Step(s, p, dec), rest, dec);
      if HtmlCandidate(p) {
        assert Step(s, p, dec).html == if s.html.Some? && s.html.value != "" then s.html else Some(dec(p.payload.value));
      } else {
        assert Step(s, p, dec).html == s.html;
      }
    }
  }

  /**
   * The decomposition of a multipart message: the body is the first plain candidate's stripped text,
   * HTML is chosen by `HtmlChoice`, and the attachments are the kept attachment parts. Attachment
   * parts never reach the body or HTML slots, because neither kind of candidate is an attachment part.
   */
  lemma DecomposeWalk(ps: seq<Part>, dec: Bytes -> string)
    ensures Walk(Empty, ps, dec) == Slots(FirstPlain(ps, dec), HtmlChoice(ps, dec), Captures(ps))
  {
    WalkAttachments(Empty, ps, dec);
    WalkBody(Empty, ps, dec);
    WalkHtml(Empty, ps, dec);
  }

  /** The loop over `msg.walk()`, filling the three slots part by part. */
  method DecomposeParts(ps: seq<Part>, dec: Bytes -> string) returns (bodyText: string, htmlText: Option<string>, attachments: seq<Attachment>)
    ensures bodyText == FirstPlain(ps, dec)
    ensures htmlText == HtmlChoice(ps, dec)
    ensures attachments == Captures(ps)
  {
    bodyText, htmlText, attachments := "", None, [];
    for i := 0 to |ps|
      invariant Walk(Slots(bodyText, htmlText, attachments), ps[i..], dec) == Walk(Empty, ps, dec)
    {
      var part := ps[i];
      assert ps[i..][1..] == ps[i + 1..];
      if IsAttachmentPart(part) {
        var filename := part.filename;
        if filename.Some? && filename.value != "" {
          var payload := part.payload;
          if payload.Some? && payload.value != [] {
            attachments := attachments + [(filename.value, payload.value, part.contentType)];
          }
        }
      } else if part.contentType == "text/plain" && bodyText == "" {
        var payload := part.payload;
        if payload.Some? && payload.value != [] {
          bodyText := Strip(dec(payload.value));
        }
      } else if part.contentType == "text/html" && (htmlText.None? || htmlText.value == "") {
        var payload := part.payload;
        if payload.Some? && payload.value != [] {
          htmlText := Some(dec(payload.value));
        }
      }
    }
    DecomposeWalk(ps, dec);
  }

  /**
   * A single-part message: a non-empty payload becomes the HTML text, unstripped, when the
   * content type is `text/html`, and the stripped body otherwise; the other slot keeps its default.
   */
  function SinglePartSlots(contentType: string, payload: Option<Bytes>, dec: Bytes -> string): (r: Slots)
    ensures r.attachments == []
    ensures contentType == "text/html" ==> r.body == "" && (r.html.Some? <==> payload.Some? && payload.value != [])
    ensures contentType != "text/html" ==> r.html == None && (r.body != "" ==> payload.Some? && payload.value != [])
    ensures r.html.Some? ==> r.html == Some(dec(payload.value))
    ensures r.body != "" ==> r.body == Strip(dec(payload.value))
    ensures contentType != "text/html" && payload.Some? && payload.value != [] ==> r.body == Strip(dec(payload.value))
  {
    if payload.Some? && payload.value != [] then
      var text := dec(payload.value);
      if contentType == "text/html" then Slots("", Some(text), []) else Slots(Strip(text), None, [])
    else Empty
  }

  /** Each piece stripped. */
  function StripAll(pieces: seq<string>): (ts: seq<string>)
    ensures |ts| == |pieces|
  {
    seq(|pieces|, k requires 0 <= k < |pieces| => Strip(pieces[k]))
  }

  /** A stripped piece has no surrounding whitespace and no character its piece lacked. */
  lemma StrippedPiece(pieces: seq<string>, c: char, x: string)
    requires forall k :: 0 <= k < |pieces| ==> c !in pieces[k]
    requires x in StripAll(pieces)
    ensures Strip(x) == x && c !in x
  {
    var ts := StripAll(pieces);
    var j :| 0 <= j < |ts| && ts[j] == x;
    assert x == Strip(pieces[j]) && c !in pieces[j];
    StripIdempotent(pieces[j]);
    StripKeepsCharacters(pieces[j]);
  }

  /**
   * `to_addrs`: the `To` header split on ",", each piece stripped, empty ones dropped. Every
   * recipient is non-empty, has no surrounding whitespace and contains no comma, and every
   * piece that is not blank is among them.
   */
  function Recipients(to: string): (r: seq<string>)
    ensures forall x :: x in r ==> x != "" && Strip(x) == x && ',' !in x
    ensures forall k :: 0 <= k < |Split(to, ',')| && Strip(Split(to, ',')[k]) != "" ==> Strip(Split(to, ',')[k]) in r
  {
    StrippedPieces(Split(to, ','), ',');
    NonEmptyParts(StripAll(Split(to, ',')))
  }

  /** The stripped, non-blank pieces of a split at `c`: each is kept, stripped and free of `c`. */
  lemma StrippedPieces(pieces: seq<string>, c: char)
    requires forall k :: 0 <= k < |pieces| ==> c !in pieces[k]
    ensures forall x :: x in NonEmptyParts(StripAll(pieces)) ==> x != "" && Strip(x) == x && c !in x
    ensures forall k :: 0 <= k < |pieces| && Strip(pieces[k]) != "" ==> Strip(pieces[k]) in NonEmptyParts(StripAll(pieces))
  {
    var ts := StripAll(pieces);
    forall x | x in NonEmptyParts(ts) ensures x != "" && Strip(x) == x && c !in x {
      StrippedPiece(pieces, c, x);
    }
    NonEmptyPartsComplete(ts);
    assert forall k :: 0 <= k < |pieces| ==> ts[k] == Strip(pieces[k]);
  }

  /** Stripping the pieces of a concatenation strips each part's pieces. */
  lemma StripAllAppend(xs: seq<string>, ys: seq<string>)
    ensures StripAll(xs + ys) == StripAll(xs) + StripAll(ys)
  {
  }

  /**
   * The recipients of two comma-joined lists are those of each, in order and with repeats;
   * with `RecipientsPiece` this fixes the result on every header.
   */
  lemma RecipientsAppend(a: string, b: string)
    ensures Recipients(a + "," + b) == Recipients(a) + Recipients(b)
  {
    SplitAppend(a, ',', b);
    var pa, pb := Split(a, ','), Split(b, ',');
    StripAllAppend(pa, pb);
    NonEmptyPartsAppend(StripAll(pa), StripAll(pb));
  }

  /** A piece without a comma gives its stripped self, or nothing when it is blank. */
  lemma RecipientsPiece(x: string)
    requires ',' !in x
    ensures Recipients(x) == if Strip(x) == "" then [] else [Strip(x)]
  {
    assert Split(x, ',') == [x];
    assert StripAll([x]) == [Strip(x)];
    NonEmptyPartsSnoc([], Strip(x));
    assert [] + [Strip(x)] == [Strip(x)];
  }

  /** The slots of a message, by its shape. */
  function BodySlots(body: MessageBody, dec: Bytes -> string): Slots {
    match body
    case Multipart(ps) => Slots(FirstPlain(ps, dec), HtmlChoice(ps, dec), Captures(ps))
    case SinglePart(ct, payload) => SinglePartSlots(ct, payload, dec)
  }

  /** The decomposition of one fetched message, or None when the `email` package raised on it. */
  function DecomposeSpec(account: string, uid: int, raw: Bytes, lib: MimeLibrary, now: DateTime): (r: Option<FetchedEmail>)
    ensures r.Some? ==> r.value.account == account && r.value.uid == uid && r.value.rawMessage == raw
    ensures r.Some? ==> lib.parse(raw).Some?
    ensures r.Some? && lib.parse(raw).value.date.GetOr("") != "" && lib.parseDate(lib.parse(raw).value.date.value).Some? ==>
      r.value.date == lib.parseDate(lib.parse(raw).value.date.value).value
    ensures r.Some? && lib.parseDate(lib.parse(raw).value.date.GetOr("")).None? ==> r.value.date == now
    ensures r.Some? <==> lib.parse(raw).Some?
    ensures r.Some? ==>
      var m := lib.parse(raw).value;
      var sl := BodySlots(m.body, lib.decodeUtf8);
      r.value.subject == m.subject.GetOr("") && r.value.fromAddr == m.from.GetOr("") &&
      r.value.toAddrs == Recipients(m.to.GetOr("")) &&
      r.value.bodyText == sl.body && r.value.htmlText == sl.html && r.value.attachments == sl.attachments
  {
    match lib.parse(raw)
    case None => None
    case Some(m) =>
      var slots := BodySlots(m.body, lib.decodeUtf8);
      Some(FetchedEmail(
        account, uid,
        m.subject.GetOr(""),
        m.from.GetOr(""),
        Recipients(m.to.GetOr("")),
        lib.parseDate(m.date.GetOr("")).GetOr(now),
        slots.body, slots.html, slots.attachments,
        raw))
  }

  /** The body of the per-message `try` block. */
  method Decompose(account: string, uid: int, raw: Bytes, lib: MimeLibrary, now: DateTime) returns (r: Option<FetchedEmail>)
    ensures r == DecomposeSpec(account, uid, raw, lib, now)
  {
    var parsed := lib.parse(raw);
    if parsed.None? {
      return None;
    }
    var msg := parsed.value;
    var subject := msg.subject.GetOr("");
    var fromAddr := msg.from.GetOr("");
    var toAddrs := Recipients(msg.to.GetOr(""));
    var date := lib.parseDate(msg.date.GetOr("")).GetOr(now);
    var slots := DecomposeBody(msg.body, lib.decodeUtf8);
    r := Some(FetchedEmail(account, uid, subject, fromAddr, toAddrs, date, slots.body, slots.html, slots.attachments, raw));
  }

  /** The `is_multipart()` branch: the walk loop for a multipart message, the single payload otherwise. */
  method DecomposeBody(body: MessageBody, dec: Bytes -> string) returns (slots: Slots)
    ensures slots == BodySlots(body, dec)
  {
    match body
    case Multipart(ps) =>
      var bodyText, htmlText, attachments := DecomposeParts(ps, dec);
      slots := Slots(bodyText, htmlText, attachments);
    case SinglePart(ct, payload) =>
      slots := SinglePartSlots(ct, payload, dec);
  }

  // ---------------------------------------------------------------------------
  // The mailbox: folders, search, bulk fetch
  // ---------------------------------------------------------------------------

  /** The search criteria: `SINCE <day>` or `ALL`. */
  datatype Criteria = Since(day: string) | All

  /** One entry of the bulk-fetch response: the UID and its `RFC822` data (None when missing). */
  datatype FetchItem = FetchItem(uid: int, rfc822: Option<Bytes>)

  /**
   * The IMAP server as the client sees it after connecting:
   * - loginOk: whether connecting and logging in succeed
   * - selectOk: whether `select_folder(name, readonly=True)` succeeds
   * - search: the UIDs `search(criteria)` returns in the folder; None when it raises
   * - fetch: the response of `fetch(uids, [ENVELOPE, RFC822, BODYSTRUCTURE])` in order, sent while
   *   the given mailbox is selected (None: no mailbox is selected); None when it raises. A UID names
   *   a message of one mailbox, so the answer depends on the mailbox selected.
   */
  datatype Server = Server(
    loginOk: bool,
    selectOk: string -> bool,
    search: (string, Criteria) -> Option<seq<int>>,
    fetch: (Option<string>, seq<int>) -> Option<seq<FetchItem>>)

  /** The IMAP commands the fetcher issues, in order; a fetch names the mailbox selected when it is sent. */
  datatype Command =
    | SelectFolder(folder: string)
    | SearchFolder(folder: string, criteria: Criteria)
    | FetchMessages(mailbox: Option<string>, uids: seq<int>)

  /** Why a fetch fails as a whole: the connection or login raised, or the bulk fetch raised. */
  datatype FetchError = LoginFailed | BulkFetchFailed

  /** The folders searched: INBOX, then the spam and junk folders when they are included. */
  function Mailboxes(includeSpam: bool): (r: seq<string>)
    ensures |r| >= 1 && r[0] == "INBOX"
    ensures |r| > 1 <==> includeSpam
    ensures includeSpam ==> r[1..] == ["[Gmail]/Spam", "Junk", "Spam"]
  {
    ["INBOX"] + (if includeSpam then ["[Gmail]/Spam", "Junk", "Spam"] else [])
  }

  /**
   * The lower bound of the search: one day before now when the 24-hour window is requested,
   * whatever the checkpoint; otherwise the checkpoint in UTC; otherwise none.
   */
  function SinceBound(lastRun: Option<DateTime>, window24h: bool, now: DateTime): (r: Option<DateTime>)
    ensures window24h ==> r == Some(MinusOneDay(now))
    ensures !window24h ==> (r.Some? <==> lastRun.Some?)
    ensures !window24h && lastRun.Some? ==> r.value.epochMicros == lastRun.value.epochMicros && r.value.utcOffsetSeconds == 0
  {
    if window24h then Some(MinusOneDay(now))
    else match lastRun
      case Some(dt) => Some(AsUtc(dt))
      case None => None
  }

  /** `SINCE` with the bound's day when there is a bound, `ALL` otherwise. */
  function CriteriaFor(since: Option<DateTime>, fmt: TimeFormats): (c: Criteria)
    ensures c.All? <==> since.None?
    ensures since.Some? ==> c == Since(fmt.imapDate(since.value))
  {
    match since
    case Some(dt) => Since(fmt.imapDate(dt))
    case None => All
  }

  /** The UIDs one folder contributes: none when selecting it or searching it raises. */
  function FolderHits(server: Server, folder: string, criteria: Criteria): seq<int> {
    if !server.selectOk(folder) then []
    else server.search(folder, criteria).GetOr([])
  }

  /** The commands one folder costs: the select, and the search when the select succeeded. */
  function FolderCommands(server: Server, folder: string, criteria: Criteria): seq<Command> {
    [SelectFolder(folder)] + (if server.selectOk(folder) then [SearchFolder(folder, criteria)] else [])
  }

  /**
   * The mailbox selected once `folders` have been selected in turn: none before the first select,
   * and after each select that folder when it succeeded and none when it failed, since SELECT
   * first deselects the current mailbox (section 6.3.1 of RFC 3501).
   */
  function Selected(server: Server, folders: seq<string>): Option<string> {
    if folders == [] then None
    else if server.selectOk(folders[|folders| - 1]) then Some(folders[|folders| - 1])
    else None
  }

  /**
   * Where the bulk fetch runs: in INBOX only when the spam folders are not searched; with them,
   * in "Spam" when that folder exists and in no mailbox at all otherwise, never in INBOX.
   */
  lemma BulkFetchMailbox(server: Server, includeSpam: bool)
    ensures !includeSpam ==> Selected(server, Mailboxes(includeSpam)) == if server.selectOk("INBOX") then Some("INBOX") else None
    ensures includeSpam ==> Selected(server, Mailboxes(includeSpam)) == if server.selectOk("Spam") then Some("Spam") else None
    ensures includeSpam ==> Selected(server, Mailboxes(includeSpam)) != Some("INBOX")
  {
  }

  /** The `uids` list after the loop over folders: each folder's hits appended in folder order. */
  function Found(server: Server, folders: seq<string>, criteria: Criteria): seq<int> {
    if folders == [] then []
    else Found(server, folders[..|folders| - 1], criteria) + FolderHits(server, folders[|folders| - 1], criteria)
  }

  function SearchCommands(server: Server, folders: seq<string>, criteria: Criteria): seq<Command> {
    if folders == [] then []
    else SearchCommands(server, folders[..|folders| - 1], criteria) + FolderCommands(server, folders[|folders| - 1], criteria)
  }

  /** Whether `uid` is among what the search of `folder` returned, the folder having been selected. */
  predicate FolderReturned(server: Server, folder: string, criteria: Criteria, uid: int) {
    server.selectOk(folder) && server.search(folder, criteria).Some? && uid in server.search(folder, criteria).value
  }

  /** A UID was found exactly when some selectable folder's successful search returned it. */
  lemma {:induction false} FoundMembers(server: Server, folders: seq<string>, criteria: Criteria, uid: int)
    ensures uid in Found(server, folders, criteria) <==>
      exists k :: 0 <= k < |folders| && FolderReturned(server, folders[k], criteria, uid)
  {
    if folders != [] {
      var init := folders[..|folders| - 1];
      FoundMembers(server, init, criteria, uid);
      assert forall k :: 0 <= k < |init| ==> init[k] == folders[k];
    }
  }

  predicate StrictlyIncreasing(s: seq<int>) {
    forall i, j :: 0 <= i < j < |s| ==> s[i] < s[j]
  }

  /** Insertion into a strictly increasing list, ignoring a value already present. */
  function Insert(s: seq<int>, x: int): (r: seq<int>)
    requires StrictlyIncreasing(s)
    ensures StrictlyIncreasing(r)
    ensures forall y :: y in r <==> y in s || y == x
  {
    if s == [] then [x]
    else if x < s[0] then [x] + s
    else if x == s[0] then s
    else
      var t := Insert(s[1..], x);
      assert forall y :: y in s <==> y == s[0] || y in s[1..];
      assert forall y :: y in t ==> s[0] < y by {
        forall y | y in t ensures s[0] < y {
          if y in s[1..] {
            var j :| 0 <= j < |s[1..]| && s[1..][j] == y;
            assert s[j + 1] == y;
          }
        }
      }
      var r := [s[0]] + t;
      assert forall i, j :: 0 <= i < j < |r| ==> r[i] < r[j] by {
        forall i, j | 0 <= i < j < |r| ensures r[i] < r[j] {
          assert r[j] == t[j - 1];
          if i > 0 {
            assert r[i] == t[i - 1];
          } else {
            assert t[j - 1] in t;
          }
        }
      }
      r
  }

  /** `sorted(list(set(uids)))`: the distinct values, in increasing order. */
  function SortedDistinct(xs: seq<int>): (r: seq<int>)
    ensures StrictlyIncreasing(r)
    ensures forall y :: y in r <==> y in xs
  {
    if xs == [] then []
    else
      var init := xs[..|xs| - 1];
      assert forall y :: y in xs <==> y in init || y == xs[|xs| - 1] by {
        assert xs == init + [xs[|xs| - 1]];
      }
      Insert(SortedDistinct(init), xs[|xs| - 1])
  }

  /** A strictly increasing list is determined by its elements, so the UID list is unique for its set. */
  lemma {:induction false} IncreasingUnique(a: seq<int>, b: seq<int>)
    requires StrictlyIncreasing(a) && StrictlyIncreasing(b)
    requires forall y :: y in a <==> y in b
    ensures a == b
  {
    assert a != [] ==> a[0] in a && a[0] in b;
    assert b != [] ==> b[0] in b && b[0] in a;
    if a != [] && b != [] {
      assert a[0] == b[0] by {
        assert b[0] in b && a[0] in a;
        var j :| 0 <= j < |a| && a[j] == b[0];
        assert a[0] <= a[j];
        var k :| 0 <= k < |b| && b[k] == a[0];
        assert b[0] <= b[k];
      }
      forall y ensures y in a[1..] <==> y in b[1..] {
        assert y in a[1..] <==> y in a && y != a[0];
        assert y in b[1..] <==> y in b && y != b[0];
      }
      IncreasingUnique(a[1..], b[1..]);
      assert a == [a[0]] + a[1..] && b == [b[0]] + b[1..];
    }
  }

  /** `sorted(list(set(xs)))` is the only strictly increasing list with the elements of `xs`. */
  lemma SortedDistinctUnique(xs: seq<int>, ys: seq<int>)
    requires StrictlyIncreasing(ys)
    requires forall y :: y in ys <==> y in xs
    ensures ys == SortedDistinct(xs)
  {
    IncreasingUnique(ys, SortedDistinct(xs));
  }

  /**
   * The UID list handed to the bulk fetch: strictly increasing, and a UID is in it exactly when
   * some searched folder returned it, so a UID found in two folders is fetched once.
   */
  lemma SearchedUids(server: Server, includeSpam: bool, criteria: Criteria, uid: int)
    ensures StrictlyIncreasing(SortedDistinct(Found(server, Mailboxes(includeSpam), criteria)))
    ensures uid in SortedDistinct(Found(server, Mailboxes(includeSpam), criteria)) <==>
      exists k :: 0 <= k < |Mailboxes(includeSpam)| && FolderReturned(server, Mailboxes(includeSpam)[k], criteria, uid)
  {
    FoundMembers(server, Mailboxes(includeSpam), criteria, uid);
  }

  /** The fetch item carries `RFC822` data, and that message decomposes into `e`. */
  predicate DecomposesTo(account: string, item: FetchItem, lib: MimeLibrary, now: DateTime, e: FetchedEmail) {
    item.rfc822.Some? && DecomposeSpec(account, item.uid, item.rfc822.value, lib, now) == Some(e)
  }

  /** What one fetch item contributes: its email when it carries a message that decomposes, else nothing. */
  function ItemEmails(account: string, item: FetchItem, lib: MimeLibrary, now: DateTime): (r: seq<FetchedEmail>)
    ensures |r| <= 1
    ensures forall k :: 0 <= k < |r| ==> DecomposesTo(account, item, lib, now, r[k])
    ensures item.rfc822.Some? && DecomposeSpec(account, item.uid, item.rfc822.value, lib, now).Some? ==> |r| == 1
  {
    if item.rfc822.None? then []
    else match DecomposeSpec(account, item.uid, item.rfc822.value, lib, now)
      case None => []
      case Some(e) => [e]
  }

  /** The messages that decompose, in response order; items without `RFC822` data or that raise are skipped. */
  function DecomposeAllSpec(account: string, items: seq<FetchItem>, lib: MimeLibrary, now: DateTime): (r: seq<FetchedEmail>)
    ensures |r| <= |items|
    ensures forall k :: 0 <= k < |r| ==> r[k].account == account
    ensures forall k :: 0 <= k < |r| ==> exists i :: 0 <= i < |items| && DecomposesTo(account, items[i], lib, now, r[k])
  {
    if items == [] then []
    else
      var init := items[..|items| - 1];
      var rest := DecomposeAllSpec(account, init, lib, now);
      var last := ItemEmails(account, items[|items| - 1], lib, now);
      assert forall i :: 0 <= i < |init| ==> init[i] == items[i];
      assert forall k :: |rest| <= k < |rest + last| ==> (rest + last)[k] == last[k - |rest|];
      rest + last
  }

  /** Decomposing a response in two parts gives the two results one after the other. */
  lemma {:induction false} DecomposeAllAppend(account: string, a: seq<FetchItem>, b: seq<FetchItem>, lib: MimeLibrary, now: DateTime)
    ensures DecomposeAllSpec(account, a + b, lib, now) == DecomposeAllSpec(account, a, lib, now) + DecomposeAllSpec(account, b, lib, now)
    decreases |b|
  {
    if b == [] {
      assert a + b == a;
    } else {
      var init, last := b[..|b| - 1], ItemEmails(account, b[|b| - 1], lib, now);
      assert (a + b)[..|a + b| - 1] == a + init;
      assert (a + b)[|a + b| - 1] == b[|b| - 1];
      assert DecomposeAllSpec(account, a + b, lib, now) == DecomposeAllSpec(account, a + init, lib, now) + last;
      assert DecomposeAllSpec(account, b, lib, now) == DecomposeAllSpec(account, init, lib, now) + last;
      DecomposeAllAppend(account, a, init, lib, now);
      ConcatAssoc(DecomposeAllSpec(account, a, lib, now), DecomposeAllSpec(account, init, lib, now), last);
    }
  }

  /** One fetch item gives its email when its message decomposes, and nothing otherwise. */
  lemma DecomposeAllSingleton(account: string, item: FetchItem, lib: MimeLibrary, now: DateTime)
    ensures item.rfc822.Some? && DecomposeSpec(account, item.uid, item.rfc822.value, lib, now).Some? ==>
      DecomposeAllSpec(account, [item], lib, now) == [DecomposeSpec(account, item.uid, item.rfc822.value, lib, now).value]
    ensures item.rfc822.None? || DecomposeSpec(account, item.uid, item.rfc822.value, lib, now).None? ==>
      DecomposeAllSpec(account, [item], lib, now) == []
  {
    assert [item][..0] == [];
  }

  /** One more fetch item of the response adds what that item contributes. */
  lemma DecomposeAllPrefix(account: string, items: seq<FetchItem>, lib: MimeLibrary, now: DateTime, i: int)
    requires 0 <= i < |items|
    ensures DecomposeAllSpec(account, items[..i + 1], lib, now) ==
      DecomposeAllSpec(account, items[..i], lib, now) + ItemEmails(account, items[i], lib, now)
  {
    assert items[..i + 1][..i] == items[..i];
  }

  /** The result around one fetch item: what precedes it, what it gives, what follows it. */
  lemma DecomposeAllAround(account: string, items: seq<FetchItem>, lib: MimeLibrary, now: DateTime, i: int)
    requires 0 <= i < |items|
    ensures DecomposeAllSpec(account, items, lib, now) ==
      DecomposeAllSpec(account, items[..i], lib, now) + DecomposeAllSpec(account, [items[i]], lib, now)
      + DecomposeAllSpec(account, items[i + 1..], lib, now)
  {
    var pre, post := items[..i], items[i + 1..];
    assert items[..i + 1] == pre + [items[i]];
    assert items == items[..i + 1] + post;
    DecomposeAllAppend(account, pre + [items[i]], post, lib, now);
    DecomposeAllAppend(account, pre, [items[i]], lib, now);
  }

  /** No message is lost: every fetch item that decomposes contributes its email to the result. */
  lemma DecomposeAllComplete(account: string, items: seq<FetchItem>, lib: MimeLibrary, now: DateTime, i: int, e: FetchedEmail)
    requires 0 <= i < |items| && DecomposesTo(account, items[i], lib, now, e)
    ensures e in DecomposeAllSpec(account, items, lib, now)
  {
    DecomposeAllAround(account, items, lib, now, i);
    DecomposeAllSingleton(account, items[i], lib, now);
    var left := DecomposeAllSpec(account, items[..i], lib, now);
    var right := DecomposeAllSpec(account, items[i + 1..], lib, now);
    assert DecomposeAllSpec(account, items, lib, now) == left + [e] + right;
    assert (left + [e] + right)[|left|] == e;
  }

  /**
   * What `fetch` returns: a failure when the login raises or the bulk fetch raises; no email,
   * without a bulk fetch, when the search finds no UID; otherwise every message of the bulk
   * fetch that decomposes, tagged with the account key. The bulk fetch is sent in whatever
   * mailbox the search loop left selected.
   */
  function FetchOutcome(accountKey: string, server: Server, lastRun: Option<DateTime>, window24h: bool,
                        includeSpam: bool, lib: MimeLibrary, fmt: TimeFormats, now: DateTime)
    : (r: Result<seq<FetchedEmail>, FetchError>)
    ensures !server.loginOk ==> r == Failure(LoginFailed)
    ensures server.loginOk && Found(server, Mailboxes(includeSpam), CriteriaFor(SinceBound(lastRun, window24h, now), fmt)) == []
      ==> r == Success([])
    ensures r.Success? ==> forall k :: 0 <= k < |r.value| ==> r.value[k].account == accountKey
    ensures server.loginOk ==>
      var uids := SortedDistinct(Found(server, Mailboxes(includeSpam), CriteriaFor(SinceBound(lastRun, window24h, now), fmt)));
      var response := server.fetch(Selected(server, Mailboxes(includeSpam)), uids);
      uids != [] ==>
        (response.None? ==> r == Failure(BulkFetchFailed)) &&
        (response.Some? ==> r == Success(DecomposeAllSpec(accountKey, response.value, lib, now)))
  {
    if !server.loginOk then Failure(LoginFailed)
    else
      var uids := SortedDistinct(Found(server, Mailboxes(includeSpam), CriteriaFor(SinceBound(lastRun, window24h, now), fmt)));
      if uids == [] then Success([])
      else match server.fetch(Selected(server, Mailboxes(includeSpam)), uids)
        case None => Failure(BulkFetchFailed)
        case Some(items) => Success(DecomposeAllSpec(accountKey, items, lib, now))
  }

  /** The fetcher for one account; its settings never change after construction. */
  class ImapEmailFetcher {
    const host: string
    const username: string
    const password: string
    const useSsl: bool
    const accountKey: string

    /** The account key defaults to the user name when it is empty. */
    constructor (host: string, username: string, password: string, useSsl: bool, accountKey: string)
      ensures this.host == host && this.username == username && this.password == password && this.useSsl == useSsl
      ensures this.accountKey == if accountKey != "" then accountKey else username
    {
      this.host := host;
      this.username := username;
      this.password := password;
      this.useSsl := useSsl;
      this.accountKey := if accountKey != "" then accountKey else username;
    }

    /**
     * `_search_since`: selects and searches each folder in turn, skipping a folder whose select
     * raises and counting a search that raises as no hits, then de-duplicates and sorts.
     */
    method SearchSince(server: Server, since: Option<DateTime>, includeSpam: bool, fmt: TimeFormats)
      returns (uids: seq<int>, selected: Option<string>, ghost commands: seq<Command>)
      ensures uids == SortedDistinct(Found(server, Mailboxes(includeSpam), CriteriaFor(since, fmt)))
      ensures selected == Selected(server, Mailboxes(includeSpam))
      ensures commands == SearchCommands(server, Mailboxes(includeSpam), CriteriaFor(since, fmt))
    {
      var found: seq<int> := [];
      selected := None;
      commands := [];
      var mailboxes := ["INBOX"];
      if includeSpam {
        mailboxes := mailboxes + ["[Gmail]/Spam", "Junk", "Spam"];
      }
      var criteria := CriteriaFor(since, fmt);
      for i := 0 to |mailboxes|
        invariant found == Found(server, mailboxes[..i], criteria)
        invariant selected == Selected(server, mailboxes[..i])
        invariant commands == SearchCommands(server, mailboxes[..i], criteria)
      {
        assert mailboxes[..i + 1][..i] == mailboxes[..i];
        var hits;
        ghost var folderCommands;
        hits, selected, folderCommands := SearchOneFolder(server, mailboxes[i], criteria);
        found := found + hits;
        commands := commands + folderCommands;
      }
      assert mailboxes[..|mailboxes|] == mailboxes;
      uids := SortedDistinct(found);
    }

    /**
     * One folder of that loop: select it (skipping it, with no mailbox left selected, when that
     * raises), then search it (no hits when that raises).
     */
    method SearchOneFolder(server: Server, mbox: string, criteria: Criteria)
      returns (hits: seq<int>, selected: Option<string>, ghost commands: seq<Command>)
      ensures hits == FolderHits(server, mbox, criteria)
      ensures selected == Selected(server, [mbox])
      ensures commands == FolderCommands(server, mbox, criteria)
    {
      hits := [];
      selected := None;
      commands := [SelectFolder(mbox)];
      if !server.selectOk(mbox) {
        return;
      }
      selected := Some(mbox);
      commands := commands + [SearchFolder(mbox, criteria)];
      var found := server.search(mbox, criteria);
      if found.Some? && found.value != [] {
        hits := found.value;
      }
    }

    /** The loop over the bulk-fetch response, decomposing each message and skipping the ones that fail. */
    method DecomposeAll(items: seq<FetchItem>, lib: MimeLibrary, now: DateTime) returns (emails: seq<FetchedEmail>)
      ensures emails == DecomposeAllSpec(accountKey, items, lib, now)
    {
      emails := [];
      for i := 0 to |items|
        invariant emails == DecomposeAllSpec(accountKey, items[..i], lib, now)
      {
        DecomposeAllPrefix(accountKey, items, lib, now, i);
        var item := items[i];
        if item.rfc822.Some? {
          var email := Decompose(accountKey, item.uid, item.rfc822.value, lib, now);
          if email.Some? {
            emails := emails + [email.value];
          }
        }
      }
      assert items[..|items|] == items;
    }

    /**
     * `fetch`: resolves the lower bound, connects, searches, and returns no messages without
     * a bulk fetch when no UID was found; otherwise fetches all UIDs at once and decomposes them.
     */
    method Fetch(server: Server, lastRun: Option<DateTime>, window24h: bool, includeSpam: bool,
                 lib: MimeLibrary, fmt: TimeFormats, now: DateTime)
      returns (r: Result<seq<FetchedEmail>, FetchError>, ghost commands: seq<Command>)
      ensures r == FetchOutcome(accountKey, server, lastRun, window24h, includeSpam, lib, fmt, now)
      ensures !server.loginOk ==> commands == []
      ensures server.loginOk ==>
        var criteria := CriteriaFor(SinceBound(lastRun, window24h, now), fmt);
        var uids := SortedDistinct(Found(server, Mailboxes(includeSpam), criteria));
        commands == SearchCommands(server, Mailboxes(includeSpam), criteria) +
          (if uids == [] then [] else [FetchMessages(Selected(server, Mailboxes(includeSpam)), uids)])
    {
      var since := SinceBound(lastRun, window24h, now);
      if !server.loginOk {
        return Failure(LoginFailed), [];
      }
      var uidList, selected;
      uidList, selected, commands := SearchSince(server, since, includeSpam, fmt);
      if uidList == [] {
        return Success([]), commands;
      }
      commands := commands + [FetchMessages(selected, uidList)];
      var messages := server.fetch(selected, uidList);
      if messages.None? {
        return Failure(BulkFetchFailed), commands;
      }
      var emails := DecomposeAll(messages.value, lib, now);
      r := Success(emails);
    }
  }

  /** A bulk fetch is issued exactly when the search found some UID. */
  lemma BulkFetchIssuedIffFound(server: Server, folders: seq<string>, criteria: Criteria)
    ensures SortedDistinct(Found(server, folders, criteria)) == [] <==> Found(server, folders, criteria) == []
  {
    var found := Found(server, folders, criteria);
    if found != [] {
      assert found[0] in SortedDistinct(found);
    }
  }
}

=== FILE: state.dfy ===
/**
 * The checkpoint store: a JSON document `{"accounts": {<key>: {"last_run_iso": <iso>}}}` held in
 * memory, loaded from `state.json` (or reset when missing or unreadable) and written through on
 * every update. The JSON codec and the ISO formatter are supplied as functions.
 */
module State {
  import opened Wrappers
  import opened Time

  /** A JSON value as `json.load` returns it. */
  datatype Json =
    | JNull
    | JBool(b: bool)
    | JNumber(n: real)
    | JString(s: string)
    | JArray(items: seq<Json>)
    | JObject(fields: map<string, Json>)

  /** Python truthiness of a loaded JSON value. */
  predicate Truthy(j: Json) {
    match j
    case JNull => false
    case JBool(b) => b
    case JNumber(n) => n != 0.0
    case JString(s) => s != ""
    case JArray(items) => items != []
    case JObject(fields) => fields != map[]
  }

  /** `json.load` of a file's text (None when reading or parsing raises) and `json.dump`. */
  datatype JsonCodec = JsonCodec(load: string -> Option<Json>, dump: Json -> string)

  /** What the `json` module guarantees: a dumped value loads back as itself. */
  ghost predicate DumpLoads(c: JsonCodec) {
    forall j :: c.load(c.dump(j)) == Some(j)
  }

  /** The exceptions the store lets escape when the document has the wrong shape. */
  datatype StateError = AttributeError | TypeError

  /** `{"accounts": {}}` */
  const EmptyState: Json := JObject(map["accounts" := JObject(map[])])

  /** `d.get(k, {})` / `d.setdefault(k, {})` on an object: the member, or an empty object. */
  function Member(j: Json, k: string): Json
    requires j.JObject?
  {
    if k in j.fields then j.fields[k] else JObject(map[])
  }

  /** `state["accounts"][key]["last_run_iso"]` is the string `iso`. */
  predicate IsoAt(state: Json, key: string, iso: string) {
    && state.JObject?
    && "accounts" in state.fields
    && state.fields["accounts"].JObject?
    && key in state.fields["accounts"].fields
    && state.fields["accounts"].fields[key].JObject?
    && "last_run_iso" in state.fields["accounts"].fields[key].fields
    && state.fields["accounts"].fields[key].fields["last_run_iso"] == JString(iso)
  }

  /** The state after construction: the file's document, or `{"accounts": {}}` when it is missing or unreadable. */
  function Loaded(file: Option<string>, codec: JsonCodec): (r: Json)
    ensures file.None? ==> r == EmptyState
    ensures file.Some? ==> (r == EmptyState || codec.load(file.value) == Some(r))
    ensures file.Some? && codec.load(file.value).Some? ==> r == codec.load(file.value).value
    ensures file.Some? && codec.load(file.value).None? ==> r == EmptyState
  {
    match file
    case None => EmptyState
    case Some(text) => codec.load(text).GetOr(EmptyState)
  }

  /**
   * `get_last_run`: the parsed checkpoint, None when the path is missing or falsy or the value
   * does not parse, and the exception Python raises when `state` or `accounts` is not an object
   * or the account node is a truthy non-object.
   */
  function LastRunOf(state: Json, key: string, fmt: TimeFormats): (r: Result<Option<DateTime>, StateError>)
    ensures !state.JObject? ==> r == Failure(AttributeError)
    ensures state.JObject? && "accounts" !in state.fields ==> r == Success(None)
    ensures (state.JObject? && "accounts" in state.fields && state.fields["accounts"].JObject? &&
             key !in state.fields["accounts"].fields) ==> r == Success(None)
    ensures state.JObject? && !Member(state, "accounts").JObject? ==> r == Failure(AttributeError)
    ensures state.JObject? && Member(state, "accounts").JObject? ==>
      var node := Member(Member(state, "accounts"), key);
      && (!Truthy(node) ==> r == Success(None))
      && (Truthy(node) && !node.JObject? ==> r == Failure(AttributeError))
      && (node.JObject? && !Truthy(Member(node, "last_run_iso")) ==> r == Success(None))
      && (node.JObject? && Truthy(Member(node, "last_run_iso")) && !Member(node, "last_run_iso").JString? ==>
            r == Success(None))
    ensures forall iso {:trigger IsoAt(state, key, iso)} :: IsoAt(state, key, iso) && iso != "" ==> r == Success(fmt.fromIsoformat(iso))
    ensures r.Success? && r.value.Some? ==> exists iso :: IsoAt(state, key, iso) && iso != "" && fmt.fromIsoformat(iso) == r.value
  {
    if !state.JObject? then Failure(AttributeError)
    else
      var accounts := Member(state, "accounts");
      if !accounts.JObject? then Failure(AttributeError)
      else if key !in accounts.fields || !Truthy(accounts.fields[key]) then Success(None)
      else
        var node := accounts.fields[key];
        if !node.JObject? then Failure(AttributeError)
        else if "last_run_iso" !in node.fields || !Truthy(node.fields["last_run_iso"]) then Success(None)
        else match node.fields["last_run_iso"]
          case JString(iso) => Success(fmt.fromIsoformat(iso))
          case _ => Success(None)
  }

  /**
   * The nested `setdefault` assignment of `set_last_run`: it fails, changing nothing, when
   * `state` or `accounts` is not an object (AttributeError) or the account node is not an
   * object (TypeError); otherwise it writes the one key and keeps everything else.
   */
  function WithLastRun(state: Json, key: string, iso: string): (r: Result<Json, StateError>)
    ensures r.Success? <==>
      state.JObject? && Member(state, "accounts").JObject? && Member(Member(state, "accounts"), key).JObject?
    ensures !state.JObject? || !Member(state, "accounts").JObject? ==> r == Failure(AttributeError)
    ensures r.Success? ==> IsoAt(r.value, key, iso)
    ensures r.Success? ==> r.value.JObject? && r.value.fields.Keys == state.fields.Keys + {"accounts"}
    ensures r.Success? ==> forall k :: k in state.fields && k != "accounts" ==> r.value.fields[k] == state.fields[k]
    ensures r.Success? ==>
      var before, after := Member(state, "accounts"), r.value.fields["accounts"];
      after.JObject? && after.fields.Keys == before.fields.Keys + {key} &&
      forall k :: k in before.fields && k != key ==> after.fields[k] == before.fields[k]
    ensures r.Success? ==>
      var before, after := Member(Member(state, "accounts"), key), r.value.fields["accounts"].fields[key];
      after.JObject? && after.fields.Keys == before.fields.Keys + {"last_run_iso"} &&
      forall k :: k in before.fields && k != "last_run_iso" ==> after.fields[k] == before.fields[k]
  {
    if !state.JObject? then Failure(AttributeError)
    else
      var accounts := Member(state, "accounts");
      if !accounts.JObject? then Failure(AttributeError)
      else
        var node := Member(accounts, key);
        if !node.JObject? then Failure(TypeError)
        else
          var node' := JObject(node.fields["last_run_iso" := JString(iso)]);
          Success(JObject(state.fields["accounts" := JObject(accounts.fields[key := node'])]))
  }

  /** Setting a checkpoint and reading it back gives the same instant, expressed in UTC. */
  lemma SetThenGet(state: Json, key: string, dt: DateTime, fmt: TimeFormats)
    requires IsoRoundTrip(fmt)
    requires WithLastRun(state, key, fmt.isoformat(AsUtc(dt))).Success?
    ensures LastRunOf(WithLastRun(state, key, fmt.isoformat(AsUtc(dt))).value, key, fmt) == Success(Some(AsUtc(dt)))
  {
    var iso := fmt.isoformat(AsUtc(dt));
    assert IsoAt(WithLastRun(state, key, iso).value, key, iso);
  }

  /** Setting one account's checkpoint leaves what every other account reads unchanged. */
  lemma SetLeavesOthers(state: Json, key: string, other: string, iso: string, fmt: TimeFormats)
    requires other != key
    requires WithLastRun(state, key, iso).Success?
    ensures LastRunOf(WithLastRun(state, key, iso).value, other, fmt) == LastRunOf(state, other, fmt)
  {
    var s' := WithLastRun(state, key, iso).value;
    if "accounts" in state.fields {
      assert s'.fields["accounts"].fields.Keys == state.fields["accounts"].fields.Keys + {key};
      if other in state.fields["accounts"].fields {
        assert s'.fields["accounts"].fields[other] == state.fields["accounts"].fields[other];
      }
    }
  }

  /** A store built from a missing or unreadable file has no checkpoint for any account. */
  lemma FreshStoreHasNoCheckpoint(file: Option<string>, codec: JsonCodec, key: string, fmt: TimeFormats)
    requires file.None? || codec.load(file.value).None?
    ensures LastRunOf(Loaded(file, codec), key, fmt) == Success(None)
  {
    assert Loaded(file, codec) == EmptyState;
    assert Member(EmptyState, "accounts") == JObject(map[]);
  }

  /** Reopening the store on the file a save wrote gives back the saved state. */
  lemma ReloadAfterSave(state: Json, codec: JsonCodec)
    requires DumpLoads(codec)
    ensures Loaded(Some(codec.dump(state)), codec) == state
  {
    assert codec.load(codec.dump(state)) == Some(state);
  }

  /** The store: the in-memory document and the contents of `state.json` and `state.json.tmp` (None when absent). */
  class StateStore {
    var state: Json
    var file: Option<string>
    ghost var tmpFile: Option<string>
    const codec: JsonCodec
    const fmt: TimeFormats

    /** Construction creates the state directory and loads the file, resetting a missing or unreadable one. */
    constructor (file: Option<string>, ghost tmpFile: Option<string>, codec: JsonCodec, fmt: TimeFormats)
      ensures this.file == file && this.tmpFile == tmpFile && this.codec == codec && this.fmt == fmt
      ensures state == Loaded(file, codec)
    {
      this.file := file;
      this.tmpFile := tmpFile;
      this.codec := codec;
      this.fmt := fmt;
      var loaded := EmptyState;
      if file.Some? {
        var parsed := codec.load(file.value);
        if parsed.Some? {
          loaded := parsed.value;
        }
      }
      state := loaded;
    }

    /** `save`: the whole document goes to the temporary file, which then replaces `state.json`. */
    method Save()
      modifies this
      ensures state == old(state)
      ensures file == Some(codec.dump(state)) && tmpFile == None
    {
      var text := codec.dump(state);
      tmpFile := Some(text);
      file := Some(text);
      tmpFile := None;
    }

    /**
     * `get_last_run` on the document in memory: the parsed checkpoint stored under the account,
     * None when there is none, the exception when the document has the wrong shape.
     */
    function GetLastRun(key: string): (r: Result<Option<DateTime>, StateError>)
      reads this
      ensures !state.JObject? ==> r == Failure(AttributeError)
      ensures state.JObject? && !Member(state, "accounts").JObject? ==> r == Failure(AttributeError)
      ensures state.JObject? && Member(state, "accounts").JObject? ==>
        var node := Member(Member(state, "accounts"), key);
        && (!Truthy(node) ==> r == Success(None))
        && (Truthy(node) && !node.JObject? ==> r == Failure(AttributeError))
        && (node.JObject? && !Truthy(Member(node, "last_run_iso")) ==> r == Success(None))
        && (node.JObject? && Truthy(Member(node, "last_run_iso")) && !Member(node, "last_run_iso").JString? ==>
              r == Success(None))
      ensures forall iso {:trigger IsoAt(state, key, iso)} :: IsoAt(state, key, iso) && iso != "" ==> r == Success(fmt.fromIsoformat(iso))
      ensures r.Success? && r.value.Some? ==> exists iso :: IsoAt(state, key, iso) && iso != "" && fmt.fromIsoformat(iso) == r.value
    {
      LastRunOf(state, key, fmt)
    }

    /**
     * `set_last_run`: stores `dt` (or `now` when absent) in UTC ISO form under the account and
     * saves; when the document has the wrong shape it raises before anything changes.
     */
    method SetLastRun(key: string, dt: Option<DateTime>, now: DateTime) returns (r: Result<(), StateError>)
      modifies this
      ensures var upd := WithLastRun(old(state), key, fmt.isoformat(AsUtc(dt.GetOr(now))));
        if upd.Failure? then
          r == Failure(upd.error) && state == old(state) && file == old(file) && tmpFile == old(tmpFile)
        else
          r == Success(()) && state == upd.value && file == Some(codec.dump(state)) && tmpFile == None
    {
      var stamp := if dt.Some? then dt.value else now;
      var iso := fmt.isoformat(AsUtc(stamp));
      var upd := WithLastRun(state, key, iso);
      if upd.Failure? {
        return Failure(upd.error);
      }
      state := upd.value;
      Save();
      r := Success(());
    }
  }

  /** Through the store: after a successful set, a get of the same account returns the stored instant in UTC. */
  method CheckpointRoundTrip(store: StateStore, key: string, dt: DateTime, now: DateTime)
      returns (stored: Result<(), StateError>, got: Result<Option<DateTime>, StateError>)
    requires IsoRoundTrip(store.fmt)
    modifies store
    ensures stored.Success? ==> got == Success(Some(AsUtc(dt)))
    ensures stored.Failure? ==> store.state == old(store.state) && got == LastRunOf(old(store.state), key, store.fmt)
  {
    stored := store.SetLastRun(key, Some(dt), now);
    if stored.Success? {
      SetThenGet(old(store.state), key, dt, store.fmt);
    }
    got := store.GetLastRun(key);
  }
}

=== FILE: summarizer.dfy ===
/**
 * The summarizer: the importance heuristic and the assembly of one email's summary around a
 * call to the Ollama model.
 * The HTTP call is supplied as a function; its `None` stands for any exception it raises.
 */
module Summarizer {
  import opened Wrappers
  import opened Text
  import opened Time
  import opened AttachmentParser
  import opened ImapFetcher

  // ---------------------------------------------------------------------------
  // Importance
  // ---------------------------------------------------------------------------

  const HighPriorityKeywords: seq<string> := [
    "urgent", "asap", "immediately", "deadline", "important",
    "action required", "response needed", "meeting", "call",
    "emergency", "critical", "priority"
  ]

  const KnownDomains: seq<string> := ["company.com", "workplace.org"]

  /**
   * `is_important`: the lowercased subject mentions a priority keyword, the lowercased sender
   * mentions a known domain, the email has attachments, or the subject starts with `re:` or
   * `fwd:`; in every other case it is not important.
   */
  function IsImportant(e: FetchedEmail): (r: bool)
    ensures r <==>
      || (exists k :: 0 <= k < |HighPriorityKeywords| && Contains(Lower(e.subject), HighPriorityKeywords[k]))
      || (exists k :: 0 <= k < |KnownDomains| && Contains(Lower(e.fromAddr), KnownDomains[k]))
      || e.attachments != []
      || StartsWith(Lower(e.subject), "re:")
      || StartsWith(Lower(e.subject), "fwd:")
  {
    var subject := Lower(e.subject);
    var fromAddr := Lower(e.fromAddr);
    if ContainsAny(subject, HighPriorityKeywords) then true
    else if ContainsAny(fromAddr, KnownDomains) then true
    else if e.attachments != [] then true
    else StartsWith(subject, "re:") || StartsWith(subject, "fwd:")
  }

  /** Replies are important whatever the case of their prefix: "RE: ..." lowercases to "re: ...". */
  lemma UpperCaseReplyIsImportant(e: FetchedEmail)
    requires |e.subject| >= 3 && e.subject[..3] == "RE:"
    ensures IsImportant(e)
  {
    assert Lower(e.subject)[..3] == "re:";
  }

  // ---------------------------------------------------------------------------
  // The model call
  // ---------------------------------------------------------------------------

  /** The JSON body and settings of the POST to `{url}/api/generate`. */
  datatype OllamaRequest = OllamaRequest(
    url: string,
    model: string,
    prompt: string,
    stream: bool,
    numPredict: int,
    temperature: real,
    timeoutSeconds: int)

  /**
   * What the summarizer calls out to: the attachment decoders, the date renderings, and the
   * POST returning the reply's `response` text (None when the request, the status check, the
   * JSON decoding or the strip raises).
   */
  datatype Services = Services(decoders: Decoders, fmt: TimeFormats, post: OllamaRequest -> Option<string>)

  const DefaultModel: string := "llama3.1:8b"
  const DefaultUrl: string := "http://localhost:11434"

  // ---------------------------------------------------------------------------
  // Summary assembly
  // ---------------------------------------------------------------------------

  /** One line per parsed attachment, its text cut to 1000 characters plus "..." when longer. */
  function AttachmentLine(p: ParsedAttachment): (r: string)
    ensures StartsWith(r, "Attachment '" + p.0 + "': ")
    ensures |r| <= 15 + |p.0| + 1003
    ensures |p.1| <= 1000 ==> r == "Attachment '" + p.0 + "': " + p.1
  {
    var head := "Attachment '" + p.0 + "': ";
    assert (head + Truncate(p.1, 1000))[..|head|] == head;
    head + Truncate(p.1, 1000)
  }

  /** The `attachment_summaries` list, one line per parsed attachment in order. */
  function AttachmentSummaries(parsed: seq<ParsedAttachment>): (r: seq<string>)
    ensures |r| == |parsed|
    ensures forall k :: 0 <= k < |r| ==> r[k] == AttachmentLine(parsed[k])
  {
    if parsed == [] then []
    else AttachmentSummaries(parsed[..|parsed| - 1]) + [AttachmentLine(parsed[|parsed| - 1])]
  }

  /** `attachment_text`: the lines joined by newlines, or "" when nothing parsed. */
  function AttachmentText(parsed: seq<ParsedAttachment>): string {
    if parsed == [] then "" else Join("\n", AttachmentSummaries(parsed))
  }

  /** `content_parts`: the body when non-empty, then the attachment text when non-empty. */
  function ContentParts(body: string, attachmentText: string): (r: seq<string>)
    ensures |r| == (if body != "" then 1 else 0) + (if attachmentText != "" then 1 else 0)
    ensures body != "" ==> r[0] == "Email body: " + body
    ensures attachmentText != "" ==> r[|r| - 1] == "Attachments: " + attachmentText
  {
    (if body != "" then ["Email body: " + body] else []) +
    (if attachmentText != "" then ["Attachments: " + attachmentText] else [])
  }

  /** The content parts of one email, its attachments parsed with `d`. */
  function ContentPartsOf(e: FetchedEmail, d: Decoders): seq<string> {
    ContentParts(e.bodyText, AttachmentText(ParseAllSpec(e.attachments, d)))
  }

  /** The text returned without a model call when there is nothing to summarize. */
  function NoContent(e: FetchedEmail): (r: string)
    ensures StartsWith(r, "Email from " + e.fromAddr + " with subject '" + e.subject)
    ensures EndsWith(r, "' (no readable content)")
  {
    var head, tail := "Email from " + e.fromAddr + " with subject '" + e.subject, "' (no readable content)";
    assert (head + tail)[..|head|] == head;
    assert (head + tail)[|head|..] == tail;
    head + tail
  }

  /** The bullets used when the model returns nothing: sender, subject, and the first 200 body characters. */
  function Fallback(e: FetchedEmail): (r: string)
    ensures StartsWith(r, FallbackHead(e))
    ensures EndsWith(r, "...")
    ensures |r| >= |FallbackHead(e)| + 3
    ensures r[|FallbackHead(e)|..|r| - 3] == e.bodyText[..if |e.bodyText| < 200 then |e.bodyText| else 200]
  {
    var head, body := FallbackHead(e), Prefix(e.bodyText, 200);
    var r := head + body + "...";
    assert r[..|head|] == head;
    assert r[|r| - 3..] == "...";
    assert r[|head|..|r| - 3] == body;
    r
  }

  /** The sender and subject bullets that open the fallback, up to the content bullet's label. */
  function FallbackHead(e: FetchedEmail): string {
    "\U{2022} From: " + e.fromAddr + "\n\U{2022} Subject: " + e.subject + "\n\U{2022} Content: "
  }

  /** The content given to the model: the parts joined by blank lines, cut to 3000 characters plus "...". */
  function Content(parts: seq<string>): (r: string)
    ensures |r| <= 3003
    ensures |Join("\n\n", parts)| <= 3000 ==> r == Join("\n\n", parts)
  {
    Truncate(Join("\n\n", parts), 3000)
  }

  /** The instruction that opens every prompt. */
  const Instruction: string :=
    "Summarize this email in 2-3 bullet points. Focus on key information, actions needed, and important details."

  /** The prompt, with the sender, subject, `str(date)` and content in place. */
  function Prompt(e: FetchedEmail, content: string, fmt: TimeFormats): (r: string)
    ensures StartsWith(r, Instruction)
    ensures EndsWith(r, "Content:\n" + content + "\n\nSummary:")
    ensures var tail := "Content:\n" + content + "\n\nSummary:";
      |Instruction| + |tail| <= |r| &&
      r[|Instruction|..|r| - |tail|] ==
        "\n\nFrom: " + e.fromAddr + "\nSubject: " + e.subject + "\nDate: " + fmt.show(e.date) + "\n\n"
  {
    var fields := "\n\nFrom: " + e.fromAddr + "\nSubject: " + e.subject + "\nDate: " + fmt.show(e.date) + "\n\n";
    var tail := "Content:\n" + content + "\n\nSummary:";
    var r := Instruction + fields + tail;
    assert r[..|Instruction|] == Instruction;
    assert r[|Instruction| + |fields|..] == tail;
    assert r[|Instruction|..|r| - |tail|] == fields;
    r
  }

  /** Some attachment line is non-empty, so a non-empty list of parsed attachments gives non-empty text. */
  lemma AttachmentTextNonEmpty(parsed: seq<ParsedAttachment>)
    ensures AttachmentText(parsed) == "" <==> parsed == []
  {
    if parsed != [] {
      JoinNonEmpty("\n", AttachmentSummaries(parsed), 0);
    }
  }

  /** There is nothing to summarize exactly when the body is empty and no attachment parsed to usable text. */
  lemma NothingToSummarize(e: FetchedEmail, d: Decoders)
    ensures ContentPartsOf(e, d) == [] <==>
      e.bodyText == "" && ParseAllSpec(e.attachments, d) == []
  {
    AttachmentTextNonEmpty(ParseAllSpec(e.attachments, d));
  }

  /** The loop building `attachment_summaries`, joined into `attachment_text`. */
  method BuildAttachmentText(parsed: seq<ParsedAttachment>) returns (attachmentText: string)
    ensures attachmentText == AttachmentText(parsed)
  {
    attachmentText := "";
    if parsed != [] {
      var summaries: seq<string> := [];
      for i := 0 to |parsed|
        invariant summaries == AttachmentSummaries(parsed[..i])
      {
        assert parsed[..i + 1][..i] == parsed[..i];
        var filename, text := parsed[i].0, parsed[i].1;
        if |text| > 1000 {
          text := text[..1000] + "...";
        }
        summaries := summaries + ["Attachment '" + filename + "': " + text];
      }
      assert parsed[..|parsed|] == parsed;
      attachmentText := Join("\n", summaries);
    }
  }

  /** The appends building `content_parts`. */
  method BuildContentParts(body: string, attachmentText: string) returns (parts: seq<string>)
    ensures parts == ContentParts(body, attachmentText)
  {
    parts := [];
    if body != "" {
      parts := parts + ["Email body: " + body];
    }
    if attachmentText != "" {
      parts := parts + ["Attachments: " + attachmentText];
    }
  }

  /** `content`: the parts joined by blank lines and cut to 3000 characters. */
  method CutContent(parts: seq<string>) returns (content: string)
    ensures content == Content(parts)
  {
    content := Join("\n\n", parts);
    if |content| > 3000 {
      content := content[..3000] + "...";
    }
  }

  /** The first half of `summarize_email`: parse the attachments, then build their lines and the content parts. */
  method PrepareContent(e: FetchedEmail, d: Decoders) returns (contentParts: seq<string>)
    ensures contentParts == ContentPartsOf(e, d)
  {
    var parsed := ParseAllAttachments(e.attachments, d);
    var attachmentText := BuildAttachmentText(parsed);
    contentParts := BuildContentParts(e.bodyText, attachmentText);
  }

  /**
   * The summarizer for one model at one Ollama URL. Its two settings are fixed at construction
   * and never reassigned, so it is a value.
   */
  datatype EmailSummarizer = EmailSummarizer(ollamaModel: string, ollamaUrl: string) {

    /** The request `_call_ollama` sends: non-streaming, at temperature 0.3, with a 60-second timeout. */
    function Request(prompt: string, maxTokens: int): (q: OllamaRequest)
      ensures q.prompt == prompt && q.numPredict == maxTokens && q.model == ollamaModel
      ensures !q.stream && q.temperature == 0.3 && q.timeoutSeconds == 60
      ensures q.url == ollamaUrl + "/api/generate"
    {
      OllamaRequest(ollamaUrl + "/api/generate", ollamaModel, prompt, false, maxTokens, 0.3, 60)
    }

    /** `_call_ollama`: the stripped reply, or "" when the call raises; never surrounded by whitespace. */
    function CallOllama(post: OllamaRequest -> Option<string>, prompt: string, maxTokens: int): (r: string)
      ensures Strip(r) == r
      ensures post(Request(prompt, maxTokens)).None? ==> r == ""
      ensures post(Request(prompt, maxTokens)).Some? ==> r == Strip(post(Request(prompt, maxTokens)).value)
    {
      var answer := post(Request(prompt, maxTokens));
      if answer.None? then ""
      else
        var reply := answer.value;
        StripIdempotent(reply);
        Strip(reply)
    }

    /** The summary of one email, as `summarize_email` assembles it. */
    function SummarySpec(e: FetchedEmail, svc: Services): (r: string)
      ensures r != ""
    {
      var parts := ContentPartsOf(e, svc.decoders);
      if parts == [] then NoContent(e) else ModelSummary(e, parts, svc)
    }

    /** The model's stripped reply on the prompt for `parts`, or the fallback bullets when it is empty. */
    function ModelSummary(e: FetchedEmail, parts: seq<string>, svc: Services): (r: string)
      ensures r != ""
    {
      var reply := CallOllama(svc.post, Prompt(e, Content(parts), svc.fmt), 200);
      if reply == "" then Fallback(e) else reply
    }

    /** The one request `summarize_email` sends for content parts `parts`. */
    function ModelRequest(e: FetchedEmail, parts: seq<string>, svc: Services): (q: OllamaRequest)
      ensures q.url == ollamaUrl + "/api/generate" && q.model == ollamaModel
      ensures !q.stream && q.numPredict == 200 && q.temperature == 0.3 && q.timeoutSeconds == 60
      ensures StartsWith(q.prompt, Instruction)
      ensures EndsWith(q.prompt, "Content:\n" + Content(parts) + "\n\nSummary:")
    {
      Request(Prompt(e, Content(parts), svc.fmt), 200)
    }

    /** The model is consulted only when there is content: otherwise the result does not depend on it. */
    lemma NoContentSkipsModel(e: FetchedEmail, svc: Services, post': OllamaRequest -> Option<string>)
      requires e.bodyText == "" && ParseAllSpec(e.attachments, svc.decoders) == []
      ensures SummarySpec(e, svc) == NoContent(e)
      ensures SummarySpec(e, svc.(post := post')) == NoContent(e)
    {
      NothingToSummarize(e, svc.decoders);
    }

    /** With content to summarize, a reply that strips to nothing (or a call that raised) yields the fallback bullets. */
    lemma EmptyReplyFallsBack(e: FetchedEmail, svc: Services)
      requires ContentPartsOf(e, svc.decoders) != []
      requires CallOllama(svc.post, Prompt(e, Content(ContentPartsOf(e, svc.decoders)), svc.fmt), 200) == ""
      ensures SummarySpec(e, svc) == Fallback(e)
    {
    }

    /** With content to summarize, a reply that is not empty once stripped is the summary. */
    lemma ModelReplyIsSummary(e: FetchedEmail, svc: Services)
      requires ContentPartsOf(e, svc.decoders) != []
      requires CallOllama(svc.post, Prompt(e, Content(ContentPartsOf(e, svc.decoders)), svc.fmt), 200) != ""
      ensures SummarySpec(e, svc) == CallOllama(svc.post, Prompt(e, Content(ContentPartsOf(e, svc.decoders)), svc.fmt), 200)
    {
    }

    /** The second half of `summarize_email`: the cut to 3000 characters, the prompt, the call and the fallback. */
    method SummarizeContent(e: FetchedEmail, svc: Services, contentParts: seq<string>)
        returns (summary: string, ghost request: OllamaRequest)
      ensures summary == ModelSummary(e, contentParts, svc)
      ensures request == ModelRequest(e, contentParts, svc)
    {
      var content := CutContent(contentParts);
      var prompt := Prompt(e, content, svc.fmt);
      assert prompt == Prompt(e, Content(contentParts), svc.fmt);
      request := ModelRequest(e, contentParts, svc);
      summary := CallOllama(svc.post, prompt, 200);
      if summary == "" {
        summary := Fallback(e);
      }
    }

    /**
     * `summarize_email`: parses the attachments, builds the attachment lines and content parts in
     * loops, and calls the model at most once, only when there is content.
     */
    method SummarizeEmail(e: FetchedEmail, svc: Services) returns (summary: string, ghost requests: seq<OllamaRequest>)
      ensures summary == SummarySpec(e, svc)
      ensures requests == ModelCalls(this, e, svc)
    {
      var contentParts := PrepareContent(e, svc.decoders);
      if contentParts == [] {
        return NoContent(e), [];
      }
      ghost var request;
      summary, request := SummarizeContent(e, svc, contentParts);
      requests := [request];
    }

  }

  /** The requests `summarize_email` sends: one when there is content, none otherwise. */
  function ModelCalls(s: EmailSummarizer, e: FetchedEmail, svc: Services): (r: seq<OllamaRequest>)
    ensures |r| <= 1
    ensures r == [] <==> e.bodyText == "" && ParseAllSpec(e.attachments, svc.decoders) == []
  {
    NothingToSummarize(e, svc.decoders);
    var parts := ContentPartsOf(e, svc.decoders);
    if parts == [] then [] else [s.ModelRequest(e, parts, svc)]
  }
}

=== FILE: text.dfy ===
/**
 * The slice of Python's built-in behaviour the mail pipeline relies on:
 * `strip`, `lower`, `startswith`, `endswith`, `in` on strings, `split`, `join`, slicing,
 * and a first-match search over lists.
 * Strings are sequences of Unicode scalar values, as Python's `str` is a sequence of code points.
 */
module Text {

  type Bytes = seq<bv8>

  /** The characters Python's `str.isspace` accepts, which are the ones `str.strip()` removes. */
  predicate IsSpace(c: char) {
    || c == ' '
    || ('\t' <= c <= '\r')
    || ('\U{1C}' <= c <= '\U{1F}')
    || c == '\U{85}' || c == '\U{A0}' || c == '\U{1680}'
    || ('\U{2000}' <= c <= '\U{200A}')
    || c == '\U{2028}' || c == '\U{2029}' || c == '\U{202F}' || c == '\U{205F}' || c == '\U{3000}'
  }

  predicate AllSpace(s: string) {
    forall k :: 0 <= k < |s| ==> IsSpace(s[k])
  }

  /** `s.lstrip()`: the suffix of `s` left after dropping leading whitespace. */
  function TrimLeft(s: string): (r: string)
    ensures |r| <= |s| && r == s[|s| - |r|..]
    ensures r != [] ==> !IsSpace(r[0])
  {
    if |s| > 0 && IsSpace(s[0]) then TrimLeft(s[1..]) else s
  }

  /** What `lstrip` drops is whitespace. */
  lemma {:induction false} TrimLeftDropsSpace(s: string)
    ensures forall k :: 0 <= k < |s| - |TrimLeft(s)| ==> IsSpace(s[k])
  {
    if |s| > 0 && IsSpace(s[0]) {
      TrimLeftDropsSpace(s[1..]);
      forall k | 1 <= k < |s| - |TrimLeft(s)| ensures IsSpace(s[k]) {
        assert s[k] == s[1..][k - 1];
      }
    }
  }

  /** `s.rstrip()`: the prefix of `s` left after dropping trailing whitespace. */
  function TrimRight(s: string): (r: string)
    ensures |r| <= |s| && r == s[..|r|]
    ensures r != [] ==> !IsSpace(r[|r| - 1])
  {
    if |s| > 0 && IsSpace(s[|s| - 1]) then TrimRight(s[..|s| - 1]) else s
  }

  /** What `rstrip` drops is whitespace. */
  lemma {:induction false} TrimRightDropsSpace(s: string)
    ensures forall k :: |TrimRight(s)| <= k < |s| ==> IsSpace(s[k])
  {
    if |s| > 0 && IsSpace(s[|s| - 1]) {
      TrimRightDropsSpace(s[..|s| - 1]);
    }
  }

  /** `s.strip()`. */
  function Strip(s: string): (r: string)
    ensures |r| <= |s|
    ensures r == "" <==> AllSpace(s)
    ensures r != "" ==> !IsSpace(r[0]) && !IsSpace(r[|r| - 1])
  {
    var l := TrimLeft(s);
    TrimLeftDropsSpace(s);
    TrimRightDropsSpace(l);
    assert AllSpace(s) ==> AllSpace(l);
    TrimRight(l)
  }

  /** Stripping twice is stripping once: a stripped string has no whitespace at either end. */
  lemma StripIdempotent(s: string)
    ensures Strip(Strip(s)) == Strip(s)
  {
    var r := Strip(s);
    if r != "" {
      assert !IsSpace(r[0]) && !IsSpace(r[|r| - 1]);
      assert TrimLeft(r) == r;
      assert TrimRight(r) == r;
    } else {
      assert TrimLeft(r) == r && TrimRight(r) == r;
    }
    assert Strip(r) == TrimRight(TrimLeft(r));
  }

  /** Stripping only removes characters: whatever the result holds, the original held. */
  lemma StripKeepsCharacters(s: string)
    ensures forall c :: c in Strip(s) ==> c in s
  {
    var l := TrimLeft(s);
    var r := TrimRight(l);
    assert forall c :: c in r ==> c in l;
    assert forall c :: c in l ==> c in s;
  }

  /** A string whose ends are not whitespace is left alone by strip. */
  lemma StripUntouched(s: string)
    requires s != [] && !IsSpace(s[0]) && !IsSpace(s[|s| - 1])
    ensures Strip(s) == s
  {
  }

  /** Python's `str.lower()` on ASCII letters. */
  function LowerChar(c: char): char {
    if 'A' <= c <= 'Z' then (c as int - 'A' as int + 'a' as int) as char else c
  }

  function Lower(s: string): (r: string)
    ensures |r| == |s|
    ensures forall k :: 0 <= k < |s| ==> r[k] == LowerChar(s[k])
  {
    seq(|s|, k requires 0 <= k < |s| => LowerChar(s[k]))
  }

  predicate StartsWith(s: string, prefix: string) {
    |prefix| <= |s| && s[..|prefix|] == prefix
  }

  predicate EndsWith(s: string, suffix: string) {
    |suffix| <= |s| && s[|s| - |suffix|..] == suffix
  }

  /** `s.endswith(tuple_of_suffixes)`. */
  predicate EndsWithAny(s: string, suffixes: seq<string>) {
    exists k :: 0 <= k < |suffixes| && EndsWith(s, suffixes[k])
  }

  /** `needle in s` for strings: `needle` occurs at some position of `s`. */
  predicate OccursAt(s: string, needle: string, i: int) {
    0 <= i && i + |needle| <= |s| && s[i..i + |needle|] == needle
  }

  /** Python's substring test `needle in s`, searched from the left. */
  function Contains(s: string, needle: string): (r: bool)
    ensures r <==> exists i :: OccursAt(s, needle, i)
  {
    if StartsWith(s, needle) then
      assert OccursAt(s, needle, 0);
      true
    else if |s| == 0 then
      assert forall i :: !OccursAt(s, needle, i);
      false
    else
      var r := Contains(s[1..], needle);
      assert forall i :: OccursAt(s[1..], needle, i) <==> OccursAt(s, needle, i + 1) by {
        forall i ensures OccursAt(s[1..], needle, i) <==> OccursAt(s, needle, i + 1) {
          if 0 <= i && i + |needle| <= |s| - 1 {
            var a, b := s[1..][i..i + |needle|], s[i + 1..i + 1 + |needle|];
            assert forall j :: 0 <= j < |a| ==> a[j] == b[j];
            assert a == b;
          }
        }
      }
      assert r ==> exists i :: OccursAt(s, needle, i) by {
        if r {
          var i :| OccursAt(s[1..], needle, i);
          assert OccursAt(s, needle, i + 1);
        }
      }
      assert (exists i :: OccursAt(s, needle, i)) ==> r by {
        if exists i :: OccursAt(s, needle, i) {
          var i :| OccursAt(s, needle, i);
          assert i != 0;
          assert OccursAt(s[1..], needle, i - 1);
        }
      }
      r
  }

  /** `any(word in s for word in words)`. */
  function ContainsAny(s: string, words: seq<string>): (r: bool)
    ensures r <==> exists k :: 0 <= k < |words| && Contains(s, words[k])
  {
    if words == [] then false
    else if Contains(s, words[0]) then true
    else
      assert forall k :: 1 <= k < |words| ==> words[k] == words[1..][k - 1];
      ContainsAny(s, words[1..])
  }

  /** The index of the first `c` in `s`, as `str.find` gives it (None for -1). */
  function FindChar(s: string, c: char): (r: int)
    ensures -1 <= r < |s|
    ensures r == -1 <==> c !in s
    ensures r >= 0 ==> s[r] == c && c !in s[..r]
  {
    if |s| == 0 then -1
    else if s[0] == c then 0
    else
      var t := FindChar(s[1..], c);
      assert s == [s[0]] + s[1..];
      if t == -1 then -1
      else
        assert s[..t + 1] == [s[0]] + s[1..][..t];
        t + 1
  }

  /** The index of the first element satisfying `P`, or -1 when there is none. */
  function FirstIndex<T>(s: seq<T>, P: T -> bool): (r: int)
    ensures -1 <= r < |s|
    ensures r == -1 <==> forall k :: 0 <= k < |s| ==> !P(s[k])
    ensures r >= 0 ==> P(s[r]) && forall k :: 0 <= k < r ==> !P(s[k])
  {
    if s == [] then -1
    else if P(s[0]) then 0
    else
      var t := FirstIndex(s[1..], P);
      if t == -1 then -1 else t + 1
  }

  /** `sep.join(parts)`. */
  function Join(sep: string, parts: seq<string>): string {
    if parts == [] then ""
    else if |parts| == 1 then parts[0]
    else parts[0] + sep + Join(sep, parts[1..])
  }

  /** Joining a head onto a non-empty list puts the separator between them. */
  lemma JoinCons(sep: string, head: string, rest: seq<string>)
    requires rest != []
    ensures Join(sep, [head] + rest) == head + sep + Join(sep, rest)
  {
    assert ([head] + rest)[1..] == rest;
  }

  /** A join begins with its first piece. */
  lemma JoinStartsWith(sep: string, parts: seq<string>)
    requires parts != []
    ensures StartsWith(Join(sep, parts), parts[0])
  {
    if |parts| > 1 {
      assert (parts[0] + sep + Join(sep, parts[1..]))[..|parts[0]|] == parts[0];
    }
  }

  /** Joining pieces that are not all empty gives a non-empty string. */
  lemma {:induction false} JoinNonEmpty(sep: string, parts: seq<string>, k: int)
    requires 0 <= k < |parts| && parts[k] != ""
    ensures Join(sep, parts) != ""
  {
    if |parts| > 1 && k > 0 {
      JoinNonEmpty(sep, parts[1..], k - 1);
    }
  }

  /** The non-empty strings of `ts`, in order (a list comprehension `[t for t in ts if t]`). */
  function NonEmptyParts(ts: seq<string>): (r: seq<string>)
    ensures |r| <= |ts|
    ensures forall k :: 0 <= k < |r| ==> r[k] != "" && r[k] in ts
  {
    if ts == [] then []
    else
      var init := ts[..|ts| - 1];
      assert forall t :: t in init ==> t in ts;
      NonEmptyParts(init) + (if ts[|ts| - 1] != "" then [ts[|ts| - 1]] else [])
  }

  /** One more piece is kept exactly when it is non-empty. */
  lemma NonEmptyPartsSnoc(ts: seq<string>, t: string)
    ensures NonEmptyParts(ts + [t]) == NonEmptyParts(ts) + (if t != "" then [t] else [])
  {
    assert (ts + [t])[..|ts|] == ts;
  }

  /** The same, for the prefixes a loop walks through. */
  lemma NonEmptyPartsPrefix(ts: seq<string>, i: int)
    requires 0 <= i < |ts|
    ensures NonEmptyParts(ts[..i + 1]) == NonEmptyParts(ts[..i]) + (if ts[i] != "" then [ts[i]] else [])
  {
    assert ts[..i + 1] == ts[..i] + [ts[i]];
    NonEmptyPartsSnoc(ts[..i], ts[i]);
  }

  /** No non-empty piece is dropped. */
  lemma {:induction false} NonEmptyPartsComplete(ts: seq<string>)
    ensures forall k :: 0 <= k < |ts| && ts[k] != "" ==> ts[k] in NonEmptyParts(ts)
  {
    if ts != [] {
      var init := ts[..|ts| - 1];
      NonEmptyPartsComplete(init);
      assert ts == init + [ts[|ts| - 1]];
      NonEmptyPartsSnoc(init, ts[|ts| - 1]);
      forall k | 0 <= k < |ts| - 1 && ts[k] != "" ensures ts[k] in NonEmptyParts(ts) {
        assert init[k] == ts[k];
      }
    }
  }

  /** Filtering a concatenation filters each part, in order. */
  lemma {:induction false} NonEmptyPartsAppend(xs: seq<string>, ys: seq<string>)
    ensures NonEmptyParts(xs + ys) == NonEmptyParts(xs) + NonEmptyParts(ys)
    decreases |ys|
  {
    if ys == [] {
      assert xs + ys == xs;
    } else {
      var init, last := ys[..|ys| - 1], ys[|ys| - 1];
      NonEmptyPartsAppend(xs, init);
      assert xs + ys == (xs + init) + [last];
      assert ys == init + [last];
      NonEmptyPartsSnoc(xs + init, last);
      NonEmptyPartsSnoc(init, last);
    }
  }

  /** Nothing is collected exactly when every string is empty. */
  lemma {:induction false} NonEmptyPartsEmpty(ts: seq<string>)
    ensures NonEmptyParts(ts) == [] <==> forall k :: 0 <= k < |ts| ==> ts[k] == ""
  {
    if ts != [] {
      var init := ts[..|ts| - 1];
      NonEmptyPartsEmpty(init);
      if forall k :: 0 <= k < |ts| ==> ts[k] == "" {
        forall k | 0 <= k < |init| ensures init[k] == "" {
          assert init[k] == ts[k];
        }
      } else {
        var k :| 0 <= k < |ts| && ts[k] != "";
        if k < |init| {
          assert init[k] == ts[k];
        }
      }
    }
  }

  /** A slice inside the left operand of a concatenation. */
  lemma SliceLeft<T>(a: seq<T>, b: seq<T>, i: int, j: int)
    requires 0 <= i <= j <= |a|
    ensures (a + b)[i..j] == a[i..j]
  {
  }

  /** A slice inside the right operand of a concatenation. */
  lemma SliceRight<T>(a: seq<T>, b: seq<T>, i: int, j: int)
    requires |a| <= i <= j <= |a| + |b|
    ensures (a + b)[i..j] == b[i - |a|..j - |a|]
  {
  }

  /** `s.split(c)` for a single-character separator: always at least one piece. */
  function Split(s: string, c: char): (r: seq<string>)
    ensures |r| >= 1
    ensures forall k :: 0 <= k < |r| ==> c !in r[k]
    decreases |s|
  {
    var i := FindChar(s, c);
    if i == -1 then [s] else [s[..i]] + Split(s[i + 1..], c)
  }

  /** Splitting two strings joined by the separator splits each of them, in order. */
  lemma {:induction false} SplitAppend(a: string, c: char, b: string)
    ensures Split(a + [c] + b, c) == Split(a, c) + Split(b, c)
    decreases |a|
  {
    var i := FindChar(a, c);
    if i == -1 {
      SplitAtFirst(a, c, b);
      assert Split(a, c) == [a];
    } else {
      var head, rest := a[..i], a[i + 1..];
      assert a == head + [c] + rest;
      SplitAppend(rest, c, b);
      SplitAppendStep(head, rest, c, b);
    }
  }

  /** The inductive step of `SplitAppend`: a first piece before the separator stays first. */
  lemma SplitAppendStep(head: string, rest: string, c: char, b: string)
    requires c !in head
    requires Split(rest + [c] + b, c) == Split(rest, c) + Split(b, c)
    ensures Split(head + [c] + rest + [c] + b, c) == Split(head + [c] + rest, c) + Split(b, c)
  {
    SplitAtFirst(head, c, rest);
    ConcatAssoc(head + [c], rest + [c], b);
    ConcatAssoc(head + [c], rest, [c]);
    SplitAtFirst(head, c, rest + [c] + b);
    ConcatAssoc([head], Split(rest, c), Split(b, c));
  }

  /** Concatenation is associative. */
  lemma ConcatAssoc<T>(x: seq<T>, y: seq<T>, z: seq<T>)
    ensures x + (y + z) == x + y + z
  {
  }

  /** A character absent from the string is absent from every piece `split` cuts from it. */
  lemma {:induction false} SplitAvoids(s: string, c: char, d: char)
    requires d !in s
    ensures forall k :: 0 <= k < |Split(s, c)| ==> d !in Split(s, c)[k]
    decreases |s|
  {
    var i := FindChar(s, c);
    if i != -1 {
      SplitAvoids(s[i + 1..], c, d);
      assert forall j :: 0 <= j < i ==> s[..i][j] == s[j];
    }
  }

  /** `split` and `join` are inverse: joining the pieces with the separator gives the string back. */
  lemma {:induction false} SplitJoin(s: string, c: char)
    ensures Join([c], Split(s, c)) == s
    decreases |s|
  {
    var i := FindChar(s, c);
    if i == -1 {
      assert Split(s, c) == [s];
    } else {
      var rest := s[i + 1..];
      var pieces := Split(rest, c);
      SplitJoin(rest, c);
      assert Split(s, c) == [s[..i]] + pieces;
      JoinCons([c], s[..i], pieces);
      assert s == s[..i] + [c] + rest;
    }
  }

  /** Splitting a join at its one-character separator gives the pieces back, when none holds the separator. */
  lemma {:induction false} JoinSplit(parts: seq<string>, c: char)
    requires parts != []
    requires forall k :: 0 <= k < |parts| ==> c !in parts[k]
    ensures Split(Join([c], parts), c) == parts
    decreases |parts|
  {
    if |parts| == 1 {
      assert Join([c], parts) == parts[0];
    } else {
      var head, rest := parts[0], parts[1..];
      var tail := Join([c], rest);
      assert Join([c], parts) == head + [c] + tail;
      SplitAtFirst(head, c, tail);
      JoinSplit(rest, c);
      assert parts == [head] + rest;
    }
  }

  /** The first separator after a separator-free head ends the first piece. */
  lemma SplitAtFirst(head: string, c: char, tail: string)
    requires c !in head
    ensures Split(head + [c] + tail, c) == [head] + Split(tail, c)
  {
    var s := head + [c] + tail;
    assert s[|head|] == c;
    var i := FindChar(s, c);
    assert i == |head|;
    assert s[..i] == head;
    assert s[i + 1..] == tail;
  }

  /** A join holds a character only when a piece or the separator does. */
  lemma {:induction false} JoinAvoids(sep: string, parts: seq<string>, c: char)
    requires c !in sep
    requires forall k :: 0 <= k < |parts| ==> c !in parts[k]
    ensures c !in Join(sep, parts)
    decreases |parts|
  {
    if |parts| > 1 {
      JoinAvoids(sep, parts[1..], c);
    }
  }

  /** `s[:n] + "..."` when `len(s) > n`, else `s`: the truncation the summarizer applies. */
  function Truncate(s: string, n: nat): (r: string)
    ensures |r| <= n + 3
    ensures |s| <= n ==> r == s
    ensures |s| > n ==> |r| == n + 3 && r[..n] == s[..n] && r[n..] == "..."
  {
    if |s| > n then s[..n] + "..." else s
  }

  /** Python slicing `s[:n]`, which clamps at the end of the string. */
  function Prefix(s: string, n: nat): (r: string)
    ensures |r| == if |s| < n then |s| else n
    ensures StartsWith(s, r)
  {
    if |s| <= n then s else s[..n]
  }

  /** Decimal rendering of a count, as an f-string renders an `int`. */
  function NatToString(n: nat): (r: string)
    ensures r != ""
    ensures forall k :: 0 <= k < |r| ==> '0' <= r[k] <= '9'
  {
    var d := ['0' + (n % 10) as char];
    if n < 10 then d else NatToString(n / 10) + d
  }
}

=== FILE: time.dfy ===
/**
 * Timezone-aware datetimes, reduced to what the pipeline does with them: convert to UTC,
 * step back one day, and hand them to formatters and parsers it does not implement itself.
 */
module Time {
  import opened Wrappers

  const MicrosPerDay: int := 86_400 * 1_000_000

  /** An aware `datetime`: the instant (microseconds since the epoch, UTC) and the offset it is shown in. */
  datatype DateTime = DateTime(epochMicros: int, utcOffsetSeconds: int)

  /** `dt.astimezone(timezone.utc)`: the same instant, expressed in UTC. */
  function AsUtc(dt: DateTime): (r: DateTime)
    ensures r.epochMicros == dt.epochMicros && r.utcOffsetSeconds == 0
  {
    DateTime(dt.epochMicros, 0)
  }

  /** `dt - timedelta(days=1)`: one day earlier, in the same offset. */
  function MinusOneDay(dt: DateTime): (r: DateTime)
    ensures r.epochMicros + MicrosPerDay == dt.epochMicros
    ensures r.utcOffsetSeconds == dt.utcOffsetSeconds
  {
    DateTime(dt.epochMicros - MicrosPerDay, dt.utcOffsetSeconds)
  }

  /**
   * Converting to UTC is idempotent, stepping back a day commutes with it, and the day
   * before is strictly earlier: the fetch window `(now - 1 day)` in UTC starts before `now`.
   */
  lemma UtcLaws(dt: DateTime)
    ensures AsUtc(AsUtc(dt)) == AsUtc(dt)
    ensures MinusOneDay(AsUtc(dt)) == AsUtc(MinusOneDay(dt))
    ensures MinusOneDay(dt).epochMicros < dt.epochMicros
    ensures AsUtc(MinusOneDay(AsUtc(dt))).epochMicros < AsUtc(dt).epochMicros
  {
  }

  /**
   * The text renderings of datetimes the pipeline uses, and the ISO parser:
   * `isoformat()`, `datetime.fromisoformat` (None when it raises), `strftime("%d-%b-%Y")`
   * for IMAP SINCE, `strftime("%Y-%m-%d")`, `strftime("%H:%M")` and `str(dt)`.
   */
  datatype TimeFormats = TimeFormats(
    isoformat: DateTime -> string,
    fromIsoformat: string -> Option<DateTime>,
    imapDate: DateTime -> string,
    ymd: DateTime -> string,
    hourMinute: DateTime -> string,
    show: DateTime -> string)

  /** What the standard library guarantees of `isoformat`/`fromisoformat`: a non-empty text that parses back. */
  ghost predicate IsoRoundTrip(f: TimeFormats) {
    forall dt :: f.isoformat(dt) != "" && f.fromIsoformat(f.isoformat(dt)) == Some(dt)
  }
}

=== FILE: wrappers.dfy ===
/** Optional values and results, standing in for Python's None and raised exceptions. */
module Wrappers {

  datatype Option<+T> = None | Some(value: T) {
    /** The value, or `default` when there is none (`x if x is not None else default`). */
    function GetOr(default: T): T {
      match this
      case Some(v) => v
      case None => default
    }
  }

  /** Success carries the value; Failure names the exception the source would raise. */
  datatype Result<+T, +E> = Success(value: T) | Failure(error: E)
}
